=== FILE: README.md ===
# John-Flavortown core, modelled in Dafny

John-Flavortown is a Discord bot. It fronts two HTTP services:

- the Flavortown API, which covers users, projects, devlogs and the shop;
- the Hackatime API, which reports coding time.

Users log in by typing their Flavortown API key and a password. The key is verified against
the API, encrypted with the password and stored in a local key table. Commands that need the
key ask for the password again to unlock it.

This project models the core of the bot as pure functions over immutable data. It proves the
properties the code promises.

| module | file | what it models |
|---|---|---|
| `Wrappers` | wrappers.dfy | `Option` and `Result` |
| `Text` | text.dfy | decimal rendering and parsing of integers, `str.strip`, substring search |
| `Http` | http.dfy | the retrying request executor of `bot/http.py`: backoff schedule, 401 handling, error formatting, bearer header |
| `Api` | api.dfy | the Flavortown client of `bot/api.py`: headers, URLs, query parameters, the 404 rewrite, over the executor as written and over the corrected one |
| `Hackatime` | hackatime.dfy | the Hackatime client of `bot/hackatime.py` |
| `Storage` | storage.dfy | the key table of `bot/storage.py` (upsert, lookup, delete, presence) |
| `Utils` | utils.dfy | `format_seconds`, `clamp_page`, `calculate_total_pages`, `iter_chunked` |
| `Views` | views.dfy | the pagination views, the confirm view, description truncation, shop pages, devlog fields |
| `Search` | search.dfy | the `search` and `list` commands of `bot/cogs/search.py` |
| `Commands` | commands.dfy | the older command cog `bot/cogs/commands.py`, related to the newer one |
| `Settings` | settings.dfy | the `settings` command group |
| `System` | system.dfy | the uptime text of the `system` cog |
| `Login` | login.dfy | login, the key lookup of the other cogs, unlock, `require_auth`, `logout`, `status` |
| `Projects` | projects.dfy | `project mine`, `project create`, `project update` |
| `Devlogs` | devlogs.dfy | `devlog list`, `devlog view`, `devlog create` |

Effects are modelled as data:

- **Network.** A network answer is a value of type `Http.Answer`: a response with a status and
  a body, or a transport failure. A request takes the sequence of answers the server would give
  to successive attempts.
- **Sleeping.** A sleep is recorded as its length in milliseconds.
- **Database.** The database is a map from user id to row, and the clock is a parameter.
- **Oracles.** The following are parameters whose behaviour the model does not fix:
  - the cipher;
  - the time-zone database;
  - field validation;
  - demo mode;
  - the user's answer to a confirmation;
  - the contents of attachments;
  - the API calls that `bot/api.py` does not define.

## Model

| member | source | states |
|---|---|---|
| Http.StatusText | bot/http.py:16 | the status is shown as "unknown" exactly when no status is known |
| Http.FormatErrorStatus | bot/http.py:15-17 | the status can be read back from every formatted error message, and a message without a status reads back as none |
| Http.BearerReadsBack | bot/api.py:14 | the Authorization value is "Bearer " followed by the key, and the key can be recovered from it |
| Http.AttemptFacts | bot/http.py:35-83 | from any attempt on: attempts go on only through retryable answers and stop at the first other one or at the third attempt; the backoffs of the retried attempts are slept; the outcome is that of the answer where they stopped |
| Http.AttemptStops | bot/http.py:35-48 | attempts go on exactly while the answers are transient, and never past the third |
| Http.AttemptSleeps | bot/http.py:46-48 | the sleeps are the backoffs of the retried attempts, in order, and the outcome is that of the last answer |
| Http.RetrySchedule | bot/http.py:32-48 | one to three attempts; every attempt but the last saw a transient status; a request with fewer than three attempts ended on a non-transient answer; the sleeps are the first backoffs, one per retry |
| Http.FinalAnswerDecides | bot/http.py:35-83 | a request returns exactly when its last answer is a response whose status neither is 401 nor raises, and then returns that body; every failure is raised as the caller's error class |
| Http.RunRequest | bot/http.py:20-83 | the looping executor computes the attempts, sleeps and outcome of the recursive model |
| Http.UnauthorizedNotRetried | bot/http.py:50-58 | a 401 after only transient answers ends the request on that attempt with the unauthorized message and status 401 |
| Http.ExhaustedRetriesFail | bot/http.py:35-48 | when three attempts are all transient failures, the request sleeps both backoffs and fails with the third attempt's error |
| Http.NoFurtherAttempts | bot/http.py:35 | two answer sequences that agree on the answers a request consulted give the same request |
| Http.ErrorStatusAlwaysUnknown | bot/http.py:62-73 | as written, with a response truthy exactly when `raise_for_status` would not raise (its `ok` flag): every HTTP error other than 401 is reported with status "unknown" and the exception's text |
| Http.PresentResponses | bot/http.py:63-64 | the corrected test treats every response as present and leaves transport failures as they are |
| Http.StatusReported | bot/http.py:62-73 | with the corrected test, the request retries and returns as before, and an HTTP error reports the status of the response and its stripped text |
| Http.PresentAttempt | bot/http.py:35-73 | the corrected test changes neither the number of attempts nor a returned body |
| Api.Headers | bot/api.py:8-19 | an empty key raises "Not logged in." before any request; otherwise exactly the bearer header, the JSON content type and the extension flag are sent, in that order, with the key recoverable from the first |
| Api.SearchParamsShape | bot/api.py:21-26 | the page is always sent first; the query is sent exactly when it is non-empty, and then as given |
| Api.UrlNamesId | bot/api.py:28-69 | each per-id URL names exactly the id it was built for, and the devlogs URL also carries the devlogs suffix |
| Api.FetchWithoutKey | bot/api.py:8-11 | without a key every call fails with the missing-key error, whatever the server would answer, over either executor |
| Api.FetchFacts | bot/api.py:28-69 | with a key, a call over the executor as written returns exactly when the executor returns, and then its body; every failure is an `APIError` |
| Api.NotFoundMessageMarked | bot/api.py:33 | every formatted error with status 404 contains the "status=404" text the clients test for |
| Api.MessageUnmarked | bot/api.py:33 | a formatted error with status unknown or 401, from an action and URL without '=', contains "status=404" only if its detail does |
| Api.FailureUnmarked | bot/http.py:50-83 | as written, with the library's truthiness, a failed call's message contains "status=404" only if the last exception's text does: a 401 gets the fixed detail, and every other HTTP error or transport failure gets the exception text with status unknown |
| Api.LabelsLackEquals | bot/api.py:21-69 | no action name and no URL of the client contains '=' |
| Api.FetchPassesOn | bot/api.py:28-69 | a failure without the 404 text, and any failure of a call without a rewrite, is passed on unchanged; as written, with the library's truthiness, every failure is passed on unchanged unless the exception text of the last answer itself contains "status=404" |
| Api.UserNotFoundNotRewritten | bot/api.py:28-35 | as written, a user lookup answered 404 fails with the executor's generic message with status unknown, and not with the "not found" message |
| Api.FetchNotFound | bot/api.py:28-35 | over the corrected executor, a by-id call whose last answer is a 404 fails with the "not found" message for that id |
| Hackatime.Headers | bot/hackatime.py:9-13 | an empty key raises the Hackatime error; otherwise only the bearer header is sent, with the key recoverable from it |
| Hackatime.StatsUrlNamesUser | bot/hackatime.py:20-23 | the stats URL names exactly the user it was built for, whatever characters the name has |
| Hackatime.TodayIsNotStats | bot/hackatime.py:15-23 | the today URL is not any user's stats URL |
| Hackatime.FetchFacts | bot/hackatime.py:9-23 | without a key every call fails with the key message; with one, a call over the executor as written returns or raises exactly what the executor does; every failure is a Hackatime error |
| Storage.Store | bot/storage.py:47-67 | afterwards the user's row holds the new encrypted key and salt and is updated now; the creation time is kept for an existing row and set to now for a new one; no other row changes |
| Storage.Get | bot/storage.py:70-88 | the row's encrypted key and salt, in that order, when the user has a row, and none otherwise |
| Storage.Delete | bot/storage.py:91-104 | the row is gone afterwards, and the report says whether there was one |
| Storage.Has | bot/storage.py:107-117 | true exactly when a row exists |
| Storage.StoreThenGet | bot/storage.py:47-88 | a lookup after a store gives back the stored pair |
| Storage.HasAgreesWithGet | bot/storage.py:70-117 | presence agrees with lookup |
| Storage.DeleteThenGet | bot/storage.py:70-104 | after a delete the lookup finds nothing |
| Storage.OthersUnchanged | bot/storage.py:47-104 | a store or delete for one user leaves every other user's row as it was |
| Storage.StoreOverwrites | bot/storage.py:58-65 | a second store replaces the pair but keeps the first creation time |
| Utils.FormatSecondsReadsBack | bot/utils.py:8-21 | for every integer, the text reads back as what it shows: the seconds below a minute, whole minutes below an hour, whole hours and the remaining whole minutes above |
| Utils.FormatWholeHours | bot/utils.py:17-21 | with less than a minute past the hour, the text is the hour count alone and reads back as the hours |
| Utils.FormatHoursMinutes | bot/utils.py:17-21 | with a minute or more past the hour, the text is the hour count, a space and the minute count, and reads back as the hours and the whole minutes |
| Utils.ZeroMinutesNotRead | bot/utils.py:19-21 | a text showing hours and zero minutes is not a valid duration, as the minutes are shown only when there are some |
| Utils.ShownTruncatesToMinutes | bot/utils.py:12-21 | below a minute every second is shown; from a minute up, the duration shown is the whole minutes in it, dropping under a minute |
| Utils.ClampPage | bot/utils.py:24-26 | always in 1..max(1, total); a page in range is kept, one below goes to 1 and one above to the last page |
| Utils.ClampPageIdempotent | bot/utils.py:24-26 | clamping twice is clamping once |
| Utils.ClampPageNearest | bot/utils.py:24-26 | the clamped page is the page in range nearest to the requested one |
| Utils.TotalPages | bot/utils.py:29-32 | at least one page, and exactly one for a page size below 1; otherwise that many pages hold every item and one page fewer does not |
| Utils.IterChunked | bot/utils.py:45-54 | the chunks concatenate to the input; none is empty; every chunk but the last holds exactly `size` items (one when the size is below 1) |
| Views.LabelReadsBack | bot/cogs/views.py:49-52 | the page label reads back as the current page and the total |
| Views.ButtonsGuardRange | bot/cogs/views.py:49-52 | Previous is enabled exactly when going back stays at page 1 or above, and Next exactly when going forward stays at or below the last page |
| Views.NavigateStaysInRange | bot/cogs/views.py:49-80 | starting in range, any sequence of clicks the enabled buttons allow keeps the page in 1..total and the total unchanged |
| Views.ClickCommitsBeforeFetch | bot/cogs/views.py:58-80 | a click moves the page by exactly one and refreshes the buttons, whatever the fetch returns; the new page is the one fetched; a failed fetch is reported as an API error |
| Views.ShopPageWindow | bot/cogs/views.py:220-223 | a shop page holds the items from (page-1)*size up to page*size, cut off at the end of the shop |
| Views.ShopPagesPrefix | bot/cogs/views.py:220-223 | the first k pages of the shop concatenate to the first k*size items |
| Views.ShopPagesPartition | bot/cogs/views.py:220-223 | pages 1..total, concatenated, are exactly the shop's items in order |
| Views.ShopPageBeyondEnd | bot/cogs/views.py:220-223 | a page past the last one is empty |
| Views.Truncate | bot/cogs/views.py:199-203 | the result is as long as the text up to the limit; text within the limit is kept; longer text keeps its first limit-3 characters followed by "..." |
| Views.TruncateIdempotent | bot/cogs/views.py:199-203 | truncating twice is truncating once |
| Views.ProjectDescription | bot/cogs/views.py:266-270 | a missing or empty description shows as "-"; a description within the limit is shown as it is; a longer one is cut to its first limit − 3 characters and "..."; the text is never empty and never over the limit |
| Views.ProjectDescriptionIdempotent | bot/cogs/views.py:266-270 | a shown description, shown again, is unchanged |
| Views.DevlogFieldName | bot/cogs/views.py:106-111 | a field is named "Devlog " and the rendered id: a numeric id reads back from the name, a null id shows as "None", and "Devlog unknown" comes only from a missing id or the text "unknown" |
| Views.DevlogFieldsShape | bot/cogs/views.py:102-110 | one field for each of the first ten devlogs, in order; every value is between 1 and 120 characters: "No body" when the stripped body is empty, otherwise the stripped body, truncated |
| Views.ConfirmOutcome | bot/cogs/views.py:20-34 | confirmed only by the Confirm button; either button stops the view and edits the message; a timeout does neither and leaves it unconfirmed |
| Search.CommandGateOrder | bot/cogs/search.py:118-136 | without a stored key the user is told to log in whatever the lookup says; a storage error in either check is reported; the command runs exactly when the lookup gives a non-empty key, and with that key; otherwise the password is asked for |
| Search.PasswordGateOutcome | bot/cogs/search.py:138-154 | after the password prompt, the command runs exactly when the lookup gives a non-empty key, and with that key; a missing or empty key is an incorrect password |
| Search.SearchPageResolution | bot/cogs/search.py:20-60 | the requested page is fetched first, then only the page clamped to the reported total (an empty total counts as one page); the page is refetched exactly when clamping moved it; the view appears only with several pages; a failure reports the API error text |
| Search.SortByIdSorted | bot/cogs/search.py:71 | the sorted shop is ordered by id, with a missing id sorting as 0 |
| Search.SortByIdPermutes | bot/cogs/search.py:71 | sorting neither adds nor loses an item |
| Search.SortByIdStable | bot/cogs/search.py:71 | items with the same id keep their original order |
| Search.SortByIdLength | bot/cogs/search.py:71 | the sorted shop has as many items as the fetched one |
| Search.ForcePageIsClamp | bot/cogs/search.py:76-79 | the shop's own bounds check gives the same page as `clamp_page`, always in 1..total |
| Search.ListShopShape | bot/cogs/search.py:65-86 | a failed fetch reports the API error; an empty shop gets its message; two or more items with a null id among them make the sort raise an error nothing catches; otherwise the clamped page of the items sorted by id is shown, with a view exactly when there are several pages |
| Search.ListProjectsUnclamped | bot/cogs/search.py:88-99 | the projects listing fetches only the requested page, unclamped, and shows a view exactly when there are several pages |
| Commands.OlderFormatSecondsAgrees | bot/cogs/commands.py:17-29 | the older `format_seconds` prints the same text as `bot/utils.py`'s for every integer, zero included |
| Commands.StatsDurationIsFormat | bot/cogs/commands.py:396-399 | the zero guard in `stats` changes nothing: the text is `format_seconds` of the duration and reads back as it |
| Commands.OlderGateAgrees | bot/cogs/commands.py:297-370 | the older guards decide as the newer ones, except that a storage error is not caught |
| Commands.UnclampedListingAsProjectList | bot/cogs/commands.py:209-291 | the older searches and project list fetch and reply as the newer projects list; only the prefix of an error message differs |
| Commands.UnclampedListingKeepsPage | bot/cogs/commands.py:209-243 | the older searches never clamp: every fetch and the view use the requested page, and the view appears exactly with several pages |
| Commands.ShopTotalIsTotalPages | bot/cogs/commands.py:256-258 | for a non-empty shop the older page count is `calculate_total_pages` with pages of ten: enough pages for every item and none to spare |
| Commands.OlderListShopAgrees | bot/cogs/commands.py:250-261 | the older shop listing shows what the newer one shows with pages of ten; a failure differs only in its message prefix |
| Commands.MostActive | bot/cogs/commands.py:402-415 | a project among the first ten whose fetch gave the most devlogs, and the first such; none (and zero) when no fetched project has a devlog |
| Settings.NormalizeService | bot/cogs/settings.py:30-33 | exactly the two allowed service names are accepted, unchanged; anything else gets the invalid-service message |
| Settings.ResolveDefaultService | bot/cogs/settings.py:35-36 | always an allowed service: the configured default when it is allowed, "flavortown" otherwise |
| Settings.ValidateTimezone | bot/cogs/settings.py:23-28 | a zone is accepted, unchanged, exactly when the time-zone database knows it; a name the database does not have is refused with the invalid-timezone message, and a name it rejects as malformed is refused with the database's own error text |
| Settings.OrElse | bot/cogs/settings.py:46-52 | the stored value when it is set and non-empty, otherwise the default |
| Settings.DisplayedService | bot/cogs/settings.py:38-59 | the service shown is an allowed one or the one stored, and a stored output choice is shown as stored |
| Settings.UpdateRefusals | bot/cogs/settings.py:73-86 | no field given, then an invalid time zone, then an invalid service: each is refused with its message, without reading or writing the store |
| Settings.UpdateWritesGiven | bot/cogs/settings.py:73-121 | a write happens exactly when some field is given, every given field is valid and the store could be read; it holds each given field |
| Settings.UpdateKeepsUngiven | bot/cogs/settings.py:94-110 | an accepted update writes every field that was not given as the view showed it before: the stored value, or the default |
| Settings.UpdateThenView | bot/cogs/settings.py:38-128 | viewing the written preferences right after an accepted update shows the same reply the update gave |
| System.DecomposeSums | bot/cogs/system.py:22-26 | days, hours, minutes and seconds add back up to the uptime |
| System.DecomposeUnique | bot/cogs/system.py:22-26 | any split with hours under 24 and minutes and seconds under 60 that adds up to the uptime is the one computed |
| System.FormatUptimeReadsBack | bot/cogs/system.py:22-33 | the uptime text reads back as the days, hours, minutes and seconds it was built from; those pieces add up to the uptime when it is not negative (`System.UptimePiecesSum`) |
| System.UptimePiecesShape | bot/cogs/system.py:27-33 | the pieces are a suffix of days, hours, minutes, seconds; the first shown is non-zero unless only seconds are shown; days appear exactly when there are any |
| System.UptimePiecesSum | bot/cogs/system.py:27-33 | the pieces shown add up to the uptime (for a negative uptime, to its part within a day) |
| Login.LoginMismatch | bot/cogs/login.py:48-54 | mismatched passwords stop the form before the request and before storage |
| Login.LoginVerifyFails | bot/cogs/login.py:56-75 | a failed verification stores nothing: a 401 is an invalid key, and every other failure is reported with its text |
| Login.LoginStoresOnlyVerified | bot/cogs/login.py:48-86 | the table changes exactly when the passwords match and the key verified, and then holds the encryption of the typed key under the user's id |
| Login.KeyGuard | bot/cogs/projects.py:22-29 | a storage error gives the storage message; a missing or empty key gives the retrieval message; otherwise the command goes on with exactly the stored key |
| Login.ApiKeyForUser | bot/cogs/login.py:156-175 | no row means no key; otherwise the key is whatever decrypting the stored pair with the password gives |
| Login.LoginThenUnlock | bot/cogs/login.py:48-175 | when the cipher opens what it sealed, a successful login can be unlocked with the same password and yields the typed key |
| Login.RequireAuthGate | bot/cogs/login.py:178-212 | the wrapped command runs exactly when a key is stored and the password unlocks a non-empty key, and then with that key; otherwise it asks the user to log in or reports a wrong password |
| Login.LogoutBeforeUnlock | bot/cogs/login.py:178-212 | a user who logs out between the command and the unlock is refused |
| Login.LogoutFacts | bot/cogs/login.py:121-132 | afterwards no key is stored for the user and no other row changes; the reply says whether a key existed |
| Login.StatusAfter | bot/cogs/login.py:135-148 | status reports a key right after a successful login and none right after logout |
| Projects.OwnerIsFirstTruthy | bot/cogs/projects.py:140 | the owner is `owner_id` when truthy, else `user_id` when truthy, else `creator_id`; it is null exactly when the first two are falsy and `creator_id` is null |
| Projects.UpdateDemoGate | bot/cogs/projects.py:110-112 | in demo mode the command body makes no call and replies with the demo message |
| Projects.UpdateNeedsAField | bot/cogs/projects.py:133-135 | with no field given, only the key lookup happens and the reply asks for a field |
| Projects.UpdateOwnerRule | bot/cogs/projects.py:137-146 | the not-owner refusal is given exactly when the project has a non-null owner different from the caller's id; a project without an owner goes on to the confirmation |
| Projects.UpdateOnlyWhenConfirmed | bot/cogs/projects.py:100-163 | the update is sent exactly when demo mode is off, the key, validation, a given field, both fetches and the owner check pass and the user confirms; the calls are then the lookup, the two fetches, the confirmation and the update with the validated fields |
| Projects.CreateFlow | bot/cogs/projects.py:58-96 | in demo mode the command body makes no call; the create call is made exactly when the key and validation pass, with the validated fields; a successful create replies with the new project |
| Projects.ListedCount | bot/cogs/projects.py:44-50 | the listing has one field per successful fetch |
| Projects.ListedSound | bot/cogs/projects.py:44-50 | every field shown is that of a fetched id whose fetch succeeded |
| Projects.ListedComplete | bot/cogs/projects.py:44-50 | every successful fetch among the ids looked at has its field shown |
| Projects.Fetches | bot/cogs/projects.py:44-46 | the first ids are fetched one each, in order |
| Projects.MineWithoutIds | bot/cogs/projects.py:33-36 | a user without projects gets the "no projects" reply after fetching only their profile |
| Projects.MineFacts | bot/cogs/projects.py:21-54 | only the first twenty ids are fetched, in order; the total is the number of ids; the fields are exactly those of the successful fetches |
| Devlogs.DevlogListResolution | bot/cogs/devlogs.py:21-45 | a key error makes no fetch; the requested page is fetched, then the clamped page; a shown page is clamped to a non-zero total and kept when in range; the view appears exactly with several pages; a failure reports its text |
| Devlogs.DevlogCardFacts | bot/cogs/devlogs.py:59-75 | the description is never empty and has no surrounding whitespace, and is "No body" without a record; the scrapbook appears exactly for a non-empty link, as given; the title reads back as the devlog's id |
| Devlogs.DevlogViewFacts | bot/cogs/devlogs.py:49-77 | a key error is reported; a card is shown exactly when the key and the fetch succeed; a failed fetch reports the API error text |
| Devlogs.PayloadOf | bot/cogs/devlogs.py:141-147 | a payload keeps the attachment's name and bytes; its content type is the declared one when non-empty and application/octet-stream otherwise |
| Devlogs.PresentCount | bot/cogs/devlogs.py:140 | as many attachments are kept as options were given |
| Devlogs.PresentSound | bot/cogs/devlogs.py:140 | every attachment kept comes from a given option |
| Devlogs.PresentComplete | bot/cogs/devlogs.py:140 | every given option's attachment is kept |
| Devlogs.BuildPayloads | bot/cogs/devlogs.py:140-147 | none exactly when no attachment is given; otherwise one payload per given attachment, in order |
| Devlogs.DevlogCreateOrder | bot/cogs/devlogs.py:119-155 | in demo mode the command body reads nothing and uploads nothing; the attachment step is reached exactly when the key and validation pass, and the upload then carries the project, the validated body and URLs and the payloads; a key or validation error is reported as it is |
| Devlogs.DevlogCreateReply | bot/cogs/devlogs.py:149-159 | after the upload, success replies "Devlog created. ID: " and the reported id or "unknown"; failure replies with the API error text |

## Left out

- Cryptography: `encrypt_api_key` and `decrypt_api_key` are oracles. The random salt is part of the encrypt oracle. Key derivation and the cipher are not modelled.
- The session cache of unlocked keys and the stats counters are not modelled. The model keeps nothing between commands except the key table.
- JSON decoding: a successful response's body is taken as already decoded. A body that fails to parse is not modelled.
- Floating point and real time: the backoffs are kept as milliseconds. Sleeping is recorded, not performed.
- SQLite: the table is a map. The connection, SQL text, commit and failures other than the modelled storage error are I/O. The timestamp is a parameter.
- `ZoneInfo` is an oracle: the set of known zone names.
- Discord: embeds, colours, `ephemeral` flags, `send_error`, deferral and follow-up messages are reduced to the reply text or a small record. The login modal's field length limits are enforced by Discord and are not modelled.
- `bot/demo.py` and `bot/cogs/admin.py` are not part of this model. Demo mode is a boolean parameter.
- Concurrency: each command is a single run. Interleavings between commands are not modelled, except the table changing between `require_auth`'s check and its unlock.
- Configuration constants (page sizes, timeouts) are parameters or the constants in the code.
- The cogs call `require_auth(service=...)` and `get_api_key_for_user(..., service=...)` with a `service` argument that `bot/cogs/login.py` does not take. The key lookup in those cogs is modelled as an oracle (`Login.KeyGuard`).
- The `@require_auth(service=...)` wrappers of the project and devlog commands run before the body's demo check. The model of those commands starts at the body, so "makes no call" in demo mode speaks of the body only.
- Search.CommandGate and Commands.OlderGate: the first lookup calls `get_api_key_for_user(interaction)` without the `password` that `bot/cogs/login.py:156-158` requires. As written it raises `TypeError`, which `except StorageError` does not catch, so the branches after it cannot be reached. The model takes the result of that first lookup as an oracle as well.
- Commands: the Previous and Next buttons of the older views (`bot/cogs/commands.py:52-67`) have no `except APIError`. A failed page fetch on a click escapes there instead of replying "API error: …". `Views.ClickCommitsBeforeFetch` describes the views of `bot/cogs/views.py` only.
- Search.SortById: ids are integers, missing or null. An id of another JSON type (text, a boolean) is not modelled.
- `normalize_optional`, `validate_url`, `require_non_empty` and `parse_media_urls` are not in `bot/utils.py`. Field validation is an oracle.
- `get_user_preferences` and `upsert_user_preferences` are not in `bot/storage.py`. The read of the settings is an oracle answer (`Result<Option<Prefs>, StorageError>`), and the write is a flag saying whether it succeeded.
- `list_devlogs`, `get_devlog_by_id` and `create_devlog_with_attachments` are not in `bot/api.py`. Their answers are parameters.
- The model does not check whether the exception classes of `bot/errors.py` match those of the API modules.
- System.FormatUptime: whole seconds only; the microseconds of a `timedelta` are dropped.
- Logging is not modelled.
- How requests encodes `params` and `json` on the wire. The query parameters themselves are modelled (`Api.Params`); their encoding into the URL and the JSON body are not.
- Reading an attachment is I/O: its bytes are a parameter.
- The `.get(...)` defaults on created records in `bot/cogs/projects.py` are folded into the create oracle's answer.
- The `time` command of `bot/cogs/commands.py` and the embed fields and avatar of its `stats` are not modelled. Only the durations and the most-active loop are.

## Findings

| source | as written | input that shows it | evidently intended | confidence | as-written member | corrected member |
|---|---|---|---|---|---|---|
| bot/http.py:63 | `if e.response` tests a `requests.Response` for truthiness, which is its `ok` flag, so on every HTTP error the status is reported as unknown | a 500 response that raises `HTTPError`: the message has no status | `if e.response is not None`, so the error carries the status of the response | not executed | Http.ErrorStatusAlwaysUnknown | Http.StatusReported |
| bot/api.py:33 | the lookups by id test for "status=404", which the executor never writes, so the not-found rewrite never fires | `get_user_by_id` answered 404: the error is "Fetch user failed (status=unknown) …" with the detail and URL after it | a 404 lookup fails with "User with ID … not found!" | not executed | Api.UserNotFoundNotRewritten | Api.FetchNotFound |

The clients (`Api.Fetch`, `Hackatime.Fetch`) go through the executor as written. `Api.FetchReportingStatus` is the same call over the corrected executor.


=== FILE: api.dfy ===
/** The Flavortown API client of bot/api.py: the request headers, the endpoints with their
    query parameters, and the rewrite of "not found" failures for lookups by id. `Fetch`
    goes through the executor of bot/http.py as written, under which a 404 never reaches
    the rewrite; `FetchReportingStatus` goes through the corrected executor
    (`Http.RequestReportingStatus`), under which it does. */
module Api {
  import opened Wrappers
  import opened Text
  import opened Http

  const BaseUrl := "https://flavortown.hackclub.com"
  const NotLoggedInMessage := "Not logged in."
  const Service := "flavortown"

  // ---------------------------------------------------------------------------------------
  // Headers

  /** `_get_headers`: an empty key fails before any request is made. */
  function Headers(apiKey: string): (r: Result<seq<(string, string)>, Raised>)
    ensures r.Err? <==> apiKey == ""
    ensures r.Err? ==> r.error == Raised(APIError, NotLoggedInMessage)
    ensures r.Ok? ==> |r.value| == 3
    ensures r.Ok? ==> r.value[0].0 == "Authorization" && BearerToken(r.value[0].1) == Some(apiKey)
    ensures r.Ok? ==> r.value[1] == ("Content-Type", "application/json")
    ensures r.Ok? ==> r.value[2] == ("X-Flavortown-Ext-9378", "true")
  {
    if apiKey == "" then Err(Raised(APIError, NotLoggedInMessage))
    else
      BearerReadsBack(apiKey);
      Ok([("Authorization", Bearer(apiKey)),
          ("Content-Type", "application/json"),
          ("X-Flavortown-Ext-9378", "true")])
  }

  // ---------------------------------------------------------------------------------------
  // Endpoints

  /** The API functions; `query` is `None` when not passed. */
  datatype Endpoint =
    | Users(page: int, query: Option<string>)
    | UserById(userId: int)
    | Shop
    | Projects(page: int, query: Option<string>)
    | ProjectById(projectId: int)
    | Me
    | ProjectDevlogs(projectId: int, page: int)

  /** A query parameter's value as passed to the HTTP library. */
  datatype ParamValue = IntValue(n: int) | TextValue(text: string)

  function Url(e: Endpoint): string
  {
    match e
    case Users(_, _) => BaseUrl + "/api/v1/users"
    case UserById(id) => BaseUrl + "/api/v1/users/" + IntToString(id)
    case Shop => BaseUrl + "/api/v1/store"
    case Projects(_, _) => BaseUrl + "/api/v1/projects"
    case ProjectById(id) => BaseUrl + "/api/v1/projects/" + IntToString(id)
    case Me => BaseUrl + "/api/v1/users/me"
    case ProjectDevlogs(id, _) => BaseUrl + "/api/v1/projects/" + IntToString(id) + "/devlogs"
  }

  function Action(e: Endpoint): string
  {
    match e
    case Users(_, _) => "Fetch users"
    case UserById(_) => "Fetch user"
    case Shop => "Fetch shop"
    case Projects(_, _) => "Fetch projects"
    case ProjectById(_) => "Fetch project"
    case Me => "Fetch profile"
    case ProjectDevlogs(_, _) => "Fetch devlogs"
  }

  /** The query parameters: the page where the endpoint pages, and the query only when it is
      truthy. */
  function Params(e: Endpoint): seq<(string, ParamValue)>
  {
    match e
    case Users(page, q) => SearchParams(page, q)
    case Projects(page, q) => SearchParams(page, q)
    case ProjectDevlogs(_, page) => [("page", IntValue(page))]
    case _ => []
  }

  function SearchParams(page: int, query: Option<string>): seq<(string, ParamValue)>
  {
    [("page", IntValue(page))] + (if query.Some? && query.value != "" then [("query", TextValue(query.value))] else [])
  }

  /** The page is always the first parameter; a query is sent exactly when it is truthy, and
      then as given. */
  lemma SearchParamsShape(page: int, query: Option<string>)
    ensures var ps := SearchParams(page, query);
      1 <= |ps| <= 2 && ps[0] == ("page", IntValue(page))
      && ((exists i :: 0 <= i < |ps| && ps[i].0 == "query") <==> query.Some? && query.value != "")
      && (forall i :: 0 <= i < |ps| && ps[i].0 == "query" ==> ps[i].1 == TextValue(query.value))
  {
    var ps := SearchParams(page, query);
    if query.Some? && query.value != "" {
      assert ps[1].0 == "query";
    }
  }

  /** The labels every call passes to the executor: its action and URL, the "flavortown"
      service and the `APIError` class. */
  function Info(e: Endpoint): RequestInfo
  {
    RequestInfo(Action(e), Url(e), Service, APIError)
  }

  /** The id a by-id URL names: what follows the collection path. */
  function UrlId(url: string, collection: string): Option<(int, string)>
  {
    var prefix := BaseUrl + collection;
    if |url| >= |prefix| && url[..|prefix|] == prefix then ParseInt(url[|prefix|..]) else None
  }

  lemma UrlIdOf(collection: string, id: int, rest: string)
    requires Delimited(rest)
    ensures UrlId(BaseUrl + collection + IntToString(id) + rest, collection) == Some((id, rest))
  {
    var prefix := BaseUrl + collection;
    Assoc(prefix, IntToString(id), rest);
    SplitConcat(prefix, IntToString(id) + rest);
    IntToStringParses(id, rest);
  }

  /** The URL of a lookup by id reads back as that id (and, for devlogs, the rest of the
      path). */
  lemma UrlNamesId(e: Endpoint)
    requires e.UserById? || e.ProjectById? || e.ProjectDevlogs?
    ensures e.UserById? ==> UrlId(Url(e), "/api/v1/users/") == Some((e.userId, ""))
    ensures e.ProjectById? ==> UrlId(Url(e), "/api/v1/projects/") == Some((e.projectId, ""))
    ensures e.ProjectDevlogs? ==> UrlId(Url(e), "/api/v1/projects/") == Some((e.projectId, "/devlogs"))
  {
    match e
    case UserById(id) =>
      UrlIdOf("/api/v1/users/", id, "");
      assert Url(e) == BaseUrl + "/api/v1/users/" + IntToString(id) + "";
    case ProjectById(id) =>
      UrlIdOf("/api/v1/projects/", id, "");
      assert Url(e) == BaseUrl + "/api/v1/projects/" + IntToString(id) + "";
    case ProjectDevlogs(id, _) =>
      UrlIdOf("/api/v1/projects/", id, "/devlogs");
  }

  // ---------------------------------------------------------------------------------------
  // Calls

  const NotFoundMarker := "status=404"

  /** The not-found message of the lookups by id; `None` for the other endpoints. */
  function NotFoundMessage(e: Endpoint): Option<string>
  {
    match e
    case UserById(id) => Some("User with ID " + IntToString(id) + " not found!")
    case ProjectById(id) => Some("Project with ID " + IntToString(id) + " not found!")
    case ProjectDevlogs(id, _) => Some("Project with ID " + IntToString(id) + " not found!")
    case _ => None
  }

  /** The `except APIError` of the lookups by id: an error whose text contains "status=404"
      becomes the not-found message; every other error is raised again unchanged. */
  function Rewrite(e: Endpoint, err: Raised): Raised
  {
    if NotFoundMessage(e).Some? && Contains(err.message, NotFoundMarker)
    then Raised(APIError, NotFoundMessage(e).value)
    else err
  }

  /** What a call makes of its headers and of the executor's outcome. */
  function Complete<B>(apiKey: string, e: Endpoint, outcome: Outcome<B>): Result<B, Raised>
  {
    match Headers(apiKey)
    case Err(err) => Err(Rewrite(e, err))
    case Ok(_) =>
      match outcome
      case Returned(body) => Ok(body)
      case Failed(err) => Err(Rewrite(e, err))
  }

  /** One API function: headers (which may fail first), then the executor as written. */
  function Fetch<B>(apiKey: string, e: Endpoint, answers: seq<Answer<B>>): Result<B, Raised>
    requires |answers| >= MaxAttempts
  {
    Complete(apiKey, e, Request(answers, Info(e)).outcome)
  }

  /** The same call over the executor that reports the status it was given. */
  function FetchReportingStatus<B>(apiKey: string, e: Endpoint, answers: seq<Answer<B>>): Result<B, Raised>
    requires |answers| >= MaxAttempts
  {
    Complete(apiKey, e, RequestReportingStatus(answers, Info(e)).outcome)
  }

  /** Without a key the call fails with "Not logged in." whatever the server would answer. */
  lemma FetchWithoutKey<B>(e: Endpoint, answers: seq<Answer<B>>)
    requires |answers| >= MaxAttempts
    ensures Fetch("", e, answers) == Err(Raised(APIError, NotLoggedInMessage))
    ensures FetchReportingStatus("", e, answers) == Err(Raised(APIError, NotLoggedInMessage))
  {
    assert NotFoundMarker[6] == '=';
    MissingCharNotContained(NotLoggedInMessage, NotFoundMarker, 6);
  }

  /** With a key the call returns exactly what the executor returns; every failure is an
      `APIError`. */
  lemma FetchFacts<B>(apiKey: string, e: Endpoint, answers: seq<Answer<B>>)
    requires |answers| >= MaxAttempts
    ensures apiKey != "" ==>
      (Fetch(apiKey, e, answers).Ok? <==> Request(answers, Info(e)).outcome.Returned?)
    ensures Fetch(apiKey, e, answers).Ok? ==>
      Fetch(apiKey, e, answers).value == Request(answers, Info(e)).outcome.body
    ensures Fetch(apiKey, e, answers).Err? ==> Fetch(apiKey, e, answers).error.cls == APIError
  {
    if apiKey != "" {
      FinalAnswerDecides(answers, Info(e));
    }
  }

  lemma StatusText404()
    ensures StatusText(Some(404)) == "404"
  {
    assert NatToString(4) == "4" && NatToString(40) == "40";
  }

  lemma StatusText401()
    ensures StatusText(Some(401)) == "401"
  {
    assert NatToString(4) == "4" && NatToString(40) == "40";
  }

  lemma SplitAtMarker(action: string, url: string, detail: string)
    ensures action + FailedMarker + "404" + Trailer(detail, url)
         == (action + " failed (") + NotFoundMarker + Trailer(detail, url)
  {
  }

  /** The executor's message for a 404 contains "status=404". */
  lemma NotFoundMessageMarked(action: string, url: string, detail: string)
    ensures Contains(FormatError(action, url, Some(404), detail), NotFoundMarker)
  {
    StatusText404();
    SplitAtMarker(action, url, detail);
    ContainsAt(action + " failed (", NotFoundMarker, Trailer(detail, url));
  }

  /** The executor's message cut at five of its spaces. */
  lemma MessageWords(action: string, url: string, status: string, detail: string)
    ensures action + FailedMarker + status + Trailer(detail, url)
         == action + " " + ("failed" + " " + (("(status=" + status + ")") + " "
              + (detail + " " + ("|" + " " + ("url=" + url)))))
  {
  }

  /** The status word of the message: its one '=' is followed by `status`. */
  lemma StatusWordUnmarked(status: string)
    requires status == "unknown" || status == "401"
    ensures !Contains("(status=" + status + ")", NotFoundMarker)
  {
    var w := "(status=" + status + ")";
    assert NotFoundMarker[6] == '=';
    assert w[10] != NotFoundMarker[9];
    AnchoredNotContained(w, NotFoundMarker, 6, 7);
  }

  /** The URL word: its one '=' comes too early for "status=" to precede it. */
  lemma UrlWordUnmarked(url: string)
    requires Lacks(url, '=')
    ensures !Contains("url=" + url, NotFoundMarker)
  {
    var w := "url=" + url;
    forall i | 0 <= i < |w| && i != 3 ensures w[i] != '=' {
      if i > 3 {
        assert w[i] == url[i - 4];
      }
    }
    AnchoredNotContained(w, NotFoundMarker, 6, 3);
  }

  /** A failure message the executor builds without a status, or with 401, mentions
      "status=404" only where its detail does. */
  lemma MessageUnmarked(action: string, url: string, status: Option<int>, detail: string)
    requires Lacks(action, '=') && Lacks(url, '=')
    requires status.None? || status == Some(401)
    requires !Contains(detail, NotFoundMarker)
    ensures !Contains(FormatError(action, url, status, detail), NotFoundMarker)
  {
    var m := NotFoundMarker;
    var st := StatusText(status);
    if status.Some? {
      StatusText401();
    }
    MessageWords(action, url, st, detail);
    assert Lacks(m, ' ');
    assert m[6] == '=';
    MissingCharNotContained(action, m, 6);
    MissingCharNotContained("failed", m, 6);
    MissingCharNotContained("|", m, 6);
    StatusWordUnmarked(st);
    UrlWordUnmarked(url);
    var w5 := "url=" + url;
    var w4 := "|" + " " + w5;
    var w3 := detail + " " + w4;
    var w2 := ("(status=" + st + ")") + " " + w3;
    var w1 := "failed" + " " + w2;
    ContainsAcross("|", w5, m, ' ');
    ContainsAcross(detail, w4, m, ' ');
    ContainsAcross("(status=" + st + ")", w3, m, ' ');
    ContainsAcross("failed", w2, m, ' ');
    ContainsAcross(action, w1, m, ' ');
  }

  /** No action name and no URL of this client has an '='. */
  lemma LabelsLackEquals(e: Endpoint)
    ensures Lacks(Action(e), '=') && Lacks(Url(e), '=')
  {
    match e
    case Users(_, _) => PathUrlLacksEquals("/api/v1/users");
    case UserById(id) => UrlWithIdLacksEquals("/api/v1/users/", id, "");
    case Shop => PathUrlLacksEquals("/api/v1/store");
    case Projects(_, _) => PathUrlLacksEquals("/api/v1/projects");
    case ProjectById(id) => UrlWithIdLacksEquals("/api/v1/projects/", id, "");
    case Me => PathUrlLacksEquals("/api/v1/users/me");
    case ProjectDevlogs(id, _) => UrlWithIdLacksEquals("/api/v1/projects/", id, "/devlogs");
  }

  lemma PathUrlLacksEquals(path: string)
    requires Lacks(path, '=')
    ensures Lacks(BaseUrl + path, '=')
  {
    assert Lacks(BaseUrl, '=');
    LacksConcat(BaseUrl, path, '=');
  }

  lemma UrlWithIdLacksEquals(collection: string, id: int, rest: string)
    requires Lacks(collection, '=') && Lacks(rest, '=')
    ensures Lacks(BaseUrl + collection + IntToString(id) + rest, '=')
    ensures rest == "" ==> Lacks(BaseUrl + collection + IntToString(id), '=')
  {
    PathUrlLacksEquals(collection);
    IntToStringLacks(id, '=');
    LacksConcat(BaseUrl + collection, IntToString(id), '=');
    LacksConcat(BaseUrl + collection + IntToString(id), rest, '=');
  }

  /** A failure whose text does not mention "status=404", and every failure of an endpoint
      that is not a lookup by id, is passed on unchanged. As written, with the library's
      truthiness, that is every failure whose last answer's exception text does not itself
      mention "status=404": a 404 from the server never reaches the rewrite. */
  lemma FetchPassesOn<B>(apiKey: string, e: Endpoint, answers: seq<Answer<B>>)
    requires |answers| >= MaxAttempts
    ensures var c := Request(answers, Info(e));
      apiKey != "" && c.outcome.Failed? && !Contains(c.outcome.error.message, NotFoundMarker) ==>
        Fetch(apiKey, e, answers) == Err(c.outcome.error)
    ensures NotFoundMessage(e).None? && apiKey != "" ==>
      var c := Request(answers, Info(e));
      c.outcome.Failed? ==> Fetch(apiKey, e, answers) == Err(c.outcome.error)
    ensures var c := Request(answers, Info(e)); var last := answers[c.attempts - 1];
      LibraryTruthiness(answers) && apiKey != "" && c.outcome.Failed?
      && !Contains(last.errorText, NotFoundMarker) ==>
        Fetch(apiKey, e, answers) == Err(c.outcome.error)
  {
    var c := Request(answers, Info(e));
    FinalAnswerDecides(answers, Info(e));
    var last := answers[c.attempts - 1];
    if apiKey != "" && c.outcome.Failed? {
      var err := c.outcome.error;
      if LibraryTruthiness(answers) && !Contains(last.errorText, NotFoundMarker) {
        FailureUnmarked(e, answers);
      }
      if NotFoundMessage(e).None? || !Contains(err.message, NotFoundMarker) {
        FailurePassesOn<B>(apiKey, e, err);
      }
    }
  }

  /** Under the library's truthiness, a failure whose last exception text lacks "status=404"
      has a message that lacks it too. */
  lemma FailureUnmarked<B>(e: Endpoint, answers: seq<Answer<B>>)
    requires |answers| >= MaxAttempts && LibraryTruthiness(answers)
    ensures var c := Request(answers, Info(e)); var last := answers[c.attempts - 1];
      c.outcome.Failed? && !Contains(last.errorText, NotFoundMarker) ==>
        !Contains(c.outcome.error.message, NotFoundMarker)
  {
    var c := Request(answers, Info(e));
    FinalAnswerDecides(answers, Info(e));
    var last := answers[c.attempts - 1];
    if c.outcome.Failed? && !Contains(last.errorText, NotFoundMarker) {
      ErrorStatusAlwaysUnknown(answers, Info(e));
      LabelsLackEquals(e);
      // The message names no status but 401, with a detail that lacks the marker.
      var unauthorized := last.Response? && last.status == 401;
      var status := if unauthorized then Some(401) else None;
      var detail := if unauthorized then UnauthorizedDetail else last.errorText;
      assert c.outcome.error.message == FormatError(Action(e), Url(e), status, detail);
      if unauthorized {
        UnauthorizedDetailUnmarked();
      }
      MessageUnmarked(Action(e), Url(e), status, detail);
    }
  }

  /** The fixed 401 detail has no '=' and so never contains "status=404". */
  lemma UnauthorizedDetailUnmarked()
    ensures !Contains(UnauthorizedDetail, NotFoundMarker)
  {
    assert NotFoundMarker[6] == '=';
    MissingCharNotContained(UnauthorizedDetail, NotFoundMarker, 6);
  }

  /** With a key, a failure the rewrite does not match comes out of the call unchanged. */
  lemma FailurePassesOn<B>(apiKey: string, e: Endpoint, err: Raised)
    requires apiKey != ""
    requires NotFoundMessage(e).None? || !Contains(err.message, NotFoundMarker)
    ensures Complete<B>(apiKey, e, Failed(err)) == Err(err)
  {
  }

  /** As written: a lookup of user `id` answered 404 fails with the executor's generic message,
      never with "User with ID … not found!". */
  lemma UserNotFoundNotRewritten<B>(apiKey: string, id: int, answers: seq<Answer<B>>)
    requires |answers| >= MaxAttempts && LibraryTruthiness(answers) && apiKey != ""
    requires answers[0].Response? && answers[0].status == 404
    requires !Contains(answers[0].errorText, NotFoundMarker)
    ensures Fetch(apiKey, UserById(id), answers)
      == Err(Raised(APIError, FormatError("Fetch user", Url(UserById(id)), None, answers[0].errorText)))
    ensures Fetch(apiKey, UserById(id), answers) != Err(Raised(APIError, NotFoundMessage(UserById(id)).value))
  {
    var e := UserById(id);
    RetrySchedule(answers, Info(e));
    FetchPassesOn(apiKey, e, answers);
    ErrorStatusAlwaysUnknown(answers, Info(e));
    FinalAnswerDecides(answers, Info(e));
    var msg := FormatError("Fetch user", Url(e), None, answers[0].errorText);
    assert msg[0] == 'F';
    assert NotFoundMessage(e).value[0] == 'U';
  }

  /** Corrected: a lookup by id whose final answer is a 404 fails with the not-found message
      naming the id. */
  lemma FetchNotFound<B>(apiKey: string, e: Endpoint, answers: seq<Answer<B>>)
    requires |answers| >= MaxAttempts
    ensures var c := RequestReportingStatus(answers, Info(e)); var last := answers[c.attempts - 1];
      apiKey != "" && NotFoundMessage(e).Some? && last.Response? && last.status == 404 ==>
        FetchReportingStatus(apiKey, e, answers) == Err(Raised(APIError, NotFoundMessage(e).value))
  {
    var c := RequestReportingStatus(answers, Info(e));
    StatusReported(answers, Info(e));
    var last := answers[c.attempts - 1];
    if last.Response? && last.status == 404 {
      NotFoundMessageMarked(Action(e), Url(e), if |last.text| > 0 then Strip(last.text) else last.errorText);
    }
  }
}

=== FILE: commands.dfy ===
/** The older command cog of bot/cogs/commands.py: its own `format_seconds`, its `search` and
    `list` handlers (no page clamp and no `or 1` on the page count, except for the shop), and
    the most-active-project choice of `stats`. Its views page as those of bot/cogs/views.py
    do, but their buttons do not catch a failed fetch; only the views of bot/cogs/views.py are
    modelled. */
module Commands {
  import opened Wrappers
  import opened Text
  import opened Utils
  import opened Views
  import opened Storage
  import opened Search

  // ---------------------------------------------------------------------------------------
  // format_seconds

  /** The older `format_seconds`: no separate case for zero. */
  function OlderFormatSeconds(seconds: int): string
  {
    if seconds < 60 then IntToString(seconds) + " secs"
    else if seconds < 3600 then Count(seconds / 60, "min")
    else
      var hours := seconds / 3600;
      var mins := (seconds % 3600) / 60;
      if mins > 0 then Count(hours, "hr") + " " + Count(mins, "min")
      else Count(hours, "hr")
  }

  /** The two `format_seconds` agree on every integer: the zero case of the newer one only
      spells out what the "secs" branch already prints. */
  lemma OlderFormatSecondsAgrees(seconds: int)
    ensures OlderFormatSeconds(seconds) == FormatSeconds(seconds)
  {
    if seconds == 0 {
      assert IntToString(0) == "0";
    }
  }

  /** The text `stats` shows for a duration: `format_seconds(x) if x else "0 secs"`. */
  function StatsDuration(seconds: int): string
  {
    if seconds != 0 then OlderFormatSeconds(seconds) else "0 secs"
  }

  /** The guard in `stats` is redundant: it shows what `format_seconds` shows, which reads
      back as the seconds, minutes, or hours and minutes of the duration. */
  lemma StatsDurationIsFormat(seconds: int)
    ensures StatsDuration(seconds) == OlderFormatSeconds(seconds) == FormatSeconds(seconds)
    ensures ReadDuration(StatsDuration(seconds)) == Some(Shown(seconds))
  {
    OlderFormatSecondsAgrees(seconds);
    FormatSecondsReadsBack(seconds);
  }

  // ---------------------------------------------------------------------------------------
  // Guards of `search` and `list`

  /** The guards in front of `search` and `list`: the same order as in bot/cogs/search.py,
      but a storage error is not caught (`None`: the handler fails with it). */
  function OlderGate(hasKey: Result<bool, StorageError>,
                     lookup: Result<Option<string>, StorageError>): Option<Gate>
  {
    match hasKey
    case Err(_) => None
    case Ok(false) => Some(LoginFirst)
    case Ok(true) =>
      match lookup
      case Err(_) => None
      case Ok(key) => Some(if key.Some? && key.value != "" then Proceed(key.value) else PasswordPrompt)
  }

  /** Without a storage error both cogs guard alike; with one, this cog lets it escape where
      the newer cog replies with the storage message. */
  lemma OlderGateAgrees(hasKey: Result<bool, StorageError>,
                        lookup: Result<Option<string>, StorageError>)
    ensures OlderGate(hasKey, lookup).Some? ==> OlderGate(hasKey, lookup).value == CommandGate(hasKey, lookup)
    ensures OlderGate(hasKey, lookup).None? <==> CommandGate(hasKey, lookup) == StorageFailed
  {
  }

  // ---------------------------------------------------------------------------------------
  // Listings without a clamp

  const OlderApiErrorPrefix := "API Error: "

  /** `_do_search` (both categories) and the projects branch of `_do_list`: fetch the page,
      read `pagination.get("total_pages", 1)`, build the view on the requested page (a null
      count fails in its button update) and fetch the page again for the embed. */
  function UnclampedListing<E>(answers: seq<Result<Listing<E>, string>>, page: int): Run<E>
    requires |answers| >= 2
  {
    match answers[0]
    case Err(e) => Run([page], ApiFailure(OlderApiErrorPrefix + e))
    case Ok(first) =>
      match ListedTotal(first.total)
      case None => Run([page], Unhandled)
      case Some(total) =>
        match answers[1]
        case Err(e) => Run([page, page], ApiFailure(OlderApiErrorPrefix + e))
        case Ok(shown) => Run([page, page], Sent(shown.embed, page, total, total > 1))
  }

  /** This cog's searches and project list behave as the projects list of the newer cog:
      the same fetches and the same reply, up to the capital "E" of the error prefix. */
  lemma UnclampedListingAsProjectList<E>(answers: seq<Result<Listing<E>, string>>, page: int)
    requires |answers| >= 2
    ensures var r, s := UnclampedListing(answers, page), ListProjects(answers, page);
      r.fetched == s.fetched && (r.reply.ApiFailure? <==> s.reply.ApiFailure?)
      && (!r.reply.ApiFailure? ==> r.reply == s.reply)
    ensures var r, s := UnclampedListing(answers, page), ListProjects(answers, page);
      r.reply.ApiFailure? ==>
        var e := answers[|r.fetched| - 1].error;
        r.reply.message == OlderApiErrorPrefix + e && s.reply.message == ApiErrorText(e)
  {
  }

  /** Unlike the newer search, the page is never clamped: every fetch and the view use the
      requested page, even one beyond the reported count. */
  lemma UnclampedListingKeepsPage<E>(answers: seq<Result<Listing<E>, string>>, page: int)
    requires |answers| >= 2
    ensures var r := UnclampedListing(answers, page);
      1 <= |r.fetched| <= 2 && (forall i :: 0 <= i < |r.fetched| ==> r.fetched[i] == page)
      && (r.reply.Sent? ==> r.reply.page == page && (r.reply.withView <==> r.reply.totalPages > 1))
  {
  }

  // ---------------------------------------------------------------------------------------
  // Shop

  const ShopPerPage := 10

  /** `(total_items + PER_PAGE - 1) // PER_PAGE`. */
  function ShopTotal(n: nat): int
  {
    (n + ShopPerPage - 1) / ShopPerPage
  }

  /** For a non-empty shop the count is `calculate_total_pages` with pages of ten: at least
      one page, enough pages for every item, and no spare page. */
  lemma ShopTotalIsTotalPages(n: nat)
    requires n >= 1
    ensures ShopTotal(n) == TotalPages(n, ShopPerPage)
    ensures ShopTotal(n) >= 1 && ShopTotal(n) * ShopPerPage >= n > (ShopTotal(n) - 1) * ShopPerPage
  {
    var t := TotalPages(n, ShopPerPage);
    assert (n + 9) / 10 >= 1;
  }

  /** The shop branch of this cog's `_do_list`. */
  function OlderListShop(fetched: Result<seq<ShopItem>, string>, page: int): ShopReply
  {
    match fetched
    case Err(e) => ShopFailure(OlderApiErrorPrefix + e)
    case Ok(items) =>
      if |items| == 0 then ShopMessage(NoShopItemsMessage)
      else if !Sortable(items) then ShopUnhandled
      else
        var sorted := SortById(items);
        var total := ShopTotal(|sorted|);
        var p := ForcePage(page, total);
        ShopShown(ShopPage(sorted, p, ShopPerPage), p, total, total > 1)
  }

  /** The older shop listing shows what the newer one shows with pages of ten items; only
      the error prefix differs. */
  lemma OlderListShopAgrees(fetched: Result<seq<ShopItem>, string>, page: int)
    ensures fetched.Ok? ==> OlderListShop(fetched, page) == ListShop(fetched, page, ShopPerPage)
    ensures fetched.Err? ==> OlderListShop(fetched, page) == ShopFailure(OlderApiErrorPrefix + fetched.error)
  {
    if fetched.Ok? && |fetched.value| > 0 && Sortable(fetched.value) {
      SortByIdLength(fetched.value);
      ShopTotalIsTotalPages(|fetched.value|);
    }
  }

  // ---------------------------------------------------------------------------------------
  // Most active project

  const MostActiveWindow := 10

  /** The project `stats` reports as most active: its position among the user's project ids
      (`None` for no report) and its devlog count. */
  datatype Busiest = Busiest(index: Option<nat>, devlogs: nat)

  /** The loop of `stats` over the first ten project ids. `fetched[i]` is what fetching
      `projectIds[i]` gave: the length of its devlog list, or `None` for an API error, which
      the loop skips. A project replaces the current choice only with strictly more devlogs. */
  method MostActive(projectIds: seq<int>, fetched: seq<Option<nat>>) returns (r: Busiest)
    requires |fetched| == |projectIds|
    ensures var w := Min(|projectIds|, MostActiveWindow);
      r.index.Some? ==> r.index.value < w && fetched[r.index.value] == Some(r.devlogs) && r.devlogs > 0
    ensures var w := Min(|projectIds|, MostActiveWindow);
      forall j :: 0 <= j < w && fetched[j].Some? ==> fetched[j].value <= r.devlogs
    ensures r.index.Some? ==>
      forall j :: 0 <= j < r.index.value && fetched[j].Some? ==> fetched[j].value < r.devlogs
    ensures r.index.None? ==> r.devlogs == 0
  {
    var w := Min(|projectIds|, MostActiveWindow);
    var best: Option<nat> := None;
    var most: nat := 0;
    var i := 0;
    while i < w
      invariant 0 <= i <= w
      invariant best.Some? ==> best.value < i && fetched[best.value] == Some(most) && most > 0
      invariant best.None? ==> most == 0
      invariant forall j :: 0 <= j < i && fetched[j].Some? ==> fetched[j].value <= most
      invariant best.Some? ==> forall j :: 0 <= j < best.value && fetched[j].Some? ==> fetched[j].value < most
    {
      if fetched[i].Some? && fetched[i].value > most {
        most := fetched[i].value;
        best := Some(i);
      }
      i := i + 1;
    }
    r := Busiest(best, most);
  }
}

=== FILE: devlogs.dfy ===
/** The devlog commands of bot/cogs/devlogs.py: the two paged lists (all devlogs, a
    project's devlogs), the view of one devlog, and `devlog-create` with its demo gate,
    validation and attachment payloads. The key lookup, the API calls, the input validation
    and the attachments' contents are oracles. */
module Devlogs {
  import opened Wrappers
  import opened Text
  import opened Utils
  import opened Views
  import opened Storage
  import opened Search
  import opened Login

  const DemoCreateMessage := "Demo mode is enabled. Devlog creation is disabled."
  const NoBodyText := "No body"
  const DefaultContentType := "application/octet-stream"

  // ---------------------------------------------------------------------------------------
  // devlog-list and project-devlogs

  /** `devlog_list` and `project_devlogs` (they differ only in the endpoint): the key lookup,
      the requested page, `pagination.get("total_pages", 1) or 1`, the clamp, then the view's
      `get_embed` fetches the clamped page. A failed key lookup replies before any fetch. */
  function DevlogList<E>(key: Result<Option<string>, StorageError>,
                         answers: seq<Result<Listing<E>, string>>, page: int): Run<E>
    requires |answers| >= 2
  {
    match KeyGuard(key)
    case Err(m) => Run([], Message(m))
    case Ok(_) =>
      match answers[0]
      case Err(e) => Run([page], ApiFailure(ApiErrorText(e)))
      case Ok(first) =>
        var total := EffectiveTotal(first.total);
        var p := ClampPage(page, total);
        match answers[1]
        case Err(e) => Run([page, p], ApiFailure(ApiErrorText(e)))
        case Ok(shown) => Run([page, p], Sent(shown.embed, p, total, total > 1))
  }

  /** Without a key nothing is fetched. Otherwise the requested page is fetched first and
      every later fetch is for the clamped page (never re-fetched in between, unlike the
      searches); the page shown lies in [1, total], where a missing, null or zero count is
      one page; a view is attached exactly when there is more than one page; and an API
      error ends the command with its text. */
  lemma DevlogListResolution<E>(key: Result<Option<string>, StorageError>,
                                answers: seq<Result<Listing<E>, string>>, page: int)
    requires |answers| >= 2
    ensures KeyGuard(key).Err? ==> DevlogList(key, answers, page) == Run([], Message(KeyGuard(key).error))
    ensures var r := DevlogList(key, answers, page);
      KeyGuard(key).Ok? ==>
        1 <= |r.fetched| <= 2 && r.fetched[0] == page
        && (|r.fetched| == 2 ==> r.fetched[1] == ClampPage(page, EffectiveTotal(answers[0].value.total)))
    ensures var r := DevlogList(key, answers, page);
      r.reply.Sent? ==>
        var total := EffectiveTotal(answers[0].value.total);
        && total != 0
        && r.reply.page == ClampPage(page, total) && 1 <= r.reply.page <= Max(1, total)
        && (1 <= page <= total ==> r.reply.page == page)
        && r.reply.totalPages == total && (r.reply.withView <==> total > 1)
        && r.reply.embed == answers[1].value.embed
    ensures var r := DevlogList(key, answers, page);
      KeyGuard(key).Ok? ==>
        r.reply.Sent? || (r.reply.ApiFailure? && answers[|r.fetched| - 1].Err?
                          && r.reply.message == ApiErrorText(answers[|r.fetched| - 1].error))
  {
  }

  // ---------------------------------------------------------------------------------------
  // devlog-view

  /** The `devlog` entry of a fetched devlog (`None`: missing, null or empty), with its body
      and scrapbook link. */
  datatype DevlogRecord = DevlogRecord(body: Option<string>, scrapbook: Option<string>)

  /** The embed of `devlog_view`: its title, its description and its optional "Scrapbook"
      field. */
  datatype DevlogCard = DevlogCard(title: string, description: string, scrapbook: Option<string>)

  /** The embed for devlog `devlogId` given the fetched `devlog` entry. */
  function DevlogCardOf(devlogId: int, record: Option<DevlogRecord>): DevlogCard
  {
    var d := record.GetOr(DevlogRecord(None, None));
    var body := Strip(d.body.GetOr(""));
    DevlogCard("Devlog " + IntToString(devlogId), if body != "" then body else NoBodyText,
               if d.scrapbook.Some? && d.scrapbook.value != "" then d.scrapbook else None)
  }

  /** How `devlog_view` ends: the embed, or an error message. */
  datatype ViewReply = Shown(card: DevlogCard) | ViewError(message: string)

  /** `devlog_view`: the key lookup, then one fetch (the devlog entry, or the API error). */
  function DevlogView(devlogId: int, key: Result<Option<string>, StorageError>,
                      fetched: Result<Option<DevlogRecord>, string>): ViewReply
  {
    match KeyGuard(key)
    case Err(m) => ViewError(m)
    case Ok(_) =>
      match fetched
      case Err(e) => ViewError(ApiErrorText(e))
      case Ok(record) => Shown(DevlogCardOf(devlogId, record))
  }

  /** The card always has a description: the body without surrounding whitespace, or
      "No body" when nothing is left of it; the scrapbook field is shown exactly for a
      non-empty link, and then as given; the title names the devlog's id. */
  lemma DevlogCardFacts(devlogId: int, record: Option<DevlogRecord>)
    ensures var c := DevlogCardOf(devlogId, record);
      |c.description| > 0 && !IsSpace(c.description[0]) && !IsSpace(c.description[|c.description| - 1])
    ensures record.None? ==> DevlogCardOf(devlogId, record).description == NoBodyText
    ensures var c := DevlogCardOf(devlogId, record);
      c.scrapbook.Some? <==> record.Some? && record.value.scrapbook.Some? && record.value.scrapbook.value != ""
    ensures var c := DevlogCardOf(devlogId, record);
      c.scrapbook.Some? ==> c.scrapbook == record.value.scrapbook
    ensures var t := DevlogCardOf(devlogId, record).title;
      |t| >= 7 && t[..7] == "Devlog " && ParseInt(t[7..]) == Some((devlogId, ""))
  {
    assert !IsSpace(NoBodyText[0]) && !IsSpace(NoBodyText[|NoBodyText| - 1]);
    var body := Strip(record.GetOr(DevlogRecord(None, None)).body.GetOr(""));
    assert DevlogCardOf(devlogId, record).description == if body != "" then body else NoBodyText;
    var t := DevlogCardOf(devlogId, record).title;
    assert t[7..] == IntToString(devlogId) + "";
    IntToStringParses(devlogId, "");
  }

  /** Without a key nothing is shown and no fetch is made; a fetched devlog is always shown,
      and an API error is reported with its text. */
  lemma DevlogViewFacts(devlogId: int, key: Result<Option<string>, StorageError>,
                        fetched: Result<Option<DevlogRecord>, string>)
    ensures KeyGuard(key).Err? ==> DevlogView(devlogId, key, fetched) == ViewError(KeyGuard(key).error)
    ensures var r := DevlogView(devlogId, key, fetched);
      r.Shown? <==> KeyGuard(key).Ok? && fetched.Ok?
    ensures KeyGuard(key).Ok? && fetched.Err? ==>
      DevlogView(devlogId, key, fetched) == ViewError(ApiErrorText(fetched.error))
  {
  }

  // ---------------------------------------------------------------------------------------
  // devlog-create

  /** An attachment as the handler reads it: its file name, its content (read from Discord)
      and its declared content type, `None` when missing. */
  datatype Attachment = Attachment(filename: string, content: seq<bv8>, contentType: Option<string>)

  /** An upload: file name, content, content type. */
  datatype Payload = Payload(filename: string, content: seq<bv8>, contentType: string)

  /** `attachment.content_type or "application/octet-stream"`. */
  function PayloadOf(a: Attachment): (p: Payload)
    ensures p.filename == a.filename && p.content == a.content && p.contentType != ""
    ensures a.contentType.Some? && a.contentType.value != "" ==> p.contentType == a.contentType.value
    ensures a.contentType.None? || a.contentType.value == "" ==> p.contentType == DefaultContentType
  {
    Payload(a.filename, a.content,
            if a.contentType.Some? && a.contentType.value != "" then a.contentType.value else DefaultContentType)
  }

  /** The attachments that were given, in the order of the options. */
  function Present(options: seq<Option<Attachment>>): seq<Attachment>
  {
    if |options| == 0 then []
    else Present(options[..|options| - 1])
           + (if options[|options| - 1].Some? then [options[|options| - 1].value] else [])
  }

  /** The loop of `devlog_create` over the given attachments: `None` when there are none,
      otherwise one payload per attachment, in order. */
  method BuildPayloads(options: seq<Option<Attachment>>) returns (r: Option<seq<Payload>>)
    ensures r.None? <==> |Present(options)| == 0
    ensures r.Some? ==> |r.value| == |Present(options)|
    ensures r.Some? ==> forall k :: 0 <= k < |r.value| ==> r.value[k] == PayloadOf(Present(options)[k])
    ensures r == Payloads(options)
  {
    var attachments := Present(options);
    if |attachments| == 0 {
      return None;
    }
    var payloads: seq<Payload> := [];
    var i := 0;
    while i < |attachments|
      invariant 0 <= i <= |attachments| && |payloads| == i
      invariant forall k :: 0 <= k < i ==> payloads[k] == PayloadOf(attachments[k])
    {
      payloads := payloads + [PayloadOf(attachments[i])];
      i := i + 1;
    }
    assert payloads == Payloads(options).value;
    r := Some(payloads);
  }

  /** How many of the options were given. */
  function GivenCount(options: seq<Option<Attachment>>): nat
  {
    if |options| == 0 then 0
    else GivenCount(options[..|options| - 1]) + (if options[|options| - 1].Some? then 1 else 0)
  }

  /** `a` is the attachment of one of the options. */
  predicate FromOption(options: seq<Option<Attachment>>, a: Attachment)
  {
    exists j :: 0 <= j < |options| && options[j] == Some(a)
  }

  /** One attachment per given option, and nothing else. */
  lemma {:induction false} PresentCount(options: seq<Option<Attachment>>)
    ensures |Present(options)| == GivenCount(options) <= |options|
  {
    if |options| > 0 {
      PresentCount(options[..|options| - 1]);
    }
  }

  /** Every attachment comes from a given option. */
  lemma {:induction false} PresentSound(options: seq<Option<Attachment>>, k: nat)
    requires k < |Present(options)|
    ensures FromOption(options, Present(options)[k])
  {
    var init := options[..|options| - 1];
    var before := Present(init);
    if k < |before| {
      PresentSound(init, k);
      var j :| 0 <= j < |init| && init[j] == Some(before[k]);
      assert options[j] == init[j];
    } else {
      assert options[|options| - 1] == Some(Present(options)[k]);
    }
  }

  /** Every given option's attachment is kept. */
  lemma {:induction false} PresentComplete(options: seq<Option<Attachment>>, j: nat)
    requires j < |options| && options[j].Some?
    ensures options[j].value in Present(options)
  {
    var init := options[..|options| - 1];
    var before := Present(init);
    var after := Present(options);
    if j == |options| - 1 {
      assert after[|before|] == options[j].value;
    } else {
      assert init[j] == options[j];
      PresentComplete(init, j);
      var k :| 0 <= k < |before| && before[k] == options[j].value;
      assert after[k] == before[k];
    }
  }

  /** What the oracles of one `devlog-create` answer: the demo switch, the key lookup, the
      validation (the checked body and media URLs, or the error text) and
      `create_devlog_with_attachments` (the id it reports, as text, `None` when the
      answer has none). */
  datatype CreateWorld = CreateWorld(demo: bool, key: Result<Option<string>, StorageError>,
                                     validated: Result<(string, seq<string>), string>,
                                     created: Result<Option<string>, string>)

  /** What `devlog-create` did: whether it looked up the key, whether it passed the demo, key
      and validation checks (and so went on to read whatever attachments were given, perhaps
      none), the upload it sent (project, body, URLs, payloads) if any, and its reply. */
  datatype CreateRun = CreateRun(lookedUp: bool, passedChecks: bool,
                                 upload: Option<(int, string, seq<string>, Option<seq<Payload>>)>,
                                 reply: string)

  /** The payloads `devlog_create` builds, as a function. */
  function Payloads(options: seq<Option<Attachment>>): Option<seq<Payload>>
  {
    var attachments := Present(options);
    if |attachments| == 0 then None
    else Some(seq(|attachments|, k requires 0 <= k < |attachments| => PayloadOf(attachments[k])))
  }

  const CreatedPrefix := "Devlog created. ID: "

  /** The reply to a created devlog; a missing id is reported as "unknown". */
  function CreatedMessage(id: Option<string>): string { CreatedPrefix + id.GetOr("unknown") }

  /** `devlog_create`. */
  function DevlogCreate(projectId: int, options: seq<Option<Attachment>>, w: CreateWorld): CreateRun
  {
    if w.demo then CreateRun(false, false, None, DemoCreateMessage)
    else match KeyGuard(w.key)
    case Err(m) => CreateRun(true, false, None, m)
    case Ok(_) =>
      match w.validated
      case Err(m) => CreateRun(true, false, None, m)
      case Ok((body, urls)) =>
        var upload := Some((projectId, body, urls, Payloads(options)));
        match w.created
        case Err(e) => CreateRun(true, true, upload, ApiErrorText(e))
        case Ok(id) => CreateRun(true, true, upload, CreatedMessage(id))
  }

  /** Demo mode refuses before the key lookup; a failed key lookup or validation stops
      before the attachment step and nothing is uploaded; otherwise the upload carries
      the validated body and URLs and the payloads of the given attachments. */
  lemma DevlogCreateOrder(projectId: int, options: seq<Option<Attachment>>, w: CreateWorld)
    ensures w.demo ==> DevlogCreate(projectId, options, w) == CreateRun(false, false, None, DemoCreateMessage)
    ensures var r := DevlogCreate(projectId, options, w);
      r.passedChecks <==> !w.demo && KeyGuard(w.key).Ok? && w.validated.Ok?
    ensures var r := DevlogCreate(projectId, options, w);
      r.upload.Some? <==> r.passedChecks
    ensures var r := DevlogCreate(projectId, options, w);
      r.upload.Some? ==>
        r.upload.value == (projectId, w.validated.value.0, w.validated.value.1, Payloads(options))
    ensures var r := DevlogCreate(projectId, options, w);
      !w.demo && KeyGuard(w.key).Err? ==> r == CreateRun(true, false, None, KeyGuard(w.key).error)
    ensures var r := DevlogCreate(projectId, options, w);
      !w.demo && KeyGuard(w.key).Ok? && w.validated.Err? ==> r == CreateRun(true, false, None, w.validated.error)
  {
  }

  /** Once the upload was sent, the reply is the API error's text when the call failed and
      otherwise starts with "Devlog created. ID: " followed by the reported id, or by
      "unknown" when none was reported. */
  lemma DevlogCreateReply(projectId: int, options: seq<Option<Attachment>>, w: CreateWorld)
    ensures var r := DevlogCreate(projectId, options, w);
      r.upload.Some? && w.created.Err? ==> r.reply == ApiErrorText(w.created.error)
    ensures var r := DevlogCreate(projectId, options, w);
      r.upload.Some? && w.created.Ok? ==>
        |r.reply| >= |CreatedPrefix| && r.reply[..|CreatedPrefix|] == CreatedPrefix
        && r.reply[|CreatedPrefix|..] == (if w.created.value.Some? then w.created.value.value else "unknown")
  {
    var r := DevlogCreate(projectId, options, w);
    if r.upload.Some? && w.created.Ok? {
      SplitConcat(CreatedPrefix, w.created.value.GetOr("unknown"));
    }
  }
}

=== FILE: hackatime.dfy ===
/** The Hackatime client of bot/hackatime.py: one bearer header, two endpoints, and every
    failure raised as `HackatimeAPIError`. Requests go through the executor of bot/http.py
    as written. */
module Hackatime {
  import opened Wrappers
  import opened Http

  const BaseUrl := "https://hackatime.hackclub.com"
  const NoKeyMessage := "No Hackatime key provided."
  const Service := "hackatime"

  /** `_get_headers`: an empty key fails before any request is made; otherwise the key is
      sent as a bearer token and nothing else. */
  function Headers(apiKey: string): (r: Result<seq<(string, string)>, Raised>)
    ensures r.Err? <==> apiKey == ""
    ensures r.Err? ==> r.error == Raised(HackatimeAPIError, NoKeyMessage)
    ensures r.Ok? ==> |r.value| == 1 && r.value[0].0 == "Authorization"
    ensures r.Ok? ==> BearerToken(r.value[0].1) == Some(apiKey)
  {
    if apiKey == "" then Err(Raised(HackatimeAPIError, NoKeyMessage))
    else
      BearerReadsBack(apiKey);
      Ok([("Authorization", Bearer(apiKey))])
  }

  /** The two calls: today's coding time, and a user's stats. */
  datatype Endpoint = Today | Stats(username: string)

  const TodayPath := "/api/hackatime/v1/users/current/statusbar/today"
  const StatsPrefix := "/api/v1/users/"
  const StatsSuffix := "/stats"

  function Url(e: Endpoint): string
  {
    match e
    case Today => BaseUrl + TodayPath
    case Stats(username) => BaseUrl + StatsPrefix + username + StatsSuffix
  }

  function Action(e: Endpoint): string
  {
    match e
    case Today => "Fetch today"
    case Stats(_) => "Fetch stats"
  }

  function Info(e: Endpoint): RequestInfo
  {
    RequestInfo(Action(e), Url(e), Service, HackatimeAPIError)
  }

  /** The user a stats URL names: what lies between the users path and "/stats". */
  function StatsUser(url: string): Option<string>
  {
    var head := BaseUrl + StatsPrefix;
    if |url| >= |head| + |StatsSuffix| && url[..|head|] == head && url[|url| - |StatsSuffix|..] == StatsSuffix
    then Some(url[|head|..|url| - |StatsSuffix|])
    else None
  }

  /** The stats URL is interpolated without escaping, yet it still names exactly the user it
      was built for, whatever the name contains. */
  lemma StatsUrlNamesUser(username: string)
    ensures StatsUser(Url(Stats(username))) == Some(username)
  {
    var head := BaseUrl + StatsPrefix;
    var url := head + username + StatsSuffix;
    assert url[..|head|] == head;
    assert url[|url| - |StatsSuffix|..] == StatsSuffix;
    assert url[|head|..|url| - |StatsSuffix|] == username;
  }

  /** The today URL is not a stats URL of any user. */
  lemma TodayIsNotStats()
    ensures StatsUser(Url(Today)) == None
  {
    var url := Url(Today);
    assert url[|url| - |StatsSuffix|..] != StatsSuffix by {
      assert url[|url| - 1] == 'y';
    }
  }

  /** One call: headers (which may fail first), then the executor. */
  function Fetch<B>(apiKey: string, e: Endpoint, answers: seq<Answer<B>>): Result<B, Raised>
    requires |answers| >= MaxAttempts
  {
    match Headers(apiKey)
    case Err(err) => Err(err)
    case Ok(_) =>
      match Request(answers, Info(e)).outcome
      case Returned(body) => Ok(body)
      case Failed(err) => Err(err)
  }

  /** Without a key every call fails with the key message, whatever the server would have
      answered; with one, the call returns or raises exactly what the executor does. Every
      failure is a `HackatimeAPIError`. */
  lemma FetchFacts<B>(apiKey: string, e: Endpoint, answers: seq<Answer<B>>)
    requires |answers| >= MaxAttempts
    ensures apiKey == "" ==> Fetch(apiKey, e, answers) == Err(Raised(HackatimeAPIError, NoKeyMessage))
    ensures apiKey != "" ==>
      (Fetch(apiKey, e, answers).Ok? <==> Request(answers, Info(e)).outcome.Returned?)
    ensures Fetch(apiKey, e, answers).Ok? ==>
      Fetch(apiKey, e, answers).value == Request(answers, Info(e)).outcome.body
    ensures apiKey != "" && Fetch(apiKey, e, answers).Err? ==>
      Fetch(apiKey, e, answers).error == Request(answers, Info(e)).outcome.error
    ensures Fetch(apiKey, e, answers).Err? ==> Fetch(apiKey, e, answers).error.cls == HackatimeAPIError
  {
    if apiKey != "" {
      FinalAnswerDecides(answers, Info(e));
    }
  }
}

=== FILE: http.dfy ===
/** The outbound request executor of bot/http.py: up to two retries on 502/503/504 with a
    fixed backoff schedule, 401 as a terminal "unauthorized" failure, every other error status
    and every transport failure terminal, and one message template for all failures.
    The network is an oracle: `answers[i]` is what attempt `i` observes. */
module Http {
  import opened Wrappers
  import opened Text

  /** The exception class a caller asks failures to be raised as. */
  datatype ErrorClass = HTTPAPIError | APIError | HackatimeAPIError

  /** What one attempt observes. `truthy` is the truth value of the library's response object,
      which the error path consults before reading the status; `errorText` is the text of the
      exception the library raises for this answer. */
  datatype Answer<B> =
    | Response(status: int, truthy: bool, text: string, errorText: string, body: B)
    | TransportFailure(errorText: string)

  /** An exception of class `cls` carrying `message`. */
  datatype Raised = Raised(cls: ErrorClass, message: string)

  /** How one call ends: the parsed body is returned, or an exception is raised. */
  datatype Outcome<B> = Returned(body: B) | Failed(error: Raised)

  /** One call: its outcome, how many attempts it made, and the backoffs (in milliseconds) it
      slept between them. */
  datatype Call<B> = Call(outcome: Outcome<B>, attempts: nat, slept: seq<nat>)

  /** The caller-supplied labels of a call. */
  datatype RequestInfo = RequestInfo(action: string, url: string, service: string, cls: ErrorClass)

  const MaxRetries: nat := 2
  const MaxAttempts: nat := MaxRetries + 1
  /** 0.5 s, then 1.0 s. */
  const Backoffs: seq<nat> := [500, 1000]
  const UnauthorizedDetail := "Invalid API key or unauthorized access."

  /** Bad gateway, service unavailable, gateway timeout (sections 15.6.3-15.6.5 of RFC 9110). */
  predicate IsTransient(status: int) { status == 502 || status == 503 || status == 504 }

  /** The statuses `raise_for_status` rejects: client and server errors
      (sections 15.5 and 15.6 of RFC 9110). */
  predicate RaisesForStatus(status: int) { 400 <= status < 600 }

  predicate Retryable<B>(a: Answer<B>) { a.Response? && IsTransient(a.status) }

  function StatusText(status: Option<int>): (t: string)
    ensures t == "unknown" <==> status.None?
  {
    match status
    case Some(n) => var t := IntToString(n); assert t[0] != 'u'; t
    case None => "unknown"
  }

  const FailedMarker := " failed (status="

  /** The one failure-message template. */
  function FormatError(action: string, url: string, status: Option<int>, detail: string): string
  {
    action + FailedMarker + StatusText(status) + Trailer(detail, url)
  }

  /** What follows the status: the detail and the URL. */
  function Trailer(detail: string, url: string): string
  {
    ") " + detail + " | url=" + url
  }

  /** Reads back the status part of a failure message, given the text that follows
      "status=": `Some(None)` for "unknown", `Some(Some(n))` for a number, `None` otherwise. */
  function StatusPart(rest: string): Option<Option<int>>
  {
    if |rest| >= 8 && rest[..8] == "unknown)" then Some(None)
    else match ParseInt(rest)
      case Some((n, tail)) => if |tail| > 0 && tail[0] == ')' then Some(Some(n)) else None
      case None => None
  }

  /** Reads back the status of a message built by `FormatError` for `action`. */
  function MessageStatus(message: string, action: string): Option<Option<int>>
  {
    var head := action + FailedMarker;
    if |head| <= |message| && message[..|head|] == head then StatusPart(message[|head|..])
    else None
  }

  lemma StatusPartOf(status: Option<int>, tail: string)
    requires |tail| > 0 && tail[0] == ')'
    ensures StatusPart(StatusText(status) + tail) == Some(status)
  {
    var rest := StatusText(status) + tail;
    match status
    case None =>
      assert rest[..8] == "unknown)";
    case Some(n) =>
      IntToStringParses(n, tail);
      assert rest[0] == IntToString(n)[0];
  }

  /** Round trip: every failure message carries exactly the status it was built with. */
  lemma FormatErrorStatus(action: string, url: string, status: Option<int>, detail: string)
    ensures MessageStatus(FormatError(action, url, status, detail), action) == Some(status)
  {
    var head := action + FailedMarker;
    var tail := Trailer(detail, url);
    Assoc(head, StatusText(status), tail);
    SplitConcat(head, StatusText(status) + tail);
    StatusPartOf(status, tail);
  }

  // ---------------------------------------------------------------------------------------
  // Bearer credentials (section 2.1 of RFC 6750), shared by the API clients.

  const BearerPrefix := "Bearer "

  /** The value of an `Authorization` header carrying `token`. */
  function Bearer(token: string): string { BearerPrefix + token }

  /** The token of a bearer `Authorization` value. */
  function BearerToken(value: string): Option<string>
  {
    if |value| >= |BearerPrefix| && value[..|BearerPrefix|] == BearerPrefix
    then Some(value[|BearerPrefix|..]) else None
  }

  /** A bearer value carries exactly its token. */
  lemma BearerReadsBack(token: string)
    ensures BearerToken(Bearer(token)) == Some(token)
  {
    assert Bearer(token)[..|BearerPrefix|] == BearerPrefix;
    assert Bearer(token)[|BearerPrefix|..] == token;
  }

  /** The status the error path reports: read only when the response object is truthy. */
  function ReportedStatus<B>(a: Answer<B>): Option<int>
    requires a.Response?
  {
    if a.truthy then Some(a.status) else None
  }

  /** The detail the error path reports: the stripped body text when there is a truthy response
      with non-empty text, the exception's own text otherwise. */
  function ReportedDetail<B>(a: Answer<B>): string
    requires a.Response?
  {
    if a.truthy && |a.text| > 0 then Strip(a.text) else a.errorText
  }

  /** How an attempt that is not retried ends the call. */
  function Settle<B>(a: Answer<B>, req: RequestInfo): Outcome<B>
  {
    match a
    case TransportFailure(e) =>
      Failed(Raised(req.cls, FormatError(req.action, req.url, None, e)))
    case Response(status, _, _, _, body) =>
      if status == 401 then
        Failed(Raised(req.cls, FormatError(req.action, req.url, Some(401), UnauthorizedDetail)))
      else if RaisesForStatus(status) then
        Failed(Raised(req.cls, FormatError(req.action, req.url, ReportedStatus(a), ReportedDetail(a))))
      else Returned(body)
  }

  /** The call from attempt number `attempt` on. */
  function Attempt<B>(answers: seq<Answer<B>>, attempt: nat, req: RequestInfo): Call<B>
    requires attempt <= MaxRetries < |answers|
    decreases MaxRetries - attempt
  {
    if attempt < MaxRetries && Retryable(answers[attempt]) then
      var rest := Attempt(answers, attempt + 1, req);
      rest.(slept := [Backoffs[attempt]] + rest.slept)
    else
      Call(Settle(answers[attempt], req), attempt + 1, [])
  }

  /** What the calls from attempt `attempt` on observe and do. */
  lemma AttemptFacts<B>(answers: seq<Answer<B>>, attempt: nat, req: RequestInfo)
    requires attempt <= MaxRetries < |answers|
    ensures var c := Attempt(answers, attempt, req);
      && attempt < c.attempts <= MaxAttempts
      && (forall i :: attempt <= i < c.attempts - 1 ==> Retryable(answers[i]))
      && (c.attempts < MaxAttempts ==> !Retryable(answers[c.attempts - 1]))
      && c.slept == Backoffs[attempt..c.attempts - 1]
      && c.outcome == Settle(answers[c.attempts - 1], req)
  {
    AttemptStops(answers, attempt, req);
    AttemptSleeps(answers, attempt, req);
  }

  /** The calls go on exactly while the answers are transient. */
  lemma {:induction false} AttemptStops<B>(answers: seq<Answer<B>>, attempt: nat, req: RequestInfo)
    requires attempt <= MaxRetries < |answers|
    ensures var c := Attempt(answers, attempt, req);
      && attempt < c.attempts <= MaxAttempts
      && (forall i :: attempt <= i < c.attempts - 1 ==> Retryable(answers[i]))
      && (c.attempts < MaxAttempts ==> !Retryable(answers[c.attempts - 1]))
    decreases MaxRetries - attempt
  {
    if attempt < MaxRetries && Retryable(answers[attempt]) {
      AttemptStops(answers, attempt + 1, req);
    }
  }

  /** The calls sleep the backoffs of the retried attempts and settle the last answer. */
  lemma {:induction false} AttemptSleeps<B>(answers: seq<Answer<B>>, attempt: nat, req: RequestInfo)
    requires attempt <= MaxRetries < |answers|
    ensures var c := Attempt(answers, attempt, req);
      && attempt < c.attempts <= MaxAttempts
      && c.slept == Backoffs[attempt..c.attempts - 1]
      && c.outcome == Settle(answers[c.attempts - 1], req)
    decreases MaxRetries - attempt
  {
    if attempt < MaxRetries && Retryable(answers[attempt]) {
      AttemptSleeps(answers, attempt + 1, req);
      var rest := Attempt(answers, attempt + 1, req);
      BackoffsFrom(attempt, rest.attempts - 1);
    }
  }

  lemma BackoffsFrom(a: nat, b: nat)
    requires a < b <= |Backoffs|
    ensures Backoffs[a..b] == [Backoffs[a]] + Backoffs[a + 1..b]
  {
  }

  /** Unfolds one retried attempt, after the backoffs `slept` so far. */
  lemma RetryStep<B>(answers: seq<Answer<B>>, attempt: nat, req: RequestInfo, slept: seq<nat>)
    requires attempt < MaxRetries < |answers| && Retryable(answers[attempt])
    ensures var here := Attempt(answers, attempt, req); var next := Attempt(answers, attempt + 1, req);
      here.outcome == next.outcome && here.attempts == next.attempts
      && slept + here.slept == (slept + [Backoffs[attempt]]) + next.slept
  {
  }

  /** Where the retries stop, the attempt settles its own answer. */
  lemma LastAttempt<B>(answers: seq<Answer<B>>, attempt: nat, req: RequestInfo)
    requires attempt <= MaxRetries < |answers|
    requires !(attempt < MaxRetries && Retryable(answers[attempt]))
    ensures Attempt(answers, attempt, req) == Call(Settle(answers[attempt], req), attempt + 1, [])
  {
  }

  lemma BackoffsPrefix(k: nat)
    requires k < |Backoffs|
    ensures Backoffs[..k + 1] == Backoffs[..k] + [Backoffs[k]]
  {
  }

  /** One call of `_request`. */
  function Request<B>(answers: seq<Answer<B>>, req: RequestInfo): Call<B>
    requires |answers| >= MaxAttempts
  {
    Attempt(answers, 0, req)
  }

  /** The retry schedule of one call. */
  lemma RetrySchedule<B>(answers: seq<Answer<B>>, req: RequestInfo)
    requires |answers| >= MaxAttempts
    // at most max_retries + 1 attempts, and every attempt but the last saw 502/503/504
    ensures var c := Request(answers, req);
      && 1 <= c.attempts <= MaxAttempts
      && (forall i :: 0 <= i < c.attempts - 1 ==> Retryable(answers[i]))
    // the call stops at the first answer that is not a transient status
    ensures var c := Request(answers, req);
      c.attempts < MaxAttempts ==> !Retryable(answers[c.attempts - 1])
    // it slept backoffs[0], ..., backoffs[attempts - 2], in order
    ensures var c := Request(answers, req); c.slept == Backoffs[..c.attempts - 1]
  {
    AttemptFacts(answers, 0, req);
  }

  /** The answer to the last attempt decides how the call ends. */
  lemma FinalAnswerDecides<B>(answers: seq<Answer<B>>, req: RequestInfo)
    requires |answers| >= MaxAttempts
    ensures var c := Request(answers, req);
      1 <= c.attempts <= MaxAttempts
    // a status raise_for_status accepts returns the parsed body ...
    ensures var c := Request(answers, req); var last := answers[c.attempts - 1];
      c.outcome.Returned? <==> last.Response? && last.status != 401 && !RaisesForStatus(last.status)
    ensures var c := Request(answers, req);
      c.outcome.Returned? ==> c.outcome.body == answers[c.attempts - 1].body
    // ... and every failure is raised as the caller's class
    ensures var c := Request(answers, req);
      c.outcome.Failed? ==> c.outcome.error.cls == req.cls
    ensures var c := Request(answers, req); var last := answers[c.attempts - 1];
      last.TransportFailure? ==>
        c.outcome.error.message == FormatError(req.action, req.url, None, last.errorText)
    ensures var c := Request(answers, req); var last := answers[c.attempts - 1];
      last.Response? && last.status == 401 ==>
        c.outcome.error.message == FormatError(req.action, req.url, Some(401), UnauthorizedDetail)
    ensures var c := Request(answers, req); var last := answers[c.attempts - 1];
      last.Response? && last.status != 401 && RaisesForStatus(last.status) ==>
        c.outcome.error.message
          == FormatError(req.action, req.url, ReportedStatus(last), ReportedDetail(last))
  {
    AttemptFacts(answers, 0, req);
  }

  /** The loop of `_request`, indexing the backoff schedule by attempt number. */
  method RunRequest<B>(answers: seq<Answer<B>>, req: RequestInfo) returns (c: Call<B>)
    requires |answers| >= MaxAttempts
    ensures c == Request(answers, req)
  {
    var backoffs := Backoffs;
    var slept: seq<nat> := [];
    var attempt: nat := 0;
    while attempt < MaxRetries && Retryable(answers[attempt])
      invariant attempt <= MaxRetries
      invariant slept == Backoffs[..attempt]
      invariant Attempt(answers, 0, req).outcome == Attempt(answers, attempt, req).outcome
      invariant Attempt(answers, 0, req).attempts == Attempt(answers, attempt, req).attempts
      invariant Attempt(answers, 0, req).slept == slept + Attempt(answers, attempt, req).slept
    {
      RetryStep(answers, attempt, req, slept);
      BackoffsPrefix(attempt);
      slept := slept + [backoffs[attempt]];
      attempt := attempt + 1;
    }
    c := Call(Settle(answers[attempt], req), attempt + 1, slept);
    LastAttempt(answers, attempt, req);
    assert slept + [] == slept;
  }

  /** A 401 is never retried, wherever it comes. */
  lemma UnauthorizedNotRetried<B>(answers: seq<Answer<B>>, req: RequestInfo, k: nat)
    requires |answers| >= MaxAttempts && k < MaxAttempts
    requires answers[k].Response? && answers[k].status == 401
    requires forall i :: 0 <= i < k ==> Retryable(answers[i])
    ensures Request(answers, req).attempts == k + 1
    ensures Request(answers, req).outcome
      == Failed(Raised(req.cls, FormatError(req.action, req.url, Some(401), UnauthorizedDetail)))
  {
    RetrySchedule(answers, req);
    FinalAnswerDecides(answers, req);
  }

  /** Three transient statuses in a row exhaust the retries and fail through `raise_for_status`. */
  lemma ExhaustedRetriesFail<B>(answers: seq<Answer<B>>, req: RequestInfo)
    requires |answers| >= MaxAttempts
    requires Retryable(answers[0]) && Retryable(answers[1]) && Retryable(answers[2])
    ensures Request(answers, req).attempts == MaxAttempts
    ensures Request(answers, req).slept == Backoffs
    ensures Request(answers, req).outcome
      == Failed(Raised(req.cls, FormatError(req.action, req.url,
                                            ReportedStatus(answers[2]), ReportedDetail(answers[2]))))
  {
    RetrySchedule(answers, req);
    FinalAnswerDecides(answers, req);
  }

  /** The call looks at no answer after its last attempt: two oracles that agree on the
      attempts made give the same call. */
  lemma {:induction false} NoFurtherAttempts<B>(a1: seq<Answer<B>>, a2: seq<Answer<B>>, req: RequestInfo)
    requires |a1| >= MaxAttempts && |a2| >= MaxAttempts
    requires var n := Request(a1, req).attempts; a1[..n] == a2[..n]
    ensures Request(a2, req) == Request(a1, req)
  {
    RetrySchedule(a1, req);
    RetrySchedule(a2, req);
    var n := Request(a1, req).attempts;
    assert forall i :: 0 <= i < n ==> a1[i] == a2[i] by {
      forall i | 0 <= i < n ensures a1[i] == a2[i] {
        assert a1[..n][i] == a2[..n][i];
      }
    }
  }

  // ---------------------------------------------------------------------------------------
  // The status on the error path.  A response object of the HTTP library is truthy exactly
  // when its `ok` flag is set, that is when `raise_for_status` would not raise; the error
  // path is reached only for the statuses it raises for.

  /** Truthiness of the HTTP library's response objects: false exactly for the statuses
      `raise_for_status` rejects (400 to 599), true for every other status. */
  predicate LibraryTruthiness<B>(answers: seq<Answer<B>>)
  {
    forall i :: 0 <= i < |answers| ==> answers[i].Response? ==> answers[i].truthy == !RaisesForStatus(answers[i].status)
  }

  /** As written: with the library's truthiness, every failure other than 401 reports the status
      as "unknown" and the exception's text as detail, whatever the server answered. */
  lemma ErrorStatusAlwaysUnknown<B>(answers: seq<Answer<B>>, req: RequestInfo)
    requires |answers| >= MaxAttempts && LibraryTruthiness(answers)
    ensures var c := Request(answers, req); var last := answers[c.attempts - 1];
      c.outcome.Failed? && last.Response? && last.status != 401 ==>
        c.outcome.error.message == FormatError(req.action, req.url, None, last.errorText)
  {
    FinalAnswerDecides(answers, req);
  }

  /** The response object is always present on this path; testing it with `is not None`
      instead of truthiness is what the error path evidently intends. */
  function PresentResponses<B>(answers: seq<Answer<B>>): (r: seq<Answer<B>>)
    ensures |r| == |answers|
    ensures forall i :: 0 <= i < |r| ==>
      r[i] == (if answers[i].Response? then answers[i].(truthy := true) else answers[i])
  {
    if |answers| == 0 then []
    else
      [if answers[0].Response? then answers[0].(truthy := true) else answers[0]]
        + PresentResponses(answers[1..])
  }

  /** Corrected: the error path tests the response with `is not None`. */
  function RequestReportingStatus<B>(answers: seq<Answer<B>>, req: RequestInfo): Call<B>
    requires |answers| >= MaxAttempts
  {
    Request(PresentResponses(answers), req)
  }

  /** The corrected call retries exactly as the original does, returns what it returns, and
      reports the numeric status and the response text on the error path. */
  lemma StatusReported<B>(answers: seq<Answer<B>>, req: RequestInfo)
    requires |answers| >= MaxAttempts
    ensures RequestReportingStatus(answers, req).attempts == Request(answers, req).attempts
    ensures Request(answers, req).outcome.Returned? ==>
      RequestReportingStatus(answers, req).outcome == Request(answers, req).outcome
    ensures var c := RequestReportingStatus(answers, req); var last := answers[c.attempts - 1];
      last.Response? && last.status != 401 && RaisesForStatus(last.status) ==>
        c.outcome == Failed(Raised(req.cls, FormatError(req.action, req.url, Some(last.status),
                                    if |last.text| > 0 then Strip(last.text) else last.errorText)))
  {
    PresentAttempt(answers, 0, req);
    AttemptFacts(PresentResponses(answers), 0, req);
  }

  /** From any attempt on, marking the responses present changes neither the number of
      attempts nor a returned body. */
  lemma {:induction false} PresentAttempt<B>(answers: seq<Answer<B>>, attempt: nat, req: RequestInfo)
    requires attempt <= MaxRetries < |answers|
    ensures var a, p := Attempt(answers, attempt, req), Attempt(PresentResponses(answers), attempt, req);
      a.attempts == p.attempts && (a.outcome.Returned? ==> p.outcome == a.outcome)
    decreases MaxRetries - attempt
  {
    if attempt < MaxRetries && Retryable(answers[attempt]) {
      PresentAttempt(answers, attempt + 1, req);
    }
  }
}

=== FILE: login.dfy ===
/** The login flow of bot/cogs/login.py: the login form (passwords, key verification, the
    encrypted store), the unlock of a stored key with a password, the `require_auth` guard,
    `logout` and `status`. The verification request and the cipher are oracles; the key
    table is the one of bot/storage.py. */
module Login {
  import opened Wrappers
  import opened Http
  import opened Storage
  import opened Search

  const MismatchMessage := "Passwords don't match! Please try again."
  const InvalidKeyMessage := "Invalid API key! " + "Please check your key and try again."
  const CouldNotVerifyPrefix := "Could not verify API key: "
  const LoggedInMessage :=
    "**Logged in successfully!**\n\n"
    + "Your API key has been encrypted with your password and stored securely.\n"
    + "**Remember your password** - you'll need it to use API commands.\n\n"
    + "*The bot operator cannot read your API key.*"
  const DeletedMessage := "Your API key has been deleted."
  const NothingToDeleteMessage := "You don't have a stored API key."
  const HasKeyMessage :=
    "You have an encrypted API key stored.\n"
    + "Use commands that require API access and enter your password when prompted."
  const NoKeyMessage :=
    "You don't have an API key stored.\n"
    + "Use `/login` to store your encrypted API key."

  /** What the verification request (`GET /api/v1/users` with the typed key) observes: a
      response with its status and the text `raise_for_status` would raise, or a transport
      failure with its text. */
  datatype Probe = Probed(status: int, errorText: string) | ProbeFailed(errorText: string)

  /** `encrypt_api_key`: the (encrypted key, salt) pair for a key and a password. The random
      salt is part of the oracle. */
  type Encrypt = (string, string) -> (string, string)

  /** `decrypt_api_key`: the key, or `None` when the password does not open it. */
  type Decrypt = (string, string, string) -> Option<string>

  /** What the login form did: whether it sent the verification request, the key table
      after it, and its reply. */
  datatype LoginRun = LoginRun(requested: bool, db: Table, reply: string)

  /** `LoginModal.on_submit` for user `id`; `now` is the database clock. */
  function LoginSubmit(db: Table, id: int, apiKey: string, password: string, confirm: string,
                       probe: Probe, encrypt: Encrypt, now: int): LoginRun
  {
    if password != confirm then LoginRun(false, db, MismatchMessage)
    else
      match probe
      case ProbeFailed(text) => LoginRun(true, db, CouldNotVerifyPrefix + text)
      case Probed(status, text) =>
        if RaisesForStatus(status) then
          LoginRun(true, db, if status == 401 then InvalidKeyMessage else CouldNotVerifyPrefix + text)
        else
          var sealed := encrypt(apiKey, password);
          LoginRun(true, Store(db, id, sealed.0, sealed.1, now), LoggedInMessage)
  }

  /** Whether the verification request succeeded. */
  predicate Verified(probe: Probe)
  {
    probe.Probed? && !RaisesForStatus(probe.status)
  }

  /** Mismatched passwords stop the form before the request and before storage. */
  lemma LoginMismatch(db: Table, id: int, apiKey: string, password: string, confirm: string,
                      probe: Probe, encrypt: Encrypt, now: int)
    requires password != confirm
    ensures LoginSubmit(db, id, apiKey, password, confirm, probe, encrypt, now)
         == LoginRun(false, db, MismatchMessage)
  {
  }

  /** A failed verification stores nothing: a 401 is an invalid key, every other failure is
      reported with its text. */
  lemma LoginVerifyFails(db: Table, id: int, apiKey: string, password: string,
                         probe: Probe, encrypt: Encrypt, now: int)
    requires !Verified(probe)
    ensures var r := LoginSubmit(db, id, apiKey, password, password, probe, encrypt, now);
      r.requested && r.db == db
      && (r.reply == InvalidKeyMessage <==> probe.Probed? && probe.status == 401)
      && (r.reply != InvalidKeyMessage ==> r.reply == CouldNotVerifyPrefix + probe.errorText)
  {
    assert (CouldNotVerifyPrefix + probe.errorText)[0] == 'C' && InvalidKeyMessage[0] == 'I';
  }

  /** The table changes only when the passwords match and the key verified, and then it holds
      exactly the encryption of the typed key with the typed password under the user's id. */
  lemma LoginStoresOnlyVerified(db: Table, id: int, apiKey: string, password: string, confirm: string,
                                probe: Probe, encrypt: Encrypt, now: int)
    ensures var r := LoginSubmit(db, id, apiKey, password, confirm, probe, encrypt, now);
      (password == confirm && Verified(probe)) ==>
        r.db == Store(db, id, encrypt(apiKey, password).0, encrypt(apiKey, password).1, now)
        && r.reply == LoggedInMessage
    ensures var r := LoginSubmit(db, id, apiKey, password, confirm, probe, encrypt, now);
      !(password == confirm && Verified(probe)) ==> r.db == db && r.reply != LoggedInMessage
  {
    assert (CouldNotVerifyPrefix + probe.errorText)[0] == 'C' && LoggedInMessage[0] == '*';
  }

  // ---------------------------------------------------------------------------------------
  // The key lookup of the other cogs

  const KeyFailedMessage := "Failed to retrieve API key."

  /** The key lookup at the top of the project and devlog commands: a storage error gets the
      storage message, a missing or empty key gets "Failed to retrieve API key.", and only a
      non-empty key lets the command go on, with exactly that key. The lookup itself is an
      oracle. */
  function KeyGuard(lookup: Result<Option<string>, StorageError>): (r: Result<string, string>)
    ensures r.Ok? <==> lookup.Ok? && lookup.value.Some? && lookup.value.value != ""
    ensures r.Ok? ==> lookup == Ok(Some(r.value))
    ensures lookup.Err? ==> r == Err(StorageFailureMessage)
    ensures lookup.Ok? && r.Err? ==> r == Err(KeyFailedMessage)
  {
    match lookup
    case Err(_) => Err(StorageFailureMessage)
    case Ok(key) => if key.Some? && key.value != "" then Ok(key.value) else Err(KeyFailedMessage)
  }

  // ---------------------------------------------------------------------------------------
  // Unlock

  /** `get_api_key_for_user`: `None` without a stored row, otherwise what decrypting the
      stored pair with the password gives. */
  function ApiKeyForUser(db: Table, id: int, password: string, decrypt: Decrypt): (r: Option<string>)
    ensures Get(db, id).None? ==> r.None?
    ensures Get(db, id).Some? ==> r == decrypt(Get(db, id).value.0, Get(db, id).value.1, password)
  {
    match Get(db, id)
    case None => None
    case Some((encryptedKey, salt)) => decrypt(encryptedKey, salt, password)
  }

  /** Whenever the cipher opens what it sealed with the same password, a successful login
      can be unlocked with that password and gives back the typed key. */
  lemma LoginThenUnlock(db: Table, id: int, apiKey: string, password: string,
                        probe: Probe, encrypt: Encrypt, decrypt: Decrypt, now: int)
    requires Verified(probe)
    requires decrypt(encrypt(apiKey, password).0, encrypt(apiKey, password).1, password) == Some(apiKey)
    ensures var r := LoginSubmit(db, id, apiKey, password, password, probe, encrypt, now);
      ApiKeyForUser(r.db, id, password, decrypt) == Some(apiKey)
  {
    LoginStoresOnlyVerified(db, id, apiKey, password, password, probe, encrypt, now);
    var sealed := encrypt(apiKey, password);
    StoreThenGet(db, id, sealed.0, sealed.1, now);
  }

  /** How `require_auth` ends: a reply of its own, or the wrapped command running with a
      key. */
  datatype Auth = AuthReply(message: string) | Wrapped(key: string)

  /** The `require_auth` wrapper: the stored-key check when the command is invoked (on table
      `atCommand`), then the unlock with the password from the modal (on table `atUnlock`,
      which the user may have changed in between). */
  function RequireAuth(atCommand: Table, atUnlock: Table, id: int, password: string,
                       decrypt: Decrypt): Auth
  {
    if !Has(atCommand, id) then AuthReply(LoginFirstMessage)
    else
      var key := ApiKeyForUser(atUnlock, id, password, decrypt);
      if key.None? || key.value == "" then AuthReply(IncorrectPasswordMessage)
      else Wrapped(key.value)
  }

  /** The wrapped command runs exactly when a key was stored at the command and the password
      unlocks a non-empty key at the unlock, and then with that key; without a stored key the
      user is told to log in, and a failed or empty unlock is an incorrect password. */
  lemma RequireAuthGate(atCommand: Table, atUnlock: Table, id: int, password: string, decrypt: Decrypt)
    ensures var a := RequireAuth(atCommand, atUnlock, id, password, decrypt);
      a.Wrapped? <==> (Has(atCommand, id) && ApiKeyForUser(atUnlock, id, password, decrypt).Some?
                       && ApiKeyForUser(atUnlock, id, password, decrypt).value != "")
    ensures var a := RequireAuth(atCommand, atUnlock, id, password, decrypt);
      a.Wrapped? ==> Some(a.key) == ApiKeyForUser(atUnlock, id, password, decrypt)
    ensures !Has(atCommand, id) ==>
      RequireAuth(atCommand, atUnlock, id, password, decrypt) == AuthReply(LoginFirstMessage)
    ensures Has(atCommand, id) && !RequireAuth(atCommand, atUnlock, id, password, decrypt).Wrapped? ==>
      RequireAuth(atCommand, atUnlock, id, password, decrypt) == AuthReply(IncorrectPasswordMessage)
  {
  }

  /** A user who logs out between the command and the unlock is refused. */
  lemma LogoutBeforeUnlock(atCommand: Table, db: Table, id: int, password: string, decrypt: Decrypt)
    requires Has(atCommand, id)
    ensures RequireAuth(atCommand, Logout(db, id).db, id, password, decrypt)
         == AuthReply(IncorrectPasswordMessage)
  {
    DeleteThenGet(db, id);
  }

  // ---------------------------------------------------------------------------------------
  // logout and status

  datatype LogoutRun = LogoutRun(db: Table, reply: string)

  /** `logout`: delete the row and reply with what `delete_user_key` reported. */
  function Logout(db: Table, id: int): LogoutRun
  {
    var (after, deleted) := Delete(db, id);
    LogoutRun(after, if deleted then DeletedMessage else NothingToDeleteMessage)
  }

  /** After logout nothing is stored for the user and no one else's row changed; the reply
      says whether a key was stored. */
  lemma LogoutFacts(db: Table, id: int, other: int)
    ensures !Has(Logout(db, id).db, id)
    ensures Logout(db, id).reply == (if Has(db, id) then DeletedMessage else NothingToDeleteMessage)
    ensures other != id ==> Get(Logout(db, id).db, other) == Get(db, other)
  {
    DeleteThenGet(db, id);
    if other != id {
      OthersUnchanged(db, id, other, "", "", 0);
    }
  }

  /** `status`. */
  function Status(db: Table, id: int): string
  {
    if Has(db, id) then HasKeyMessage else NoKeyMessage
  }

  /** `status` reports a key right after a successful login and none right after logout. */
  lemma StatusAfter(db: Table, id: int, apiKey: string, password: string,
                    probe: Probe, encrypt: Encrypt, now: int)
    requires Verified(probe)
    ensures Status(LoginSubmit(db, id, apiKey, password, password, probe, encrypt, now).db, id) == HasKeyMessage
    ensures Status(Logout(db, id).db, id) == NoKeyMessage
  {
    LoginStoresOnlyVerified(db, id, apiKey, password, password, probe, encrypt, now);
    var sealed := encrypt(apiKey, password);
    StoreThenGet(db, id, sealed.0, sealed.1, now);
    DeleteThenGet(db, id);
  }
}

=== FILE: projects.dfy ===
/** The project commands of bot/cogs/projects.py: `project-mine` (the user's projects, at
    most twenty, failures skipped), `project-create` and `project-update` (the demo gate, the
    key lookup, validation, the at-least-one-field rule, the owner check and the confirmation
    before the update). Every API call, the key lookup, the input validation and the user's
    answer to the confirmation are oracles. */
module Projects {
  import opened Wrappers
  import opened Text
  import opened Utils
  import opened Views
  import opened Storage
  import opened Search
  import opened Settings
  import opened Login

  const DemoCreateMessage := "Demo mode is enabled. Project creation is disabled."
  const DemoUpdateMessage := "Demo mode is enabled. Project updates are disabled."
  const NoProjectsMessage := "No projects found for your account."
  const NotOwnerMessage := "You can only update your own projects."
  const ConfirmUpdateMessage := "Confirm update. This will overwrite the provided fields."
  const MineWindow := 20

  /** A JSON scalar as the handlers read it from a response. */
  datatype Json = NullValue | BoolValue(b: bool) | NumValue(n: int) | TextValue(s: string)

  /** Python truthiness of a JSON scalar. */
  predicate Truthy(v: Json)
  {
    match v
    case NullValue => false
    case BoolValue(b) => b
    case NumValue(n) => n != 0
    case TextValue(s) => s != ""
  }

  /** The numeric value Python compares a boolean or a number by (`True == 1`). */
  function Numeric(v: Json): Option<int>
  {
    match v
    case BoolValue(b) => Some(if b then 1 else 0)
    case NumValue(n) => Some(n)
    case _ => None
  }

  /** Python `==` on JSON scalars: numbers and booleans compare by value. */
  predicate PyEq(a: Json, b: Json)
  {
    if Numeric(a).Some? && Numeric(b).Some? then Numeric(a) == Numeric(b) else a == b
  }

  /** Which calls a command made, in order. */
  datatype Call =
    | KeyLookup
    | FetchSelf
    | FetchProject(projectId: int)
    | AskConfirm
    | CreateProject(fields: Fields)
    | UpdateProject(projectId: int, fields: Fields)

  /** The text options after validation; `None` is an option not given (or normalised
      away). */
  datatype Fields = Fields(title: Option<string>, description: Option<string>, repoUrl: Option<string>,
                           demoUrl: Option<string>, readmeUrl: Option<string>)

  predicate Given(o: Option<string>) { o.Some? && o.value != "" }

  /** `any([title, description, repo_url, demo_url, readme_url])`. */
  predicate AnyGiven(f: Fields)
  {
    Given(f.title) || Given(f.description) || Given(f.repoUrl) || Given(f.demoUrl) || Given(f.readmeUrl)
  }

  /** What a command did: its calls and its reply (`None`: it ended without one). */
  datatype Outcome = Outcome(calls: seq<Call>, reply: Option<string>)

  // ---------------------------------------------------------------------------------------
  // project-update

  /** The owner fields of a fetched project. */
  datatype Owners = Owners(ownerId: Json, userId: Json, creatorId: Json)

  /** `project.get("owner_id") or project.get("user_id") or project.get("creator_id")`. */
  function Owner(o: Owners): Json
  {
    if Truthy(o.ownerId) then o.ownerId else if Truthy(o.userId) then o.userId else o.creatorId
  }

  /** The owner is the first truthy field in the order owner, user, creator; with none
      truthy it is the creator field as it stands (so possibly `0` or `""`, which still
      counts as an owner). */
  lemma OwnerIsFirstTruthy(o: Owners)
    ensures Truthy(Owner(o)) <==> Truthy(o.ownerId) || Truthy(o.userId) || Truthy(o.creatorId)
    ensures Truthy(o.ownerId) ==> Owner(o) == o.ownerId
    ensures !Truthy(o.ownerId) && Truthy(o.userId) ==> Owner(o) == o.userId
    ensures !Truthy(o.ownerId) && !Truthy(o.userId) ==> Owner(o) == o.creatorId
    ensures Owner(o) == NullValue <==> !Truthy(o.ownerId) && !Truthy(o.userId) && o.creatorId == NullValue
  {
  }

  /** `owner_id is not None and me.get("id") != owner_id`. */
  predicate Refused(me: Json, owner: Json)
  {
    owner != NullValue && !PyEq(me, owner)
  }

  /** What the oracles of one `project-update` answer: the demo switch, the key lookup, the
      validation, `get_self` (the user's id) and `get_project_by_id`, the user's answer to
      the confirmation (`None`: timeout) and `update_project` (the title it reports). */
  datatype UpdateWorld = UpdateWorld(demo: bool, key: Result<Option<string>, StorageError>,
                                     validated: Result<Fields, string>, me: Result<Json, string>,
                                     project: Result<Owners, string>, answer: Option<ConfirmChoice>,
                                     updated: Result<string, string>)

  function UpdatedMessage(projectId: int, title: string): string
  {
    "Project updated. ID: " + IntToString(projectId) + ". Title: " + title
  }

  /** `project_update`. */
  function ProjectUpdate(projectId: int, w: UpdateWorld): Outcome
  {
    if w.demo then Outcome([], Some(DemoUpdateMessage))
    else match KeyGuard(w.key)
    case Err(m) => Outcome([KeyLookup], Some(m))
    case Ok(_) =>
      match w.validated
      case Err(m) => Outcome([KeyLookup], Some(m))
      case Ok(f) =>
        if !AnyGiven(f) then Outcome([KeyLookup], Some(NoFieldsMessage))
        else match w.me
        case Err(e) => Outcome([KeyLookup, FetchSelf], Some(ApiErrorText(e)))
        case Ok(me) =>
          var checked := [KeyLookup, FetchSelf, FetchProject(projectId)];
          match w.project
          case Err(e) => Outcome(checked, Some(ApiErrorText(e)))
          case Ok(owners) =>
            if Refused(me, Owner(owners)) then Outcome(checked, Some(NotOwnerMessage))
            else if !ConfirmOutcome(w.answer).confirmed then Outcome(checked + [AskConfirm], None)
            else
              var calls := checked + [AskConfirm, UpdateProject(projectId, f)];
              match w.updated
              case Err(e) => Outcome(calls, Some(ApiErrorText(e)))
              case Ok(title) => Outcome(calls, Some(UpdatedMessage(projectId, title)))
  }

  /** Whether an outcome called `update_project`. */
  predicate Updated(o: Outcome)
  {
    exists i :: 0 <= i < |o.calls| && o.calls[i].UpdateProject?
  }

  /** In demo mode the update is refused before the key lookup and before any API call. */
  lemma UpdateDemoGate(projectId: int, w: UpdateWorld)
    requires w.demo
    ensures ProjectUpdate(projectId, w) == Outcome([], Some(DemoUpdateMessage))
  {
  }

  /** An update whose validated options are all empty is refused after the key lookup and
      before any API call. */
  lemma UpdateNeedsAField(projectId: int, w: UpdateWorld)
    requires !w.demo && KeyGuard(w.key).Ok? && w.validated.Ok? && !AnyGiven(w.validated.value)
    ensures ProjectUpdate(projectId, w) == Outcome([KeyLookup], Some(NoFieldsMessage))
  {
  }

  /** The owner check refuses the update exactly when the resolved owner is known and is not
      the caller; an unknown owner lets the update through to the confirmation. */
  lemma UpdateOwnerRule(projectId: int, w: UpdateWorld)
    requires !w.demo && KeyGuard(w.key).Ok? && w.validated.Ok? && AnyGiven(w.validated.value)
    requires w.me.Ok? && w.project.Ok?
    ensures ProjectUpdate(projectId, w).reply == Some(NotOwnerMessage)
        <==> Refused(w.me.value, Owner(w.project.value))
    ensures Owner(w.project.value) == NullValue ==>
      AskConfirm in ProjectUpdate(projectId, w).calls
  {
    var o := ProjectUpdate(projectId, w);
    if !Refused(w.me.value, Owner(w.project.value)) {
      assert o.reply != Some(NotOwnerMessage) by {
        assert NotOwnerMessage[0] == 'Y';
        if o.reply.Some? && ConfirmOutcome(w.answer).confirmed && w.updated.Ok? {
          assert o.reply.value[0] == 'P';
        } else if o.reply.Some? && ConfirmOutcome(w.answer).confirmed {
          assert o.reply.value[0] == 'A';
        }
      }
      assert o.calls[3] == AskConfirm;
    }
  }

  /** `update_project` is called exactly when demo mode is off, a key was found, the options
      validate and one is given, both fetches succeed, the owner check passes and the user
      confirmed; it is then the last call and sends exactly the validated options. */
  lemma UpdateOnlyWhenConfirmed(projectId: int, w: UpdateWorld)
    ensures Updated(ProjectUpdate(projectId, w)) <==>
      (!w.demo && KeyGuard(w.key).Ok? && w.validated.Ok? && AnyGiven(w.validated.value)
       && w.me.Ok? && w.project.Ok? && !Refused(w.me.value, Owner(w.project.value))
       && w.answer == Some(ConfirmPressed))
    ensures var o := ProjectUpdate(projectId, w);
      Updated(o) ==> o.calls == [KeyLookup, FetchSelf, FetchProject(projectId), AskConfirm,
                                 UpdateProject(projectId, w.validated.value)]
  {
    var o := ProjectUpdate(projectId, w);
    if Updated(o) {
      var i :| 0 <= i < |o.calls| && o.calls[i].UpdateProject?;
    }
    if (!w.demo && KeyGuard(w.key).Ok? && w.validated.Ok? && AnyGiven(w.validated.value)
        && w.me.Ok? && w.project.Ok? && !Refused(w.me.value, Owner(w.project.value))
        && w.answer == Some(ConfirmPressed)) {
      assert o.calls[4].UpdateProject?;
    }
  }

  // ---------------------------------------------------------------------------------------
  // project-create

  /** What the oracles of one `project-create` answer: the demo switch, the key lookup, the
      validation (the title is required) and `create_project` (the id and title it
      reports, as text). */
  datatype CreateWorld = CreateWorld(demo: bool, key: Result<Option<string>, StorageError>,
                                     validated: Result<Fields, string>,
                                     created: Result<(string, string), string>)

  function CreatedMessage(id: string, title: string): string
  {
    "Project created. ID: " + id + ". Title: " + title
  }

  /** `project_create`. */
  function ProjectCreate(w: CreateWorld): Outcome
  {
    if w.demo then Outcome([], Some(DemoCreateMessage))
    else match KeyGuard(w.key)
    case Err(m) => Outcome([KeyLookup], Some(m))
    case Ok(_) =>
      match w.validated
      case Err(m) => Outcome([KeyLookup], Some(m))
      case Ok(f) =>
        match w.created
        case Err(e) => Outcome([KeyLookup, CreateProject(f)], Some(ApiErrorText(e)))
        case Ok((id, title)) => Outcome([KeyLookup, CreateProject(f)], Some(CreatedMessage(id, title)))
  }

  /** Creation is refused in demo mode before anything else; otherwise `create_project` is
      called exactly when a key was found and the options validate, with the validated
      options, and the reply names what the server reports. */
  lemma CreateFlow(w: CreateWorld)
    ensures w.demo ==> ProjectCreate(w) == Outcome([], Some(DemoCreateMessage))
    ensures var o := ProjectCreate(w);
      (|o.calls| == 2) <==> !w.demo && KeyGuard(w.key).Ok? && w.validated.Ok?
    ensures var o := ProjectCreate(w);
      |o.calls| == 2 ==> o.calls == [KeyLookup, CreateProject(w.validated.value)]
    ensures var o := ProjectCreate(w);
      |o.calls| == 2 && w.created.Ok? ==>
        o.reply == Some(CreatedMessage(w.created.value.0, w.created.value.1))
  {
  }

  // ---------------------------------------------------------------------------------------
  // project-mine

  /** A fetched project as listed: its title (`"Unknown"` when missing) and description. */
  datatype ProjectInfo = ProjectInfo(title: string, description: Option<string>)

  /** The embed field of a listed project: "title (ID: pid)", and the description or "-". */
  function FieldOf(pid: int, p: ProjectInfo): (string, string)
  {
    (p.title + " (ID: " + IntToString(pid) + ")",
     if p.description.Some? && p.description.value != "" then p.description.value else "-")
  }

  /** The fields for the first `n` project ids: one per fetch that succeeded, in order. */
  function Listed(ids: seq<int>, fetched: seq<Result<ProjectInfo, string>>, n: nat): seq<(string, string)>
    requires n <= |ids| && n <= |fetched|
  {
    if n == 0 then []
    else
      Listed(ids, fetched, n - 1)
        + (if fetched[n - 1].Ok? then [FieldOf(ids[n - 1], fetched[n - 1].value)] else [])
  }

  /** How many of the first `n` fetches succeeded. */
  function OkCount(fetched: seq<Result<ProjectInfo, string>>, n: nat): nat
    requires n <= |fetched|
  {
    if n == 0 then 0 else OkCount(fetched, n - 1) + (if fetched[n - 1].Ok? then 1 else 0)
  }

  /** `field` is that of one of the first `n` projects whose fetch succeeded. */
  predicate FromFetch(ids: seq<int>, fetched: seq<Result<ProjectInfo, string>>, n: nat, field: (string, string))
    requires n <= |ids| && n <= |fetched|
  {
    exists i :: 0 <= i < n && fetched[i].Ok? && field == FieldOf(ids[i], fetched[i].value)
  }

  /** One field per successful fetch, none for a failed one. */
  lemma {:induction false} ListedCount(ids: seq<int>, fetched: seq<Result<ProjectInfo, string>>, n: nat)
    requires n <= |ids| && n <= |fetched|
    ensures |Listed(ids, fetched, n)| == OkCount(fetched, n) <= n
  {
    if n > 0 {
      ListedCount(ids, fetched, n - 1);
    }
  }

  /** Every field is that of a project whose fetch succeeded. */
  lemma {:induction false} ListedSound(ids: seq<int>, fetched: seq<Result<ProjectInfo, string>>, n: nat)
    requires n <= |ids| && n <= |fetched|
    ensures forall k :: 0 <= k < |Listed(ids, fetched, n)| ==> FromFetch(ids, fetched, n, Listed(ids, fetched, n)[k])
  {
    if n > 0 {
      ListedSound(ids, fetched, n - 1);
      var before := Listed(ids, fetched, n - 1);
      var after := Listed(ids, fetched, n);
      forall k | 0 <= k < |after|
        ensures FromFetch(ids, fetched, n, after[k])
      {
        if k < |before| {
          assert FromFetch(ids, fetched, n - 1, before[k]);
          var i :| 0 <= i < n - 1 && fetched[i].Ok? && before[k] == FieldOf(ids[i], fetched[i].value);
          assert after[k] == before[k];
        } else {
          assert after[k] == FieldOf(ids[n - 1], fetched[n - 1].value);
        }
      }
    }
  }

  /** Every project whose fetch succeeded has its field. */
  lemma {:induction false} ListedComplete(ids: seq<int>, fetched: seq<Result<ProjectInfo, string>>, n: nat, i: nat)
    requires n <= |ids| && n <= |fetched| && i < n && fetched[i].Ok?
    ensures FieldOf(ids[i], fetched[i].value) in Listed(ids, fetched, n)
  {
    var before, last := ListedStep(ids, fetched, n);
    var f := FieldOf(ids[i], fetched[i].value);
    if i == n - 1 {
      assert last == [f] && (before + last)[|before|] == f;
    } else {
      ListedComplete(ids, fetched, n - 1, i);
      InFront(before, last, f);
    }
  }

  /** Listed for `n` ids is Listed for `n - 1` with the last field, if any, appended. */
  lemma ListedStep(ids: seq<int>, fetched: seq<Result<ProjectInfo, string>>, n: nat)
      returns (before: seq<(string, string)>, last: seq<(string, string)>)
    requires 0 < n <= |ids| && n <= |fetched|
    ensures before == Listed(ids, fetched, n - 1)
    ensures last == if fetched[n - 1].Ok? then [FieldOf(ids[n - 1], fetched[n - 1].value)] else []
    ensures Listed(ids, fetched, n) == before + last
  {
    before := Listed(ids, fetched, n - 1);
    last := if fetched[n - 1].Ok? then [FieldOf(ids[n - 1], fetched[n - 1].value)] else [];
  }

  /** What a sequence holds, it still holds with more appended. */
  lemma InFront<T>(a: seq<T>, b: seq<T>, x: T)
    requires x in a
    ensures x in a + b
  {
    var j :| 0 <= j < |a| && a[j] == x;
    assert (a + b)[j] == x;
  }

  datatype MineReply = MineEmbed(total: nat, fields: seq<(string, string)>) | MineError(message: string)

  datatype MineRun = MineRun(reply: MineReply, calls: seq<Call>)

  /** The fetches of the first `w` project ids, in order. */
  function Fetches(ids: seq<int>, w: nat): (r: seq<Call>)
    requires w <= |ids|
    ensures |r| == w && forall i :: 0 <= i < w ==> r[i] == FetchProject(ids[i])
  {
    if w == 0 then [] else Fetches(ids, w - 1) + [FetchProject(ids[w - 1])]
  }

  /** `project_mine`: the key lookup, `get_self` (its project ids, empty when missing), and
      one fetch per id among the first twenty; a failed fetch is skipped. `fetched[i]` is
      what fetching `ids[i]` gave. */
  function ProjectMine(key: Result<Option<string>, StorageError>, me: Result<seq<int>, string>,
                       fetched: seq<Result<ProjectInfo, string>>): MineRun
    requires me.Ok? ==> |fetched| >= Min(|me.value|, MineWindow)
  {
    match KeyGuard(key)
    case Err(m) => MineRun(MineError(m), [KeyLookup])
    case Ok(_) =>
      match me
      case Err(e) => MineRun(MineError(ApiErrorText(e)), [KeyLookup, FetchSelf])
      case Ok(ids) =>
        if |ids| == 0 then MineRun(MineError(NoProjectsMessage), [KeyLookup, FetchSelf])
        else
          var w := Min(|ids|, MineWindow);
          MineRun(MineEmbed(|ids|, Listed(ids, fetched, w)), [KeyLookup, FetchSelf] + Fetches(ids, w))
  }

  /** A user without project ids gets the "no projects" message after `get_self`, and no
      project is fetched. */
  lemma MineWithoutIds(key: Result<Option<string>, StorageError>, fetched: seq<Result<ProjectInfo, string>>)
    requires KeyGuard(key).Ok?
    ensures ProjectMine(key, Ok([]), fetched) == MineRun(MineError(NoProjectsMessage), [KeyLookup, FetchSelf])
  {
  }

  /** The listing fetches exactly the first twenty projects (or all, when fewer), in order;
      it shows one field per successful fetch and reports the full number of ids as the
      total. */
  lemma MineFacts(key: Result<Option<string>, StorageError>, ids: seq<int>,
                  fetched: seq<Result<ProjectInfo, string>>)
    requires |fetched| >= Min(|ids|, MineWindow) && KeyGuard(key).Ok? && |ids| > 0
    ensures var r := ProjectMine(key, Ok(ids), fetched); var w := Min(|ids|, MineWindow);
      && |r.calls| == 2 + w <= 2 + MineWindow
      && (forall i :: 0 <= i < w ==> r.calls[2 + i] == FetchProject(ids[i]))
      && r.reply.MineEmbed? && r.reply.total == |ids|
      && |r.reply.fields| == OkCount(fetched, w) <= MineWindow
      && (forall i :: 0 <= i < w && fetched[i].Ok? ==> FieldOf(ids[i], fetched[i].value) in r.reply.fields)
      && (forall k :: 0 <= k < |r.reply.fields| ==> FromFetch(ids, fetched, w, r.reply.fields[k]))
  {
    var w := Min(|ids|, MineWindow);
    ListedCount(ids, fetched, w);
    ListedSound(ids, fetched, w);
    forall i | 0 <= i < w && fetched[i].Ok?
      ensures FieldOf(ids[i], fetched[i].value) in Listed(ids, fetched, w)
    {
      ListedComplete(ids, fetched, w, i);
    }
    var r := ProjectMine(key, Ok(ids), fetched);
    assert r.calls == [KeyLookup, FetchSelf] + Fetches(ids, w);
    assert r.reply.fields == Listed(ids, fetched, w);
  }
}

=== FILE: search.dfy ===
/** The `search` and `list` commands of bot/cogs/search.py: the login and unlock guards in
    front of them, page resolution for user and project searches, and the shop listing
    (sorted by id, paged locally) and project listing. Every API call is an oracle: the
    i-th fetch a handler makes observes `answers[i]`, an API error's text or a listing. */
module Search {
  import opened Wrappers
  import opened Utils
  import opened Views
  import opened Storage

  // ---------------------------------------------------------------------------------------
  // Guards

  const LoginFirstMessage := "You need to log in first! Use `/login` to store your API key."
  const StorageFailureMessage := "Storage error. Please try again in a moment."
  const IncorrectPasswordMessage := "Incorrect password! Please try again."

  /** How the guards in front of a command end: a reply, the unlock prompt, or the command
      running with a key. */
  datatype Gate =
    | LoginFirst
    | StorageFailed
    | PasswordPrompt
    | IncorrectPassword
    | Proceed(key: string)

  /** The reply a gate sends, if it sends one itself. */
  function GateMessage(g: Gate): Option<string>
  {
    match g
    case LoginFirst => Some(LoginFirstMessage)
    case StorageFailed => Some(StorageFailureMessage)
    case IncorrectPassword => Some(IncorrectPasswordMessage)
    case PasswordPrompt => None
    case Proceed(_) => None
  }

  /** The first phase of `search` / `list`: whether a key is stored, then the key lookup
      without a password. Both lookups are oracles that may fail with a storage error. */
  function CommandGate(hasKey: Result<bool, StorageError>,
                       lookup: Result<Option<string>, StorageError>): Gate
  {
    match hasKey
    case Err(_) => StorageFailed
    case Ok(false) => LoginFirst
    case Ok(true) =>
      match lookup
      case Err(_) => StorageFailed
      case Ok(key) => if key.Some? && key.value != "" then Proceed(key.value) else PasswordPrompt
  }

  /** The second phase, once the unlock modal returns a password: the lookup with it. */
  function PasswordGate(unlocked: Result<Option<string>, StorageError>): Gate
  {
    match unlocked
    case Err(_) => StorageFailed
    case Ok(key) => if key.Some? && key.value != "" then Proceed(key.value) else IncorrectPassword
  }

  /** A user without a stored key is told to log in and no key lookup happens; a storage
      error from either check stops with the storage message; the command runs only with a
      non-empty key the lookup returned, and otherwise the user is asked for the password. */
  lemma CommandGateOrder(hasKey: Result<bool, StorageError>,
                         l1: Result<Option<string>, StorageError>,
                         l2: Result<Option<string>, StorageError>)
    ensures hasKey == Ok(false) ==> CommandGate(hasKey, l1) == LoginFirst == CommandGate(hasKey, l2)
    ensures hasKey.Err? ==> CommandGate(hasKey, l1) == StorageFailed
    ensures hasKey == Ok(true) && l1.Err? ==> CommandGate(hasKey, l1) == StorageFailed
    ensures CommandGate(hasKey, l1).Proceed? <==>
      hasKey == Ok(true) && l1.Ok? && l1.value.Some? && l1.value.value != ""
    ensures CommandGate(hasKey, l1).Proceed? ==> l1 == Ok(Some(CommandGate(hasKey, l1).key))
    ensures CommandGate(hasKey, l1) == PasswordPrompt <==>
      hasKey == Ok(true) && l1.Ok? && (l1.value.None? || l1.value.value == "")
  {
  }

  /** After the password, the command runs exactly with a non-empty unlocked key; a missing
      or empty one is an incorrect password. */
  lemma PasswordGateOutcome(unlocked: Result<Option<string>, StorageError>)
    ensures PasswordGate(unlocked).Proceed? <==>
      unlocked.Ok? && unlocked.value.Some? && unlocked.value.value != ""
    ensures PasswordGate(unlocked).Proceed? ==> unlocked == Ok(Some(PasswordGate(unlocked).key))
    ensures PasswordGate(unlocked) == IncorrectPassword <==>
      unlocked.Ok? && (unlocked.value.None? || unlocked.value.value == "")
  {
  }

  // ---------------------------------------------------------------------------------------
  // Search page resolution

  /** The `total_pages` entry of a listing's pagination block. */
  datatype TotalEntry = Missing | Null | Pages(n: int)

  /** A fetched listing: its pagination entry and the embed its page renders to. */
  datatype Listing<E> = Listing(total: TotalEntry, embed: E)

  /** `pagination.get("total_pages", 1) or 1`: a missing, null or zero count is one page. */
  function EffectiveTotal(e: TotalEntry): int
  {
    match e
    case Pages(n) => if n != 0 then n else 1
    case _ => 1
  }

  datatype Reply<E> =
    | Sent(embed: E, page: int, totalPages: int, withView: bool)
    | Message(text: string)
    | ApiFailure(message: string)
    | Unhandled

  /** What a handler fetched (the page of each API call, in order) and how it replied. */
  datatype Run<E> = Run(fetched: seq<int>, reply: Reply<E>)

  function ApiErrorText(e: string): string { "API error: " + e }

  /** `_do_search`, both categories: fetch the requested page, clamp the page into the
      reported count, fetch again if the clamp moved it, then render the page through the
      view's `get_embed`, which fetches once more. */
  function DoSearch<E>(answers: seq<Result<Listing<E>, string>>, page: int): Run<E>
    requires |answers| >= 3
  {
    match answers[0]
    case Err(e) => Run([page], ApiFailure(ApiErrorText(e)))
    case Ok(first) =>
      var total := EffectiveTotal(first.total);
      var p := ClampPage(page, total);
      var refetched := if p != page then [p] else [];
      var k := |refetched|;
      if k == 1 && answers[1].Err? then Run([page, p], ApiFailure(ApiErrorText(answers[1].error)))
      else
        match answers[1 + k]
        case Err(e) => Run([page] + refetched + [p], ApiFailure(ApiErrorText(e)))
        case Ok(shown) => Run([page] + refetched + [p], Sent(shown.embed, p, total, total > 1))
  }

  /** The page shown is the requested page clamped into the reported count (a missing, null
      or zero count read as 1); a second fetch happens exactly when the clamp moved the page;
      every fetch after the first is for the clamped page; a view is attached exactly when
      there is more than one page; and an API error at any fetch ends the search with its
      text. */
  lemma SearchPageResolution<E>(answers: seq<Result<Listing<E>, string>>, page: int)
    requires |answers| >= 3
    ensures var r := DoSearch(answers, page);
      1 <= |r.fetched| <= 3 && r.fetched[0] == page
      && (forall i :: 1 <= i < |r.fetched| ==> r.fetched[i] == ClampPage(page, EffectiveTotal(answers[0].value.total)))
    ensures answers[0].Err? ==> DoSearch(answers, page) == Run([page], ApiFailure(ApiErrorText(answers[0].error)))
    ensures var r := DoSearch(answers, page);
      r.reply.Sent? ==>
        var total := EffectiveTotal(answers[0].value.total);
        var p := ClampPage(page, total);
        r.reply.page == p && 1 <= p <= Max(1, total) && r.reply.totalPages == total
        && (r.reply.withView <==> total > 1)
        && (|r.fetched| == 3 <==> p != page)
        && r.reply.embed == answers[|r.fetched| - 1].value.embed
    ensures var r := DoSearch(answers, page);
      r.reply.Sent? || (r.reply.ApiFailure? && answers[|r.fetched| - 1].Err?
                         && r.reply.message == ApiErrorText(answers[|r.fetched| - 1].error))
  {
  }

  // ---------------------------------------------------------------------------------------
  // Shop listing

  /** The `id` entry of a shop item: absent, null, or an integer. */
  datatype ItemId = NoId | NullId | Id(n: int)

  datatype ShopItem = ShopItem(id: ItemId, name: string)

  /** `x.get("id", 0)` where it is an integer. A null id gives the key `None`, which Python
      cannot compare with anything; `Sortable` says when the sort never compares one. */
  function SortKey(x: ShopItem): int
  {
    match x.id
    case Id(n) => n
    case _ => 0
  }

  /** `items.sort(...)` compares every item's key when there are two or more items; only a
      list without null ids, or of at most one item, sorts without raising `TypeError`. */
  predicate Sortable(s: seq<ShopItem>)
  {
    |s| <= 1 || forall i :: 0 <= i < |s| ==> s[i].id != NullId
  }

  predicate SortedByKey(s: seq<ShopItem>)
  {
    forall i, j :: 0 <= i < j < |s| ==> SortKey(s[i]) <= SortKey(s[j])
  }

  /** Places `x` after every element whose key is not above its own. */
  function Insert(t: seq<ShopItem>, x: ShopItem): seq<ShopItem>
  {
    if |t| == 0 then [x]
    else if SortKey(t[|t| - 1]) <= SortKey(x) then t + [x]
    else Insert(t[..|t| - 1], x) + [t[|t| - 1]]
  }

  /** `items.sort(key=lambda x: x.get("id", 0))`: a stable sort by key. */
  function SortById(s: seq<ShopItem>): seq<ShopItem>
  {
    if |s| == 0 then [] else Insert(SortById(s[..|s| - 1]), s[|s| - 1])
  }

  /** The elements with key `k`, in order. */
  function WithKey(s: seq<ShopItem>, k: int): seq<ShopItem>
  {
    if |s| == 0 then []
    else WithKey(s[..|s| - 1], k) + (if SortKey(s[|s| - 1]) == k then [s[|s| - 1]] else [])
  }

  lemma {:induction false} InsertMultiset(t: seq<ShopItem>, x: ShopItem)
    ensures multiset(Insert(t, x)) == multiset(t) + multiset{x}
    ensures |Insert(t, x)| == |t| + 1
  {
    if |t| > 0 && SortKey(t[|t| - 1]) > SortKey(x) {
      var init := t[..|t| - 1];
      InsertMultiset(init, x);
      assert t == init + [t[|t| - 1]];
    }
  }

  /** Every element of `s` has a key not above `k`. */
  predicate AllAtMost(s: seq<ShopItem>, k: int)
  {
    forall i :: 0 <= i < |s| ==> SortKey(s[i]) <= k
  }

  lemma AllAtMostByMultiset(s: seq<ShopItem>, u: seq<ShopItem>, k: int)
    requires AllAtMost(u, k) && multiset(s) <= multiset(u)
    ensures AllAtMost(s, k)
  {
    forall i | 0 <= i < |s| ensures SortKey(s[i]) <= k {
      assert s[i] in multiset(u);
      var m :| 0 <= m < |u| && u[m] == s[i];
    }
  }

  lemma SortedSnoc(s: seq<ShopItem>, last: ShopItem)
    requires SortedByKey(s) && AllAtMost(s, SortKey(last))
    ensures SortedByKey(s + [last])
  {
  }

  lemma {:induction false} InsertSorted(t: seq<ShopItem>, x: ShopItem)
    requires SortedByKey(t)
    ensures SortedByKey(Insert(t, x))
  {
    if |t| > 0 && SortKey(t[|t| - 1]) > SortKey(x) {
      var init := t[..|t| - 1];
      var last := t[|t| - 1];
      InsertSorted(init, x);
      InsertMultiset(init, x);
      assert AllAtMost(init + [x], SortKey(last));
      assert multiset(Insert(init, x)) == multiset(init + [x]);
      AllAtMostByMultiset(Insert(init, x), init + [x], SortKey(last));
      SortedSnoc(Insert(init, x), last);
    }
  }

  lemma WithKeySnoc(s: seq<ShopItem>, y: ShopItem, k: int)
    ensures WithKey(s + [y], k) == WithKey(s, k) + (if SortKey(y) == k then [y] else [])
  {
    assert (s + [y])[..|s|] == s;
  }

  lemma {:induction false} InsertWithKey(t: seq<ShopItem>, x: ShopItem, k: int)
    ensures WithKey(Insert(t, x), k) == WithKey(t, k) + (if SortKey(x) == k then [x] else [])
  {
    if |t| == 0 {
      assert Insert(t, x) == t + [x];
      WithKeySnoc(t, x, k);
    } else if SortKey(t[|t| - 1]) <= SortKey(x) {
      assert Insert(t, x) == t + [x];
      WithKeySnoc(t, x, k);
    } else {
      var init, last := t[..|t| - 1], t[|t| - 1];
      assert t == init + [last];
      assert Insert(t, x) == Insert(init, x) + [last];
      InsertWithKey(init, x, k);
      WithKeySnoc(Insert(init, x), last, k);
      WithKeySnoc(init, last, k);
      assert SortKey(last) != k || SortKey(x) != k;
    }
  }

  /** The sort orders by id. */
  lemma {:induction false} SortByIdSorted(s: seq<ShopItem>)
    ensures SortedByKey(SortById(s))
  {
    if |s| > 0 {
      var init := s[..|s| - 1];
      assert SortById(s) == Insert(SortById(init), s[|s| - 1]);
      SortByIdSorted(init);
      InsertSorted(SortById(init), s[|s| - 1]);
    }
  }

  /** The sort keeps exactly the same items. */
  lemma {:induction false} SortByIdPermutes(s: seq<ShopItem>)
    ensures multiset(SortById(s)) == multiset(s)
  {
    if |s| > 0 {
      var init, x := s[..|s| - 1], s[|s| - 1];
      SortByIdPermutes(init);
      InsertMultiset(SortById(init), x);
      calc {
        multiset(SortById(s));
        multiset(Insert(SortById(init), x));
        multiset(init) + multiset{x};
        { MultisetSnoc(s); }
        multiset(s);
      }
    }
  }

  lemma MultisetSnoc(s: seq<ShopItem>)
    requires |s| > 0
    ensures multiset(s) == multiset(s[..|s| - 1]) + multiset{s[|s| - 1]}
  {
    assert s == s[..|s| - 1] + [s[|s| - 1]];
  }

  /** Sorting keeps the length. */
  lemma SortByIdLength(s: seq<ShopItem>)
    ensures |SortById(s)| == |s|
  {
    SortByIdPermutes(s);
    assert |SortById(s)| == |multiset(SortById(s))|;
  }

  /** The sort is stable: items with equal ids keep their original order. */
  lemma {:induction false} SortByIdStable(s: seq<ShopItem>, k: int)
    ensures WithKey(SortById(s), k) == WithKey(s, k)
  {
    if |s| > 0 {
      var init, x := s[..|s| - 1], s[|s| - 1];
      assert SortById(s) == Insert(SortById(init), x);
      SortByIdStable(init, k);
      InsertWithKey(SortById(init), x, k);
    }
  }

  /** The page bound `_do_list` applies to the shop: raise to 1, then lower to the count. */
  function ForcePage(page: int, total: int): int
  {
    var p := if page < 1 then 1 else page;
    if p > total then total else p
  }

  /** With at least one page, forcing the page into range is `clamp_page`. */
  lemma ForcePageIsClamp(page: int, total: int)
    requires total >= 1
    ensures ForcePage(page, total) == ClampPage(page, total)
    ensures 1 <= ForcePage(page, total) <= total
  {
  }

  datatype ShopReply =
    | ShopShown(items: seq<ShopItem>, page: int, totalPages: int, withView: bool)
    | ShopMessage(text: string)
    | ShopFailure(message: string)
    /** An exception no handler of the command catches. */
    | ShopUnhandled

  const NoShopItemsMessage := "No items found in the shop."

  /** The shop branch of `_do_list`: `perPage` is the configured shop page size. */
  function ListShop(fetched: Result<seq<ShopItem>, string>, page: int, perPage: int): ShopReply
  {
    match fetched
    case Err(e) => ShopFailure(ApiErrorText(e))
    case Ok(items) =>
      if |items| == 0 then ShopMessage(NoShopItemsMessage)
      else if !Sortable(items) then ShopUnhandled
      else
        var sorted := SortById(items);
        var total := TotalPages(|sorted|, perPage);
        var p := ForcePage(page, total);
        ShopShown(ShopPage(sorted, p, perPage), p, total, total > 1)
  }

  /** A non-empty shop is shown on the requested page forced into 1..TotalPages, with the
      items of that page of the id-sorted list, and a view exactly when there are several
      pages; an empty shop gets the no-items message and no view; a null id among two or more
      items makes the sort raise an error nothing catches. */
  lemma ListShopShape(fetched: Result<seq<ShopItem>, string>, page: int, perPage: int)
    ensures fetched.Err? ==> ListShop(fetched, page, perPage) == ShopFailure(ApiErrorText(fetched.error))
    ensures fetched == Ok([]) ==> ListShop(fetched, page, perPage) == ShopMessage(NoShopItemsMessage)
    ensures fetched.Ok? && |fetched.value| > 0 ==>
      (ListShop(fetched, page, perPage) == ShopUnhandled <==>
         |fetched.value| >= 2 && exists i :: 0 <= i < |fetched.value| && fetched.value[i].id == NullId)
    ensures fetched.Ok? && |fetched.value| > 0 && Sortable(fetched.value) ==>
      var r := ListShop(fetched, page, perPage);
      var total := TotalPages(|fetched.value|, perPage);
      r.ShopShown? && r.totalPages == total && r.page == ClampPage(page, total)
      && 1 <= r.page <= total && (r.withView <==> total > 1)
      && r.items == ShopPage(SortById(fetched.value), r.page, perPage)
  {
    if fetched.Ok? && |fetched.value| > 0 && Sortable(fetched.value) {
      SortByIdLength(fetched.value);
      ForcePageIsClamp(page, TotalPages(|fetched.value|, perPage));
    }
  }

  // ---------------------------------------------------------------------------------------
  // Project listing

  /** The projects branch of `_do_list`: the count is read without the "or 1" fallback and
      the requested page is used as it is. A null count makes the view's button update
      compare a page with `None`, an error no handler catches. */
  function ListProjects<E>(answers: seq<Result<Listing<E>, string>>, page: int): Run<E>
    requires |answers| >= 2
  {
    match answers[0]
    case Err(e) => Run([page], ApiFailure(ApiErrorText(e)))
    case Ok(first) =>
      match ListedTotal(first.total)
      case None => Run([page], Unhandled)
      case Some(total) =>
        match answers[1]
        case Err(e) => Run([page, page], ApiFailure(ApiErrorText(e)))
        case Ok(shown) => Run([page, page], Sent(shown.embed, page, total, total > 1))
  }

  /** `pagination.get("total_pages", 1)` where it is used as a number: `None` for null. */
  function ListedTotal(e: TotalEntry): Option<int>
  {
    match e
    case Missing => Some(1)
    case Null => None
    case Pages(n) => Some(n)
  }

  /** Every fetch of the project listing is for the requested page, which is shown
      unclamped. */
  lemma ListProjectsUnclamped<E>(answers: seq<Result<Listing<E>, string>>, page: int)
    requires |answers| >= 2
    ensures var r := ListProjects(answers, page);
      1 <= |r.fetched| <= 2 && forall i :: 0 <= i < |r.fetched| ==> r.fetched[i] == page
    ensures var r := ListProjects(answers, page);
      r.reply.Sent? ==>
        r.reply.page == page && Some(r.reply.totalPages) == ListedTotal(answers[0].value.total)
        && (r.reply.withView <==> r.reply.totalPages > 1)
  {
  }
}

=== FILE: settings.dfy ===
/** The preferences cog of bot/cogs/settings.py: service validation, the defaults, and the
    merge of supplied, stored and default values in `settings view` and `settings update`.
    The configured defaults are parameters; the time-zone database and the preferences
    storage are oracles. */
module Settings {
  import opened Wrappers
  import opened Text
  import opened Storage
  import opened Search

  // ---------------------------------------------------------------------------------------
  // Services

  const AllowedServices: set<string> := {"flavortown", "hackatime"}

  const InvalidServiceMessage := "default_service must be 'flavortown' or 'hackatime'."

  /** `_normalize_service`: the service itself when allowed, the validation message
      otherwise. */
  function NormalizeService(service: string): (r: Result<string, string>)
    ensures r.Ok? <==> service in AllowedServices
    ensures r.Ok? ==> r.value == service
    ensures r.Err? ==> r.error == InvalidServiceMessage
  {
    if service in AllowedServices then Ok(service) else Err(InvalidServiceMessage)
  }

  /** `_resolve_default_service`: the configured default when it is allowed, otherwise
      "flavortown"; always an allowed service. */
  function ResolveDefaultService(configured: string): (r: string)
    ensures r in AllowedServices
    ensures configured in AllowedServices ==> r == configured
    ensures configured !in AllowedServices ==> r == "flavortown"
  {
    if configured in AllowedServices then configured else "flavortown"
  }

  // ---------------------------------------------------------------------------------------
  // Time zones

  const InvalidTimezoneMessage := "Invalid timezone. Use an IANA name like 'UTC' or 'America/New_York'."

  /** What `ZoneInfo(key)` does with a key: finds the zone, does not find it, or rejects the
      key with a `ValueError` of its own. */
  datatype Zone = ZoneFound | ZoneNotFound | ZoneRejected(message: string)

  /** `_validate_timezone`: the key when the zone exists, otherwise the message of the
      `ValueError` the update handler reports. */
  function ValidateTimezone(tz: string, zone: string -> Zone): (r: Result<string, string>)
    ensures r.Ok? <==> zone(tz) == ZoneFound
    ensures r.Ok? ==> r.value == tz
    ensures zone(tz) == ZoneNotFound ==> r == Err(InvalidTimezoneMessage)
    ensures zone(tz).ZoneRejected? ==> r == Err(zone(tz).message)
  {
    match zone(tz)
    case ZoneFound => Ok(tz)
    case ZoneNotFound => Err(InvalidTimezoneMessage)
    case ZoneRejected(m) => Err(m)
  }

  // ---------------------------------------------------------------------------------------
  // Preferences

  /** A stored preferences row; `None` is a missing or null column. */
  datatype Prefs = Prefs(timezone: Option<string>, publicOutput: Option<bool>, defaultService: Option<string>)

  /** The values a user's settings resolve to. */
  datatype Resolved = Resolved(timezone: string, publicOutput: bool, defaultService: string)

  /** `DEFAULT_TIMEZONE`, `DEFAULT_PUBLIC_OUTPUT` and `DEFAULT_SERVICE` of the configuration. */
  datatype Defaults = Defaults(timezone: string, publicOutput: bool, service: string)

  /** `value or fallback` for an optional string. */
  function OrElse(value: Option<string>, fallback: string): (r: string)
    ensures value.Some? && value.value != "" ==> r == value.value
    ensures value.None? || value.value == "" ==> r == fallback
  {
    if value.Some? && value.value != "" then value.value else fallback
  }

  /** The settings `settings view` shows for what is stored (`None`: no row, or an empty
      one). Time zone and service fall back to the defaults when empty; the visibility falls
      back only when missing, so a stored `False` is shown. */
  function Displayed(stored: Option<Prefs>, defaults: Defaults): Resolved
  {
    var p := stored.GetOr(Prefs(None, None, None));
    Resolved(OrElse(p.timezone, defaults.timezone),
             if p.publicOutput.Some? then p.publicOutput.value else defaults.publicOutput,
             OrElse(p.defaultService, ResolveDefaultService(defaults.service)))
  }

  datatype SettingsReply = Showed(settings: Resolved) | ErrorReply(message: string)

  /** `settings view`: the displayed settings, or the storage message when the read fails. */
  function ViewSettings(read: Result<Option<Prefs>, StorageError>, defaults: Defaults): SettingsReply
  {
    match read
    case Err(_) => ErrorReply(StorageFailureMessage)
    case Ok(stored) => Showed(Displayed(stored, defaults))
  }

  /** The shown service is the stored one when there is one, and otherwise always allowed. */
  lemma DisplayedService(stored: Option<Prefs>, defaults: Defaults)
    ensures var s := Displayed(stored, defaults).defaultService;
      s in AllowedServices || (stored.Some? && stored.value.defaultService == Some(s))
    ensures stored.Some? && stored.value.publicOutput.Some? ==>
      Displayed(stored, defaults).publicOutput == stored.value.publicOutput.value
  {
  }

  // ---------------------------------------------------------------------------------------
  // settings update

  const NoFieldsMessage := "Provide at least one field to update."

  /** The options of `settings update`; `None` is an option not given. */
  datatype Update = Update(timezone: Option<string>, publicOutput: Option<bool>, defaultService: Option<string>)

  /** What an update did: whether it read the stored row, what it wrote, and its reply. */
  datatype UpdateRun = UpdateRun(read: bool, written: Option<Resolved>, reply: SettingsReply)

  /** Validation of the given options, time zone (stripped) first: the validated time zone
      and service, or the first error message. */
  function ValidateUpdate(u: Update, zone: string -> Zone): Result<(Option<string>, Option<string>), string>
  {
    var tz := if u.timezone.Some? then Some(ValidateTimezone(Strip(u.timezone.value), zone)) else None;
    if tz.Some? && tz.value.Err? then Err(tz.value.error)
    else
      var svc := if u.defaultService.Some? then Some(NormalizeService(u.defaultService.value)) else None;
      if svc.Some? && svc.value.Err? then Err(svc.value.error)
      else Ok((if tz.Some? then Some(tz.value.value) else None,
               if svc.Some? then Some(svc.value.value) else None))
  }

  /** The merge of `settings update`: a given option wins, then the stored value, then the
      default. */
  function Merge(tz: Option<string>, pub: Option<bool>, svc: Option<string>,
                 existing: Prefs, defaults: Defaults): Resolved
  {
    Resolved(if tz.Some? then tz.value else OrElse(existing.timezone, defaults.timezone),
             if pub.Some? then pub.value
             else if existing.publicOutput.Some? then existing.publicOutput.value
             else defaults.publicOutput,
             if svc.Some? then svc.value else OrElse(existing.defaultService, ResolveDefaultService(defaults.service)))
  }

  /** `settings update`. `read` is the stored row (or a storage error) and `writeOk` whether
      the write succeeds. */
  function UpdateSettings(u: Update, zone: string -> Zone, read: Result<Option<Prefs>, StorageError>,
                          writeOk: bool, defaults: Defaults): UpdateRun
  {
    if u.timezone.None? && u.publicOutput.None? && u.defaultService.None? then
      UpdateRun(false, None, ErrorReply(NoFieldsMessage))
    else
      match ValidateUpdate(u, zone)
      case Err(m) => UpdateRun(false, None, ErrorReply(m))
      case Ok(valid) =>
        match read
        case Err(_) => UpdateRun(true, None, ErrorReply(StorageFailureMessage))
        case Ok(stored) =>
          var resolved := Merge(valid.0, u.publicOutput, valid.1, stored.GetOr(Prefs(None, None, None)), defaults);
          if writeOk then UpdateRun(true, Some(resolved), Showed(resolved))
          else UpdateRun(true, Some(resolved), ErrorReply(StorageFailureMessage))
  }

  /** An update with no option is refused before storage is touched; a time zone or service
      that fails validation is refused with its message, also before storage. */
  lemma UpdateRefusals(u: Update, zone: string -> Zone, read: Result<Option<Prefs>, StorageError>,
                       writeOk: bool, defaults: Defaults)
    ensures u == Update(None, None, None) ==>
      UpdateSettings(u, zone, read, writeOk, defaults) == UpdateRun(false, None, ErrorReply(NoFieldsMessage))
    ensures u.timezone.Some? && zone(Strip(u.timezone.value)) == ZoneNotFound ==>
      UpdateSettings(u, zone, read, writeOk, defaults) == UpdateRun(false, None, ErrorReply(InvalidTimezoneMessage))
    ensures ((u.timezone.None? || zone(Strip(u.timezone.value)) == ZoneFound)
             && u.defaultService.Some? && u.defaultService.value !in AllowedServices) ==>
      UpdateSettings(u, zone, read, writeOk, defaults) == UpdateRun(false, None, ErrorReply(InvalidServiceMessage))
    ensures !UpdateSettings(u, zone, read, writeOk, defaults).read ==>
      UpdateSettings(u, zone, read, writeOk, defaults).written.None?
  {
  }

  /** A write happens exactly when an option is given, every given option is valid, and the
      stored row could be read; a given option is written as given (the time zone stripped),
      and the reply shows what was written unless the write failed. */
  lemma UpdateWritesGiven(u: Update, zone: string -> Zone, read: Result<Option<Prefs>, StorageError>,
                          writeOk: bool, defaults: Defaults)
    ensures var r := UpdateSettings(u, zone, read, writeOk, defaults);
      r.written.Some? <==>
        u != Update(None, None, None) && read.Ok?
        && (u.timezone.Some? ==> zone(Strip(u.timezone.value)) == ZoneFound)
        && (u.defaultService.Some? ==> u.defaultService.value in AllowedServices)
    ensures var r := UpdateSettings(u, zone, read, writeOk, defaults);
      r.written.Some? ==>
        (u.timezone.Some? ==> r.written.value.timezone == Strip(u.timezone.value))
        && (u.publicOutput.Some? ==> r.written.value.publicOutput == u.publicOutput.value)
        && (u.defaultService.Some? ==> r.written.value.defaultService == u.defaultService.value)
        && (r.reply == if writeOk then Showed(r.written.value) else ErrorReply(StorageFailureMessage))
  {
  }

  /** An option not given keeps exactly the value `settings view` showed before the update,
      so only the given options change what the user sees. */
  lemma UpdateKeepsUngiven(u: Update, zone: string -> Zone, stored: Option<Prefs>,
                           writeOk: bool, defaults: Defaults)
    ensures var r := UpdateSettings(u, zone, Ok(stored), writeOk, defaults);
      var before := Displayed(stored, defaults);
      r.written.Some? ==>
        (u.timezone.None? ==> r.written.value.timezone == before.timezone)
        && (u.publicOutput.None? ==> r.written.value.publicOutput == before.publicOutput)
        && (u.defaultService.None? ==> r.written.value.defaultService == before.defaultService)
  {
  }

  /** The stored row an update writes. */
  function Stored(r: Resolved): Prefs
  {
    Prefs(Some(r.timezone), Some(r.publicOutput), Some(r.defaultService))
  }

  /** Viewing after a successful update shows exactly what the update wrote, provided the
      written time zone is not empty (an empty one shows the default). */
  lemma UpdateThenView(u: Update, zone: string -> Zone, stored: Option<Prefs>, defaults: Defaults)
    requires var r := UpdateSettings(u, zone, Ok(stored), true, defaults);
      r.written.Some? ==> r.written.value.timezone != ""
    ensures var r := UpdateSettings(u, zone, Ok(stored), true, defaults);
      r.written.Some? ==> ViewSettings(Ok(Some(Stored(r.written.value))), defaults) == r.reply
  {
    var r := UpdateSettings(u, zone, Ok(stored), true, defaults);
    if r.written.Some? {
      var w := r.written.value;
      assert w.defaultService != "" by {
        var p := stored.GetOr(Prefs(None, None, None));
        if u.defaultService.None? {
          assert w.defaultService == OrElse(p.defaultService, ResolveDefaultService(defaults.service));
        }
      }
    }
  }
}

=== FILE: storage.dfy ===
/** The encrypted-key table of bot/storage.py: one row per Discord user id holding the
    encrypted key, its salt and two timestamps. The SQLite database is a map from id to row;
    the clock is a parameter. */
module Storage {
  import opened Wrappers

  /** A failure of the storage layer, as the handlers that catch one see it. */
  datatype StorageError = StorageError

  /** A row of `user_keys`; timestamps are whatever the database clock reads. */
  datatype Row = Row(encryptedKey: string, salt: string, createdAt: int, updatedAt: int)

  type Table = map<int, Row>

  /** `store_encrypted_key`: insert, or on a conflicting id overwrite the key, the salt and
      the update time, keeping the creation time. */
  function Store(db: Table, id: int, encryptedKey: string, salt: string, now: int): (r: Table)
    ensures id in r && r[id].encryptedKey == encryptedKey && r[id].salt == salt
    ensures r[id].updatedAt == now
    ensures r[id].createdAt == (if id in db then db[id].createdAt else now)
    ensures r.Keys == db.Keys + {id}
    ensures forall other :: other in db && other != id ==> r[other] == db[other]
  {
    var created := if id in db then db[id].createdAt else now;
    db[id := Row(encryptedKey, salt, created, now)]
  }

  /** `get_encrypted_key`: the (encrypted key, salt) pair, or `None` without a row. */
  function Get(db: Table, id: int): (r: Option<(string, string)>)
    ensures r.None? <==> id !in db
    ensures r.Some? ==> r.value == (db[id].encryptedKey, db[id].salt)
  {
    if id in db then Some((db[id].encryptedKey, db[id].salt)) else None
  }

  /** `delete_user_key`: the table without the row, and whether there was one. */
  function Delete(db: Table, id: int): (r: (Table, bool))
    ensures r.1 <==> id in db
    ensures r.0 == db - {id}
  {
    (db - {id}, id in db)
  }

  /** `user_has_key`. */
  function Has(db: Table, id: int): (r: bool)
    ensures r <==> Get(db, id).Some?
  {
    id in db
  }

  /** Storing then reading gives back exactly what was stored. */
  lemma StoreThenGet(db: Table, id: int, encryptedKey: string, salt: string, now: int)
    ensures Get(Store(db, id, encryptedKey, salt, now), id) == Some((encryptedKey, salt))
    ensures Has(Store(db, id, encryptedKey, salt, now), id)
  {
  }

  /** `get_encrypted_key` is `None` exactly when `user_has_key` is false. */
  lemma HasAgreesWithGet(db: Table, id: int)
    ensures Has(db, id) <==> Get(db, id).Some?
  {
  }

  /** After a delete nothing is stored for the id, and the result says whether something
      was. */
  lemma DeleteThenGet(db: Table, id: int)
    ensures Get(Delete(db, id).0, id) == None && !Has(Delete(db, id).0, id)
    ensures Delete(db, id).1 <==> Get(db, id).Some?
  {
  }

  /** Every operation leaves the other users' rows as they were. */
  lemma OthersUnchanged(db: Table, id: int, other: int, encryptedKey: string, salt: string, now: int)
    requires other != id
    ensures Get(Store(db, id, encryptedKey, salt, now), other) == Get(db, other)
    ensures Get(Delete(db, id).0, other) == Get(db, other)
    ensures Has(Store(db, id, encryptedKey, salt, now), other) == Has(db, other)
    ensures Has(Delete(db, id).0, other) == Has(db, other)
  {
  }

  /** Storing twice for an id keeps only the second key, with the first creation time. */
  lemma StoreOverwrites(db: Table, id: int, k1: string, s1: string, t1: int, k2: string, s2: string, t2: int)
    ensures var r := Store(Store(db, id, k1, s1, t1), id, k2, s2, t2);
      Get(r, id) == Some((k2, s2)) && r[id].createdAt == (if id in db then db[id].createdAt else t1)
      && r[id].updatedAt == t2
  {
  }
}

=== FILE: system.dfy ===
/** The uptime text of bot/cogs/system.py (`_format_uptime`). The clock is a parameter: the
    model takes the whole seconds elapsed since the bot started. */
module System {
  import opened Wrappers
  import opened Text

  const SecondsPerDay := 86400

  /** An elapsed time as `timedelta` holds it (days, which may be negative, and the seconds
      of the last day), with those seconds split by `divmod` into hours, minutes and
      seconds. */
  datatype Clock = Clock(days: int, hours: nat, minutes: nat, seconds: nat)

  predicate Normal(c: Clock)
  {
    c.hours < 24 && c.minutes < 60 && c.seconds < 60
  }

  function TotalSeconds(c: Clock): int
  {
    c.days * SecondsPerDay + c.hours * 3600 + c.minutes * 60 + c.seconds
  }

  /** `delta.days` and `divmod(delta.seconds, 3600)`, `divmod(rem, 60)`: the division by a
      positive divisor floors, as Python's does. */
  function Decompose(elapsed: int): Clock
  {
    var secs := elapsed % SecondsPerDay;
    var rem := secs % 3600;
    Clock(elapsed / SecondsPerDay, secs / 3600, rem / 60, rem % 60)
  }

  /** The decomposition adds back up to the elapsed time, with fewer than 24 hours and
      fewer than 60 minutes and seconds. */
  lemma DecomposeSums(elapsed: int)
    ensures Normal(Decompose(elapsed)) && TotalSeconds(Decompose(elapsed)) == elapsed
  {
    var c := Decompose(elapsed);
    var secs := elapsed % SecondsPerDay;
    var rem := secs % 3600;
    assert elapsed == c.days * SecondsPerDay + secs;
    assert secs == c.hours * 3600 + rem;
    assert rem == c.minutes * 60 + c.seconds;
  }

  /** It is the only such split: any normal clock adding up to the elapsed time is it. */
  lemma DecomposeUnique(elapsed: int, c: Clock)
    requires Normal(c) && TotalSeconds(c) == elapsed
    ensures c == Decompose(elapsed)
  {
    var r := c.hours * 3600 + c.minutes * 60 + c.seconds;
    assert 0 <= r < SecondsPerDay;
    assert elapsed == c.days * SecondsPerDay + r;
    assert elapsed / SecondsPerDay == c.days && elapsed % SecondsPerDay == r by {
      DivModUnique(elapsed, SecondsPerDay, c.days, r);
    }
    var rem := c.minutes * 60 + c.seconds;
    DivModUnique(r, 3600, c.hours, rem);
    DivModUnique(rem, 60, c.minutes, c.seconds);
  }

  lemma DivModUnique(a: int, b: int, q: int, r: int)
    requires b > 0 && 0 <= r < b && a == q * b + r
    ensures a / b == q && a % b == r
  {
    MulAtLeast(q - a / b, b);
  }

  lemma {:induction false} MulAtLeast(x: int, b: int)
    requires b > 0
    ensures x >= 1 ==> x * b >= b
    decreases if x >= 0 then x else -x
    ensures x <= -1 ==> x * b <= -b
  {
    if x > 1 {
      MulAtLeast(x - 1, b);
    } else if x < -1 {
      MulAtLeast(x + 1, b);
    }
  }

  /** `_format_uptime`, from the largest non-zero leading unit down to the seconds. */
  function FormatUptime(elapsed: int): string
  {
    var c := Decompose(elapsed);
    if c.days > 0 then
      IntToString(c.days) + "d " + IntToString(c.hours) + "h " + IntToString(c.minutes) + "m "
        + IntToString(c.seconds) + "s"
    else if c.hours > 0 then
      IntToString(c.hours) + "h " + IntToString(c.minutes) + "m " + IntToString(c.seconds) + "s"
    else if c.minutes > 0 then
      IntToString(c.minutes) + "m " + IntToString(c.seconds) + "s"
    else IntToString(c.seconds) + "s"
  }

  // ---------------------------------------------------------------------------------------
  // Reading an uptime text back

  /** One "{amount}{unit}" part of an uptime text. */
  datatype Piece = Piece(amount: nat, unit: char)

  predicate IsUnit(c: char) { c == 'd' || c == 'h' || c == 'm' || c == 's' }

  /** The seconds one of a unit stands for. */
  function Weight(unit: char): int
  {
    match unit
    case 'd' => SecondsPerDay
    case 'h' => 3600
    case 'm' => 60
    case _ => 1
  }

  /** Reads a text of space-separated "{amount}{unit}" parts. */
  function ReadUnits(t: string): Option<seq<Piece>>
  {
    var k := DigitRun(t);
    if k == 0 || k >= |t| || !IsUnit(t[k]) then None
    else
      var p := Piece(DigitsValue(t[..k]), t[k]);
      if k + 1 == |t| then Some([p])
      else if t[k + 1] != ' ' then None
      else
        match ReadUnits(t[k + 2..])
        case None => None
        case Some(more) => Some([p] + more)
  }

  /** The seconds a sequence of parts stands for. */
  function Weighted(ps: seq<Piece>): int
  {
    if |ps| == 0 then 0 else ps[0].amount * Weight(ps[0].unit) + Weighted(ps[1..])
  }

  lemma ReadFirstPiece(p: Piece, tail: string)
    requires IsUnit(p.unit)
    ensures var t := NatToString(p.amount) + [p.unit] + tail;
      DigitRun(t) == |NatToString(p.amount)| && DigitsValue(t[..DigitRun(t)]) == p.amount
      && t[DigitRun(t)] == p.unit && t[DigitRun(t) + 1..] == tail
  {
    var s := NatToString(p.amount);
    DigitRunOfDigits(s, [p.unit] + tail);
    assert s + [p.unit] + tail == s + ([p.unit] + tail);
    assert (s + [p.unit] + tail)[..|s|] == s;
    NatToStringValue(p.amount);
  }

  /** A part followed by a space and more text reads as the part and then the rest. */
  lemma ReadStep(p: Piece, tail: string)
    requires IsUnit(p.unit)
    ensures ReadUnits(NatToString(p.amount) + [p.unit, ' '] + tail)
         == match ReadUnits(tail) case None => None case Some(more) => Some([p] + more)
  {
    var digits := NatToString(p.amount);
    var t := digits + [p.unit, ' '] + tail;
    assert t == digits + [p.unit] + (" " + tail);
    ReadFirstPiece(p, " " + tail);
    var k := |digits|;
    assert DigitRun(t) == k && k + 1 < |t|;
    assert t[k] == p.unit && t[k + 1] == ' ' && t[k + 2..] == tail;
    assert Piece(DigitsValue(t[..k]), t[k]) == p;
  }

  /** A last part reads as itself. */
  lemma ReadLast(p: Piece)
    requires IsUnit(p.unit)
    ensures ReadUnits(NatToString(p.amount) + [p.unit]) == Some([p])
  {
    ReadFirstPiece(p, "");
    assert NatToString(p.amount) + [p.unit] + "" == NatToString(p.amount) + [p.unit];
  }

  /** The parts `_format_uptime` prints: days only when positive, and from the first
      printed unit on every smaller unit, zero or not. */
  function UptimePieces(elapsed: int): seq<Piece>
  {
    var c := Decompose(elapsed);
    var tail := [Piece(c.minutes, 'm'), Piece(c.seconds, 's')];
    if c.days > 0 then [Piece(c.days, 'd'), Piece(c.hours, 'h')] + tail
    else if c.hours > 0 then [Piece(c.hours, 'h')] + tail
    else if c.minutes > 0 then tail
    else [Piece(c.seconds, 's')]
  }

  lemma WeightedCons(p: Piece, rest: seq<Piece>)
    ensures Weighted([p] + rest) == p.amount * Weight(p.unit) + Weighted(rest)
  {
    assert ([p] + rest)[1..] == rest;
  }

  lemma Consed(a: Piece, b: Piece, c: Piece, d: Piece)
    ensures [a] + [b] == [a, b]
    ensures [a] + [b, c] == [a, b, c]
    ensures [a] + [b, c, d] == [a, b, c, d]
    ensures [a, b] + [c, d] == [a, b, c, d]
  {
  }

  lemma Regroup(a: string, b: string, c: string, d: string, e: string)
    ensures a + (b + c + d + e) == a + b + c + d + e
  {
  }

  lemma RegroupLonger(a: string, b: string, c: string, d: string, e: string, f: string, g: string)
    ensures a + (b + c + d + e + f + g) == a + b + c + d + e + f + g
  {
  }

  lemma ReadsBackMinutes(m: nat, sec: nat, text: string)
    requires text == NatToString(m) + "m " + NatToString(sec) + "s"
    ensures ReadUnits(text) == Some([Piece(m, 'm'), Piece(sec, 's')])
  {
    var tail := NatToString(sec) + "s";
    ReadLast(Piece(sec, 's'));
    ReadStep(Piece(m, 'm'), tail);
    assert text == NatToString(m) + "m " + tail;
    Consed(Piece(m, 'm'), Piece(sec, 's'), Piece(sec, 's'), Piece(sec, 's'));
  }

  lemma ReadsBackHours(h: nat, m: nat, sec: nat, text: string)
    requires text == NatToString(h) + "h " + NatToString(m) + "m " + NatToString(sec) + "s"
    ensures ReadUnits(text) == Some([Piece(h, 'h'), Piece(m, 'm'), Piece(sec, 's')])
  {
    var rest := NatToString(m) + "m " + NatToString(sec) + "s";
    ReadsBackMinutes(m, sec, rest);
    ReadStep(Piece(h, 'h'), rest);
    Regroup(NatToString(h) + "h ", NatToString(m), "m ", NatToString(sec), "s");
    assert text == NatToString(h) + "h " + rest;
    Consed(Piece(h, 'h'), Piece(m, 'm'), Piece(sec, 's'), Piece(sec, 's'));
  }

  lemma ReadsBackDays(d: nat, h: nat, m: nat, sec: nat, text: string)
    requires text == NatToString(d) + "d " + NatToString(h) + "h " + NatToString(m) + "m " + NatToString(sec) + "s"
    ensures ReadUnits(text) == Some([Piece(d, 'd'), Piece(h, 'h'), Piece(m, 'm'), Piece(sec, 's')])
  {
    var rest := NatToString(h) + "h " + NatToString(m) + "m " + NatToString(sec) + "s";
    ReadsBackHours(h, m, sec, rest);
    ReadStep(Piece(d, 'd'), rest);
    RegroupLonger(NatToString(d) + "d ", NatToString(h), "h ", NatToString(m), "m ", NatToString(sec), "s");
    assert text == NatToString(d) + "d " + rest;
    Consed(Piece(d, 'd'), Piece(h, 'h'), Piece(m, 'm'), Piece(sec, 's'));
  }

  /** The uptime text reads back as its parts: the leading unit is the largest non-zero one
      (seconds when all are zero), every smaller unit follows, and the amounts are the
      decomposed clock's. */
  lemma FormatUptimeReadsBack(elapsed: int)
    ensures ReadUnits(FormatUptime(elapsed)) == Some(UptimePieces(elapsed))
  {
    var c := Decompose(elapsed);
    var t := FormatUptime(elapsed);
    if c.days > 0 {
      ReadsBackDays(c.days, c.hours, c.minutes, c.seconds, t);
      Consed(Piece(c.days, 'd'), Piece(c.hours, 'h'), Piece(c.minutes, 'm'), Piece(c.seconds, 's'));
    } else if c.hours > 0 {
      ReadsBackHours(c.hours, c.minutes, c.seconds, t);
      Consed(Piece(c.hours, 'h'), Piece(c.minutes, 'm'), Piece(c.seconds, 's'), Piece(c.seconds, 's'));
    } else if c.minutes > 0 {
      ReadsBackMinutes(c.minutes, c.seconds, t);
    } else {
      ReadLast(Piece(c.seconds, 's'));
    }
  }

  /** The units run d, h, m, s from the first printed one, which is not zero unless it is
      the seconds. */
  lemma UptimePiecesShape(elapsed: int)
    ensures var ps := UptimePieces(elapsed);
      1 <= |ps| <= 4 && forall i :: 0 <= i < |ps| ==> ps[i].unit == "dhms"[4 - |ps| + i]
    ensures var ps := UptimePieces(elapsed);
      |ps| > 1 ==> ps[0].amount > 0
    ensures |UptimePieces(elapsed)| == 4 <==> Decompose(elapsed).days > 0
  {
    var c := Decompose(elapsed);
    if c.days > 0 {
      Consed(Piece(c.days, 'd'), Piece(c.hours, 'h'), Piece(c.minutes, 'm'), Piece(c.seconds, 's'));
    }
    Consed(Piece(c.hours, 'h'), Piece(c.minutes, 'm'), Piece(c.seconds, 's'), Piece(c.seconds, 's'));
  }

  /** For a non-negative elapsed time the printed parts add up to it exactly; for a
      negative one (a clock set back) the days are not printed and the parts add up to the
      seconds of the last day. */
  lemma UptimePiecesSum(elapsed: int)
    ensures elapsed >= 0 ==> Weighted(UptimePieces(elapsed)) == elapsed
    ensures elapsed < 0 ==> Weighted(UptimePieces(elapsed)) == elapsed % SecondsPerDay
  {
    DecomposeSums(elapsed);
    var c := Decompose(elapsed);
    var h, m, sec := Piece(c.hours, 'h'), Piece(c.minutes, 'm'), Piece(c.seconds, 's');
    Consed(h, m, sec, sec);
    Consed(m, sec, sec, sec);
    assert [sec] + [] == [sec];
    WeightedCons(sec, []);
    WeightedCons(m, [sec]);
    var low := c.minutes * 60 + c.seconds;
    assert Weighted([m, sec]) == low;
    WeightedCons(h, [m, sec]);
    if c.days > 0 {
      var d := Piece(c.days, 'd');
      Consed(d, h, m, sec);
      WeightedCons(d, [h, m, sec]);
    }
    assert elapsed % SecondsPerDay == c.hours * 3600 + low;
  }
}

=== FILE: text.dfy ===
/** Decimal rendering of integers (Python's `str(int)`), the matching parser,
    whitespace stripping (`str.strip()`) and substring search (`sub in s`). */
module Text {
  import opened Wrappers

  predicate IsDigit(c: char) { '0' <= c <= '9' }

  predicate AllDigits(s: string) { forall i :: 0 <= i < |s| ==> IsDigit(s[i]) }

  function DigitChar(d: nat): (c: char)
    requires d < 10
    ensures IsDigit(c) && c as int - '0' as int == d
  {
    (('0' as int) + d) as char
  }

  function DigitValue(c: char): nat
    requires IsDigit(c)
  {
    c as int - '0' as int
  }

  /** `str(n)` for a non-negative integer: canonical decimal digits. */
  function NatToString(n: nat): (s: string)
    ensures 1 <= |s| && AllDigits(s)
    ensures |s| > 1 ==> s[0] != '0'
    ensures n < 10 <==> |s| == 1
  {
    if n < 10 then [DigitChar(n)] else NatToString(n / 10) + [DigitChar(n % 10)]
  }

  /** The value of a digit string, most significant digit first. */
  function DigitsValue(s: string): nat
    requires AllDigits(s)
  {
    if |s| == 0 then 0 else DigitsValue(s[..|s| - 1]) * 10 + DigitValue(s[|s| - 1])
  }

  /** `str(i)` for any integer: a leading '-' for negatives. */
  function IntToString(i: int): (s: string)
    ensures 1 <= |s|
    ensures i < 0 <==> s[0] == '-'
  {
    if i < 0 then "-" + NatToString(-i) else NatToString(i)
  }

  /** Length of the longest all-digit prefix. */
  function DigitRun(s: string): (k: nat)
    ensures k <= |s| && AllDigits(s[..k])
    ensures k < |s| ==> !IsDigit(s[k])
  {
    if |s| > 0 && IsDigit(s[0]) then
      var k := 1 + DigitRun(s[1..]);
      assert s[..k] == [s[0]] + s[1..][..k - 1];
      k
    else 0
  }

  /** Reads a decimal natural number from the front of `s` and returns it with the rest. */
  function ParseNat(s: string): Option<(nat, string)>
  {
    var k := DigitRun(s);
    if k == 0 then None else Some((DigitsValue(s[..k]), s[k..]))
  }

  /** Reads an optionally negative decimal integer from the front of `s`. */
  function ParseInt(s: string): Option<(int, string)>
  {
    if |s| > 0 && s[0] == '-' then
      match ParseNat(s[1..])
      case Some((n, rest)) => Some((-(n as int), rest))
      case None => None
    else
      match ParseNat(s)
      case Some((n, rest)) => Some((n as int, rest))
      case None => None
  }

  /** A rest that cannot be mistaken for more digits. */
  predicate Delimited(rest: string) { |rest| == 0 || !IsDigit(rest[0]) }

  lemma {:induction false} NatToStringValue(n: nat)
    ensures DigitsValue(NatToString(n)) == n
  {
    if n >= 10 {
      var s := NatToString(n);
      assert s[..|s| - 1] == NatToString(n / 10);
      NatToStringValue(n / 10);
    }
  }

  lemma {:induction false} DigitRunOfDigits(ds: string, rest: string)
    requires AllDigits(ds) && Delimited(rest)
    ensures DigitRun(ds + rest) == |ds|
  {
    if |ds| > 0 {
      assert (ds + rest)[1..] == ds[1..] + rest;
      DigitRunOfDigits(ds[1..], rest);
    }
  }

  /** Round trip: the decimal rendering of `n` followed by a delimiter parses back to `n`. */
  lemma NatToStringParses(n: nat, rest: string)
    requires Delimited(rest)
    ensures ParseNat(NatToString(n) + rest) == Some((n, rest))
  {
    var s := NatToString(n);
    DigitRunOfDigits(s, rest);
    assert (s + rest)[..|s|] == s;
    assert (s + rest)[|s|..] == rest;
    NatToStringValue(n);
  }

  /** Round trip for `str(i)` on any integer. */
  lemma IntToStringParses(i: int, rest: string)
    requires Delimited(rest)
    ensures ParseInt(IntToString(i) + rest) == Some((i, rest))
  {
    if i < 0 {
      assert IntToString(i) == "-" + NatToString(-i);
      NegativeParses(-i, rest);
    } else {
      var digits := NatToString(i);
      assert IntToString(i) == digits;
      assert (digits + rest)[0] == digits[0] && IsDigit(digits[0]);
      NatToStringParses(i, rest);
      assert ParseNat(digits + rest) == Some((i as nat, rest));
    }
  }

  lemma NegativeParses(n: nat, rest: string)
    requires n > 0 && Delimited(rest)
    ensures ParseInt("-" + NatToString(n) + rest) == Some((-(n as int), rest))
  {
    var digits := NatToString(n) + rest;
    Assoc("-", NatToString(n), rest);
    SplitConcat("-", digits);
    NatToStringParses(n, rest);
  }

  /** Concatenation regrouped. */
  lemma Assoc(a: string, b: string, c: string)
    ensures a + b + c == a + (b + c)
  {
  }

  /** A concatenation cut where its parts meet. */
  lemma SplitConcat(a: string, b: string)
    ensures (a + b)[..|a|] == a && (a + b)[|a|..] == b
  {
  }

  /** Two equal renderings come from equal integers. */
  lemma IntToStringInjective(i: int, j: int)
    requires IntToString(i) == IntToString(j)
    ensures i == j
  {
    IntToStringParses(i, "");
    IntToStringParses(j, "");
    assert IntToString(i) + "" == IntToString(i);
    assert IntToString(j) + "" == IntToString(j);
  }

  /** Python's `sub in s` on strings. */
  predicate Contains(s: string, sub: string)
  {
    exists i | 0 <= i <= |s| - |sub| :: OccursAt(s, sub, i)
  }

  predicate OccursAt(s: string, sub: string, i: int)
  {
    0 <= i <= |s| - |sub| && s[i..i + |sub|] == sub
  }

  lemma ContainsAt(pre: string, sub: string, post: string)
    ensures Contains(pre + sub + post, sub)
  {
    var s := pre + sub + post;
    assert OccursAt(s, sub, |pre|);
  }

  /** A text lacking one of the characters of `sub` does not contain it. */
  lemma MissingCharNotContained(s: string, sub: string, k: int)
    requires 0 <= k < |sub| && forall i :: 0 <= i < |s| ==> s[i] != sub[k]
    ensures !Contains(s, sub)
  {
    forall i | 0 <= i <= |s| - |sub| ensures !OccursAt(s, sub, i) {
      assert s[i..i + |sub|][k] == s[i + k];
    }
  }

  /** `c` does not occur in `s`. */
  predicate Lacks(s: string, c: char)
  {
    forall i :: 0 <= i < |s| ==> s[i] != c
  }

  lemma LacksConcat(a: string, b: string, c: char)
    ensures Lacks(a + b, c) <==> Lacks(a, c) && Lacks(b, c)
  {
    if Lacks(a, c) && Lacks(b, c) {
      forall i | 0 <= i < |a + b| ensures (a + b)[i] != c {
        if i >= |a| {
          assert (a + b)[i] == b[i - |a|];
        }
      }
    }
    if Lacks(a + b, c) {
      forall i | 0 <= i < |a| ensures a[i] != c {
        assert (a + b)[i] == a[i];
      }
      forall i | 0 <= i < |b| ensures b[i] != c {
        assert (a + b)[|a| + i] == b[i];
      }
    }
  }

  /** `str(i)` is made of digits and at most a leading '-'. */
  lemma IntToStringLacks(i: int, c: char)
    requires !IsDigit(c) && c != '-'
    ensures Lacks(IntToString(i), c)
  {
    if i < 0 {
      LacksConcat("-", NatToString(-i), c);
    }
  }

  /** An occurrence of a text without `sep` lies wholly on one side of a `sep`. */
  lemma ContainsAcross(a: string, b: string, sub: string, sep: char)
    requires Lacks(sub, sep)
    ensures Contains(a + [sep] + b, sub) ==> Contains(a, sub) || Contains(b, sub)
  {
    var s := a + [sep] + b;
    if !Contains(a, sub) && !Contains(b, sub) {
      forall i | 0 <= i <= |s| - |sub| ensures !OccursAt(s, sub, i) {
        if i + |sub| <= |a| {
          assert s[i..i + |sub|] == a[i..i + |sub|];
          assert !OccursAt(a, sub, i);
        } else if i > |a| {
          var j := i - |a| - 1;
          assert s[i..i + |sub|] == b[j..j + |sub|];
          assert !OccursAt(b, sub, j);
        } else {
          assert s[i..i + |sub|][|a| - i] == sep;
        }
      }
    }
  }

  /** When the character `sub[k]` occurs in `s` only at `j`, the one place `sub` could
      occur is `j - k`. */
  lemma AnchoredNotContained(s: string, sub: string, k: int, j: int)
    requires 0 <= k < |sub|
    requires forall i :: 0 <= i < |s| && s[i] == sub[k] ==> i == j
    requires !OccursAt(s, sub, j - k)
    ensures !Contains(s, sub)
  {
    forall i | 0 <= i <= |s| - |sub| ensures !OccursAt(s, sub, i) {
      if i != j - k {
        assert s[i..i + |sub|][k] == s[i + k];
      }
    }
  }

  /** The characters `str.strip()` removes, those for which `str.isspace()` holds: tab to
      carriage return, the separators U+001C to U+001F, the space, U+0085, the no-break space
      and the Unicode space separators, line separator and paragraph separator. */
  predicate IsSpace(c: char)
  {
    '\t' <= c <= '\r' || '\U{1C}' <= c <= ' ' || c == '\U{85}' || c == '\U{A0}'
    || c == '\U{1680}' || '\U{2000}' <= c <= '\U{200A}' || c == '\U{2028}' || c == '\U{2029}'
    || c == '\U{202F}' || c == '\U{205F}' || c == '\U{3000}'
  }


  /** Where the whitespace run of `s` starting at `i` ends. */
  function SpaceRunEnd(s: string, i: nat): (k: nat)
    requires i <= |s|
    ensures i <= k <= |s| && (forall j :: i <= j < k ==> IsSpace(s[j]))
    ensures k < |s| ==> !IsSpace(s[k])
    decreases |s| - i
  {
    if i < |s| && IsSpace(s[i]) then SpaceRunEnd(s, i + 1) else i
  }

  /** Where the whitespace run of `s` ending at `j` starts, not going below `lo`. */
  function SpaceRunStart(s: string, lo: nat, j: nat): (k: nat)
    requires lo <= j <= |s|
    ensures lo <= k <= j && (forall m :: k <= m < j ==> IsSpace(s[m]))
    ensures lo < k ==> !IsSpace(s[k - 1])
    decreases j
  {
    if lo < j && IsSpace(s[j - 1]) then SpaceRunStart(s, lo, j - 1) else j
  }

  /** `s.strip()`: the middle of `s` between its leading and its trailing whitespace. */
  function Strip(s: string): (r: string)
    ensures exists i, j :: (0 <= i <= j <= |s| && r == s[i..j]
                            && (forall k :: 0 <= k < i ==> IsSpace(s[k]))
                            && (forall k :: j <= k < |s| ==> IsSpace(s[k])))
    ensures |r| > 0 ==> !IsSpace(r[0]) && !IsSpace(r[|r| - 1])
  {
    var i := SpaceRunEnd(s, 0);
    var j := SpaceRunStart(s, i, |s|);
    assert j > i ==> s[i..j][0] == s[i] && s[i..j][j - i - 1] == s[j - 1];
    s[i..j]
  }
}

=== FILE: utils.dfy ===
/** The pure helpers of bot/utils.py: duration formatting, page clamping, page counting and
    chunking. */
module Utils {
  import opened Wrappers
  import opened Text

  function Max(a: int, b: int): int { if a >= b then a else b }

  // ---------------------------------------------------------------------------------------
  // format_seconds

  /** " {unit}", with an "s" appended exactly when the count is not 1. */
  function Unit(n: int, unit: string): string
  {
    " " + unit + (if n != 1 then "s" else "")
  }

  /** "{n} {unit}" or "{n} {unit}s". */
  function Count(n: int, unit: string): string
  {
    IntToString(n) + Unit(n, unit)
  }

  /** `format_seconds` of bot/utils.py. */
  function FormatSeconds(seconds: int): string
  {
    if seconds == 0 then "0 secs"
    else if seconds < 60 then IntToString(seconds) + " secs"
    else if seconds < 3600 then
      Count(seconds / 60, "min")
    else
      var hours := seconds / 3600;
      var mins := (seconds % 3600) / 60;
      if mins > 0 then Count(hours, "hr") + " " + Count(mins, "min")
      else Count(hours, "hr")
  }

  /** What a duration text shows: seconds, minutes, or hours with the minutes after them
      (zero when the text names none). */
  datatype Reading = Secs(secs: int) | Mins(mins: int) | HoursMins(hours: int, mins: int)

  /** The number of seconds a reading stands for. */
  function Value(r: Reading): int
  {
    match r
    case Secs(s) => s
    case Mins(m) => m * 60
    case HoursMins(h, m) => h * 3600 + m * 60
  }

  /** Reads "{n} {unit}" with the plural form the count demands, returning n and what follows. */
  function ReadCount(t: string, unit: string): Option<(int, string)>
  {
    match ParseInt(t)
    case None => None
    case Some((n, rest)) =>
      var u := Unit(n, unit);
      if |u| <= |rest| && rest[..|u|] == u then Some((n, rest[|u|..])) else None
  }

  /** Reads "{n} secs". */
  function ReadSecs(t: string): Option<int>
  {
    match ParseInt(t)
    case Some((n, rest)) => if rest == " secs" then Some(n) else None
    case None => None
  }

  /** Reads "{m} min(s)". */
  function ReadMinutes(t: string): Option<int>
  {
    match ReadCount(t, "min")
    case Some((m, tail)) => if tail == "" then Some(m) else None
    case None => None
  }

  /** Reads "{h} hr(s)", optionally followed by " {m} min(s)" with a positive m: a zero
      minute count is never printed after the hours. */
  function ReadHours(t: string): Option<(int, int)>
  {
    match ReadCount(t, "hr")
    case None => None
    case Some((h, tail)) =>
      if tail == "" then Some((h, 0))
      else if tail[0] == ' ' then
        match ReadMinutes(tail[1..])
        case Some(m) => if m > 0 then Some((h, m)) else None
        case None => None
      else None
  }

  /** Reads a duration text back into what it shows; `None` for text no duration renders
      to. */
  function ReadDuration(t: string): Option<Reading>
  {
    if ReadSecs(t).Some? then Some(Secs(ReadSecs(t).value))
    else if ReadMinutes(t).Some? then Some(Mins(ReadMinutes(t).value))
    else if ReadHours(t).Some? then Some(HoursMins(ReadHours(t).value.0, ReadHours(t).value.1))
    else None
  }

  lemma ReadCountOf(n: int, unit: string, tail: string)
    ensures ReadCount(Count(n, unit) + tail, unit) == Some((n, tail))
  {
    var u := Unit(n, unit);
    assert Count(n, unit) + tail == IntToString(n) + (u + tail);
    IntToStringParses(n, u + tail);
    assert (u + tail)[..|u|] == u;
    assert (u + tail)[|u|..] == tail;
  }

  /** A count of one unit is not read as a count of another unit whose name starts
      differently. */
  lemma ReadCountOtherUnit(n: int, unit: string, other: string, tail: string)
    requires |unit| > 0 && |other| > 0 && unit[0] != other[0]
    ensures ReadCount(Count(n, unit) + tail, other) == None
  {
    var u, v := Unit(n, unit), Unit(n, other);
    var w := u + tail;
    assert Count(n, unit) + tail == IntToString(n) + w;
    assert w[0] == ' ';
    IntToStringParses(n, w);
    // The two unit texts part at their second character.
    assert w[1] == unit[0] != other[0] == v[1];
    assert |v| > 1 && (|v| > |w| || w[..|v|][1] != v[1]);
  }

  /** A count of a unit other than seconds is not read as seconds. */
  lemma ReadSecsOtherUnit(n: int, unit: string, tail: string)
    requires |unit| > 0 && unit[0] != 's'
    ensures ReadSecs(Count(n, unit) + tail) == None
  {
    var w := Unit(n, unit) + tail;
    assert Count(n, unit) + tail == IntToString(n) + w;
    assert w[0] == ' ';
    IntToStringParses(n, w);
    assert w[1] == unit[0] != " secs"[1];
  }

  lemma ReadMinutesOf(m: int)
    ensures ReadMinutes(Count(m, "min")) == Some(m)
  {
    assert Count(m, "min") == Count(m, "min") + "";
    ReadCountOf(m, "min", "");
  }

  lemma ReadMinutesOtherUnit(t: string)
    requires ReadCount(t, "min") == None
    ensures ReadMinutes(t) == None
  {
  }

  lemma ReadHoursOf(h: int, x: string, m: int)
    requires ReadMinutes(x) == Some(m) && m > 0
    ensures ReadHours(Count(h, "hr") + (" " + x)) == Some((h, m))
  {
    ReadCountOf(h, "hr", " " + x);
    ReadHoursTail(Count(h, "hr") + (" " + x), h, " " + x, m);
  }

  lemma ReadHoursTail(t: string, h: int, tail: string, m: int)
    requires ReadCount(t, "hr") == Some((h, tail))
    requires |tail| > 0 && tail[0] == ' ' && ReadMinutes(tail[1..]) == Some(m) && m > 0
    ensures ReadHours(t) == Some((h, m))
  {
  }

  lemma ReadHoursEnd(t: string, h: int)
    requires ReadCount(t, "hr") == Some((h, ""))
    ensures ReadHours(t) == Some((h, 0))
  {
  }

  /** ReadDuration falls through to hours when neither seconds nor minutes match. */
  lemma ReadDurationFromHours(t: string, h: int, m: int)
    requires ReadSecs(t) == None && ReadMinutes(t) == None && ReadHours(t) == Some((h, m))
    ensures ReadDuration(t) == Some(HoursMins(h, m))
  {
  }

  lemma ReadsBackSecs(seconds: int)
    ensures ReadDuration(IntToString(seconds) + " secs") == Some(Secs(seconds))
  {
    IntToStringParses(seconds, " secs");
  }

  lemma ReadsBackMinutes(m: int)
    ensures ReadDuration(Count(m, "min")) == Some(Mins(m))
  {
    assert Count(m, "min") == Count(m, "min") + "";
    ReadSecsOtherUnit(m, "min", "");
    ReadMinutesOf(m);
  }

  lemma ReadsBackHoursOnly(h: int)
    ensures ReadDuration(Count(h, "hr")) == Some(HoursMins(h, 0))
  {
    var t := Count(h, "hr") + "";
    assert Count(h, "hr") == t;
    ReadSecsOtherUnit(h, "hr", "");
    ReadCountOtherUnit(h, "hr", "min", "");
    ReadMinutesOtherUnit(t);
    ReadCountOf(h, "hr", "");
    ReadHoursEnd(t, h);
    ReadDurationFromHours(t, h, 0);
  }

  lemma ReadsBackHoursMinutes(h: int, m: int)
    requires m > 0
    ensures ReadDuration(Count(h, "hr") + (" " + Count(m, "min"))) == Some(HoursMins(h, m))
  {
    var x := Count(m, "min");
    var t := Count(h, "hr") + (" " + x);
    ReadMinutesOf(m);
    ReadHoursOf(h, x, m);
    ReadSecsOtherUnit(h, "hr", " " + x);
    ReadCountOtherUnit(h, "hr", "min", " " + x);
    ReadMinutesOtherUnit(t);
    ReadDurationFromHours(t, h, m);
  }

  /** A text naming zero minutes after the hours is not a duration text: the reader tells
      "{h} hrs" from "{h} hrs 0 mins". */
  lemma ZeroMinutesNotRead(h: int)
    ensures ReadDuration(Count(h, "hr") + (" " + Count(0, "min"))) == None
  {
    var x := Count(0, "min");
    var t := Count(h, "hr") + (" " + x);
    ReadMinutesOf(0);
    ReadCountOf(h, "hr", " " + x);
    assert (" " + x)[1..] == x;
    ReadSecsOtherUnit(h, "hr", " " + x);
    ReadCountOtherUnit(h, "hr", "min", " " + x);
    ReadMinutesOtherUnit(t);
  }

  /** What `format_seconds` renders `seconds` as: the exact seconds below a minute, whole
      minutes below an hour, and whole hours with the remaining whole minutes after that. */
  function Shown(seconds: int): Reading
  {
    if seconds < 60 then Secs(seconds)
    else if seconds < 3600 then Mins(seconds / 60)
    else HoursMins(seconds / 3600, (seconds % 3600) / 60)
  }

  /** Reading the text back recovers what it shows. */
  lemma FormatSecondsReadsBack(seconds: int)
    ensures ReadDuration(FormatSeconds(seconds)) == Some(Shown(seconds))
  {
    if seconds < 60 {
      ReadsBackSecs(seconds);
    } else if seconds < 3600 {
      ReadsBackMinutes(seconds / 60);
    } else if seconds % 3600 < 60 {
      FormatWholeHours(seconds);
    } else {
      FormatHoursMinutes(seconds);
    }
  }

  lemma FormatWholeHours(seconds: int)
    requires seconds >= 3600 && seconds % 3600 < 60
    ensures FormatSeconds(seconds) == Count(seconds / 3600, "hr")
    ensures ReadDuration(FormatSeconds(seconds)) == Some(Shown(seconds))
  {
    var h := seconds / 3600;
    assert FormatSeconds(seconds) == Count(h, "hr");
    ReadsBackHoursOnly(h);
  }

  lemma FormatHoursMinutes(seconds: int)
    requires seconds >= 3600 && seconds % 3600 >= 60
    ensures (seconds % 3600) / 60 > 0
    ensures FormatSeconds(seconds) == Count(seconds / 3600, "hr") + " " + Count((seconds % 3600) / 60, "min")
    ensures ReadDuration(FormatSeconds(seconds)) == Some(Shown(seconds))
  {
    var h := seconds / 3600;
    var m := (seconds % 3600) / 60;
    assert m > 0;
    var t := Count(h, "hr") + " " + Count(m, "min");
    assert FormatSeconds(seconds) == t;
    assert t == Count(h, "hr") + (" " + Count(m, "min"));
    ReadsBackHoursMinutes(h, m);
  }

  /** The shown duration is exact below a minute and otherwise `seconds` truncated to whole
      minutes. */
  lemma ShownTruncatesToMinutes(seconds: int)
    ensures var v := Value(Shown(seconds));
      if seconds < 60 then v == seconds else v % 60 == 0 && v <= seconds < v + 60
  {
    if seconds >= 60 {
      // The shown value is a whole number k of minutes.
      var k: int;
      if seconds < 3600 {
        k := seconds / 60;
        assert Value(Shown(seconds)) == k * 60;
      } else {
        var h, rem := seconds / 3600, seconds % 3600;
        var m := rem / 60;
        k := h * 60 + m;
        assert Value(Shown(seconds)) == h * 3600 + m * 60 == k * 60;
        assert seconds == h * 3600 + rem && rem == m * 60 + rem % 60;
      }
      assert k * 60 <= seconds < k * 60 + 60;
      WholeMinutes(k);
    }
  }

  lemma WholeMinutes(k: int)
    ensures (k * 60) % 60 == 0
  {
  }

  // ---------------------------------------------------------------------------------------
  // Paging

  /** `clamp_page`: the requested page moved into 1..max(1, total_pages). */
  function ClampPage(page: int, totalPages: int): (r: int)
    ensures 1 <= r <= Max(1, totalPages)
    ensures 1 <= page <= Max(1, totalPages) ==> r == page
    ensures page < 1 ==> r == 1
    ensures page > Max(1, totalPages) ==> r == Max(1, totalPages)
  {
    var total := Max(1, totalPages);
    Max(1, if page <= total then page else total)
  }

  /** Clamping twice is clamping once. */
  lemma ClampPageIdempotent(page: int, totalPages: int)
    ensures ClampPage(ClampPage(page, totalPages), totalPages) == ClampPage(page, totalPages)
  {
  }

  /** The clamped page is the in-range page nearest to the requested one. */
  lemma ClampPageNearest(page: int, totalPages: int, other: int)
    requires 1 <= other <= Max(1, totalPages)
    ensures var r := ClampPage(page, totalPages);
      (if r <= page then page - r else r - page) <= (if other <= page then page - other else other - page)
  {
  }

  /** `calculate_total_pages`: the fewest pages of `perPage` items holding `totalItems`, and
      at least one page. */
  function TotalPages(totalItems: int, perPage: int): (r: int)
    ensures r >= 1
    ensures perPage <= 0 ==> r == 1
    ensures perPage > 0 ==> r * perPage >= totalItems
    ensures perPage > 0 && r > 1 ==> (r - 1) * perPage < totalItems
  {
    if perPage <= 0 then 1
    else
      var q := (totalItems + perPage - 1) / perPage;
      var rem := (totalItems + perPage - 1) % perPage;
      assert q * perPage + rem == totalItems + perPage - 1;
      assert 0 <= rem < perPage;
      assert (q - 1) * perPage == q * perPage - perPage;
      Max(1, q)
  }

  // ---------------------------------------------------------------------------------------
  // iter_chunked

  /** The items of the chunks, in order. */
  function Flatten<T>(chunks: seq<seq<T>>): seq<T>
  {
    if |chunks| == 0 then [] else Flatten(chunks[..|chunks| - 1]) + chunks[|chunks| - 1]
  }

  /** The size full chunks have: a size below 1 flushes after every item. */
  function ChunkWidth(size: int): nat
  {
    if size < 1 then 1 else size
  }

  /** `iter_chunked`: the chunks it yields, in order. */
  method IterChunked<T>(items: seq<T>, size: int) returns (chunks: seq<seq<T>>)
    // the chunks hold the items, in order ...
    ensures Flatten(chunks) == items
    // ... none is empty, and every chunk but the last is full
    ensures forall i :: 0 <= i < |chunks| ==> 1 <= |chunks[i]| <= ChunkWidth(size)
    ensures forall i :: 0 <= i < |chunks| - 1 ==> |chunks[i]| == ChunkWidth(size)
  {
    chunks := [];
    var chunk: seq<T> := [];
    for i := 0 to |items|
      invariant Flatten(chunks) + chunk == items[..i]
      invariant forall j :: 0 <= j < |chunks| ==> |chunks[j]| == ChunkWidth(size)
      invariant |chunk| < ChunkWidth(size)
    {
      assert items[..i + 1] == items[..i] + [items[i]];
      chunk := chunk + [items[i]];
      if |chunk| >= size {
        assert Flatten(chunks + [chunk]) == Flatten(chunks) + chunk by {
          assert (chunks + [chunk])[..|chunks|] == chunks;
        }
        chunks := chunks + [chunk];
        chunk := [];
      }
    }
    assert items[..|items|] == items;
    if |chunk| > 0 {
      assert Flatten(chunks + [chunk]) == Flatten(chunks) + chunk by {
        assert (chunks + [chunk])[..|chunks|] == chunks;
      }
      chunks := chunks + [chunk];
    }
  }
}

=== FILE: views.dfy ===
/** The interactive views of bot/cogs/views.py: Previous/Next button state and page moves of
    `PaginationView`, the page slice `ShopListView` shows, the truncation of long texts, the
    fields of a devlog page, and the `ConfirmView` flag. */
module Views {
  import opened Wrappers
  import opened Text
  import opened Utils

  function Min(a: int, b: int): int { if a <= b then a else b }

  // ---------------------------------------------------------------------------------------
  // Pagination buttons

  /** Where a pagination view stands. */
  datatype Pager = Pager(current: int, total: int)

  /** What `_update_buttons` sets on the view. */
  datatype Buttons = Buttons(prevDisabled: bool, nextDisabled: bool, pageLabel: string)

  datatype Button = Prev | Next

  /** "Page {cur}/{total}". */
  function Label(current: int, total: int): string
  {
    "Page " + IntToString(current) + "/" + IntToString(total)
  }

  /** `_update_buttons`: Previous is off on the first page, Next on the last. */
  function UpdateButtons(p: Pager): Buttons
  {
    Buttons(p.current <= 1, p.current >= p.total, Label(p.current, p.total))
  }

  /** Reads a page label back into the current page and the page count. */
  function ReadLabel(text: string): Option<(int, int)>
  {
    if |text| < 5 || text[..5] != "Page " then None
    else match ParseInt(text[5..])
      case None => None
      case Some((cur, rest)) =>
        if |rest| == 0 || rest[0] != '/' then None
        else match ParseInt(rest[1..])
          case Some((total, tail)) => if tail == "" then Some((cur, total)) else None
          case None => None
  }

  lemma ReadLabelParts(text: string, cur: int, rest: string, total: int)
    requires |text| >= 5 && text[..5] == "Page "
    requires ParseInt(text[5..]) == Some((cur, rest))
    requires |rest| > 0 && rest[0] == '/' && ParseInt(rest[1..]) == Some((total, ""))
    ensures ReadLabel(text) == Some((cur, total))
  {
  }

  /** Round trip: the label shows exactly the current page and the page count. */
  lemma LabelReadsBack(current: int, total: int)
    ensures ReadLabel(Label(current, total)) == Some((current, total))
  {
    var text := Label(current, total);
    var digits := IntToString(total);
    var rest := "/" + digits;
    Assoc("Page " + IntToString(current), "/", digits);
    Assoc("Page ", IntToString(current), rest);
    SplitConcat("Page ", IntToString(current) + rest);
    IntToStringParses(current, rest);
    SplitConcat("/", digits + "");
    assert digits + "" == digits;
    IntToStringParses(total, "");
    ReadLabelParts(text, current, rest, total);
  }

  predicate Enabled(p: Pager, b: Button)
  {
    match b
    case Prev => !UpdateButtons(p).prevDisabled
    case Next => !UpdateButtons(p).nextDisabled
  }

  /** A button is enabled exactly when its move keeps the page at least 1 (Previous) or at
      most the page count (Next), and the label shows the page the view stands on. */
  lemma ButtonsGuardRange(p: Pager)
    ensures Enabled(p, Prev) <==> Move(p, Prev).current >= 1
    ensures Enabled(p, Next) <==> Move(p, Next).current <= p.total
    ensures ReadLabel(UpdateButtons(p).pageLabel) == Some((p.current, p.total))
  {
    LabelReadsBack(p.current, p.total);
  }

  /** The page move of `prev_button` / `next_button`. */
  function Move(p: Pager, b: Button): Pager
  {
    match b
    case Prev => p.(current := p.current - 1)
    case Next => p.(current := p.current + 1)
  }

  /** The view after a sequence of clicks; a click on a disabled button is never delivered. */
  function Navigate(p: Pager, clicks: seq<Button>): Pager
  {
    if |clicks| == 0 then p
    else
      var last := clicks[|clicks| - 1];
      var q := Navigate(p, clicks[..|clicks| - 1]);
      if Enabled(q, last) then Move(q, last) else q
  }

  /** Starting in range, clicks on enabled buttons keep the page in range. */
  lemma {:induction false} NavigateStaysInRange(p: Pager, clicks: seq<Button>)
    requires 1 <= p.current <= p.total
    ensures Navigate(p, clicks).total == p.total
    ensures 1 <= Navigate(p, clicks).current <= p.total
  {
    if |clicks| > 0 {
      NavigateStaysInRange(p, clicks[..|clicks| - 1]);
    }
  }

  /** What a button handler replies with: the new page's embed, or the error text. */
  datatype Reply<E> = Edited(embed: E) | ErrorSent(message: string)

  datatype Clicked<E> = Clicked(pager: Pager, buttons: Buttons, fetched: int, reply: Reply<E>)

  /** One click: move the page, refresh the buttons, then render the new page, where
      `getEmbed` stands for the subclass's `get_embed` and fails with an API error's text. */
  function Click<E>(p: Pager, b: Button, getEmbed: int -> Result<E, string>): Clicked<E>
  {
    var q := Move(p, b);
    var reply := match getEmbed(q.current)
      case Ok(e) => Edited(e)
      case Err(msg) => ErrorSent("API error: " + msg);
    Clicked(q, UpdateButtons(q), q.current, reply)
  }

  /** A click moves the page by exactly one, refreshes the buttons for the new page and
      renders that page; the move is made before the fetch, so a failed fetch leaves it
      in place. */
  lemma ClickCommitsBeforeFetch<E>(p: Pager, b: Button, g1: int -> Result<E, string>,
                                   g2: int -> Result<E, string>)
    ensures var c := Click(p, b, g1);
      c.pager.total == p.total
      && c.pager.current == (if b == Next then p.current + 1 else p.current - 1)
      && c.buttons == UpdateButtons(c.pager) && c.fetched == c.pager.current
    ensures Click(p, b, g1).pager == Click(p, b, g2).pager
    ensures Click(p, b, g1).buttons == Click(p, b, g2).buttons
    ensures var c := Click(p, b, g1);
      g1(c.fetched).Err? ==> c.reply == ErrorSent("API error: " + g1(c.fetched).error)
  {
  }

  // ---------------------------------------------------------------------------------------
  // Shop page slicing

  /** A slice bound as Python resolves it: negatives count from the end, both clamp to the
      sequence. */
  function SliceBound(n: nat, i: int): (r: nat)
    ensures r <= n
  {
    if i < 0 then (if n + i < 0 then 0 else n + i) else Min(i, n)
  }

  /** `s[a:b]` in Python. */
  function PySlice<T>(s: seq<T>, a: int, b: int): seq<T>
  {
    var lo := SliceBound(|s|, a);
    var hi := SliceBound(|s|, b);
    if lo < hi then s[lo..hi] else []
  }

  /** The items `ShopListView.get_embed` shows on `page`. */
  function ShopPage<T>(items: seq<T>, page: int, perPage: int): seq<T>
  {
    var start := (page - 1) * perPage;
    PySlice(items, start, start + perPage)
  }

  lemma MulMonotone(a: int, b: int, c: int)
    requires 0 <= c && a <= b
    ensures a * c <= b * c
  {
  }

  /** From page 1 on, page `page` holds the items from index (page-1)*perPage up to
      page*perPage, cut off at the end of the list. */
  lemma ShopPageWindow<T>(items: seq<T>, page: int, perPage: int)
    requires page >= 1 && perPage >= 1
    ensures ShopPage(items, page, perPage)
      == items[Min((page - 1) * perPage, |items|)..Min(page * perPage, |items|)]
  {
    MulMonotone(0, page - 1, perPage);
    MulMonotone(page - 1, page, perPage);
    assert (page - 1) * perPage + perPage == page * perPage;
  }

  /** Pages 1..k of the shop, in order. */
  function ShopPages<T>(items: seq<T>, perPage: int, k: nat): seq<seq<T>>
  {
    if k == 0 then [] else ShopPages(items, perPage, k - 1) + [ShopPage(items, k, perPage)]
  }

  lemma FlattenSnoc<T>(chunks: seq<seq<T>>, last: seq<T>)
    ensures Flatten(chunks + [last]) == Flatten(chunks) + last
  {
    assert (chunks + [last])[..|chunks|] == chunks;
  }

  lemma ConcatWindows<T>(items: seq<T>, a: int, b: int)
    requires 0 <= a <= b <= |items|
    ensures items[..a] + items[a..b] == items[..b]
  {
  }

  lemma {:induction false} ShopPagesPrefix<T>(items: seq<T>, perPage: int, k: nat)
    requires perPage >= 1
    ensures Flatten(ShopPages(items, perPage, k)) == items[..Min(k * perPage, |items|)]
  {
    if k > 0 {
      var m, e := (k - 1) * perPage, k * perPage;
      MulMonotone(0, k - 1, perPage);
      MulMonotone(k - 1, k, perPage);
      var lo, hi := Min(m, |items|), Min(e, |items|);
      ShopPagesPrefix(items, perPage, k - 1);
      ShopPageWindow(items, k, perPage);
      FlattenSnoc(ShopPages(items, perPage, k - 1), ShopPage(items, k, perPage));
      ConcatWindows(items, lo, hi);
      calc {
        Flatten(ShopPages(items, perPage, k));
        Flatten(ShopPages(items, perPage, k - 1)) + ShopPage(items, k, perPage);
        items[..lo] + items[lo..hi];
        items[..hi];
      }
    }
  }

  /** The pages 1..TotalPages of the shop hold every item exactly once and in order, so
      distinct pages never share an item. */
  lemma ShopPagesPartition<T>(items: seq<T>, perPage: int)
    requires perPage >= 1
    ensures Flatten(ShopPages(items, perPage, TotalPages(|items|, perPage))) == items
  {
    var k := TotalPages(|items|, perPage);
    ShopPagesPrefix(items, perPage, k);
    assert items[..|items|] == items;
  }

  /** A page past the last one is empty. */
  lemma ShopPageBeyondEnd<T>(items: seq<T>, page: int, perPage: int)
    requires perPage >= 1 && page > TotalPages(|items|, perPage)
    ensures ShopPage(items, page, perPage) == []
  {
    var t := TotalPages(|items|, perPage);
    ShopPageWindow(items, page, perPage);
    MulMonotone(t, page - 1, perPage);
  }

  // ---------------------------------------------------------------------------------------
  // Truncation

  const DevlogBodyLimit := 120
  const SearchDescriptionLimit := 100
  const ListDescriptionLimit := 80

  /** `text[:limit-3] + "..."` when the text is longer than `limit`. */
  function Truncate(text: string, limit: int): (r: string)
    requires limit >= 3
    ensures |r| == Min(|text|, limit)
    ensures |text| <= limit ==> r == text
    ensures |text| > limit ==> r == text[..limit - 3] + "..."
  {
    if |text| > limit then text[..limit - 3] + "..." else text
  }

  /** Truncating again changes nothing. */
  lemma TruncateIdempotent(text: string, limit: int)
    requires limit >= 3
    ensures Truncate(Truncate(text, limit), limit) == Truncate(text, limit)
  {
  }

  /** The description of a project field: "-" in place of a missing or empty description,
      then truncated. */
  function ProjectDescription(desc: Option<string>, limit: int): (r: string)
    requires limit >= 3
    ensures 1 <= |r| <= limit
    ensures desc.None? || desc.value == "" ==> r == "-"
    ensures desc.Some? && 0 < |desc.value| <= limit ==> r == desc.value
    ensures desc.Some? && |desc.value| > limit ==> r == desc.value[..limit - 3] + "..."
  {
    var d := if desc.None? || desc.value == "" then "-" else desc.value;
    Truncate(d, limit)
  }

  /** Shown again as a description, a shown description is unchanged. */
  lemma ProjectDescriptionIdempotent(desc: Option<string>, limit: int)
    requires limit >= 3
    ensures ProjectDescription(Some(ProjectDescription(desc, limit)), limit) == ProjectDescription(desc, limit)
  {
  }

  // ---------------------------------------------------------------------------------------
  // Devlog pages

  /** The `id` entry of a devlog record as JSON gives it: absent, null, or a scalar. */
  datatype DevlogId = IdMissing | IdNull | IdNumber(n: int) | IdText(text: string) | IdBool(b: bool)

  /** The parts of a devlog record a page shows; a `None` body is a missing or null entry
      (both read as ""). */
  datatype Devlog = Devlog(id: DevlogId, body: Option<string>)

  datatype Field = Field(name: string, value: string)

  const DevlogFieldsPerPage := 10

  /** The value of a devlog's field: the stripped body, truncated, or "No body". */
  function DevlogValue(body: Option<string>): string
  {
    var b := Strip(body.GetOr(""));
    var t := Truncate(b, DevlogBodyLimit);
    if t == "" then "No body" else t
  }

  /** How `f"{d.get('id', 'unknown')}"` renders the id: the default for an absent entry,
      Python's spelling of null and of the booleans, and the value itself otherwise. */
  function IdRendering(id: DevlogId): string
  {
    match id
    case IdMissing => "unknown"
    case IdNull => "None"
    case IdNumber(n) => IntToString(n)
    case IdText(t) => t
    case IdBool(b) => if b then "True" else "False"
  }

  function DevlogField(d: Devlog): Field
  {
    Field(DevlogFieldPrefix + IdRendering(d.id), DevlogValue(d.body))
  }

  const DevlogFieldPrefix := "Devlog "

  /** A field's name is "Devlog " and the rendered id: a numeric id reads back from it, a null
      one shows as "None" and only an absent one as "unknown". */
  lemma DevlogFieldName(d: Devlog)
    ensures var name := DevlogField(d).name;
      |name| >= |DevlogFieldPrefix| && name[..|DevlogFieldPrefix|] == DevlogFieldPrefix
    ensures d.id.IdNumber? ==>
      ParseInt(DevlogField(d).name[|DevlogFieldPrefix|..]) == Some((d.id.n, ""))
    ensures d.id == IdNull ==> DevlogField(d).name == "Devlog None"
    ensures DevlogField(d).name == "Devlog unknown" <==> d.id == IdMissing || d.id == IdText("unknown")
  {
    var rendered := IdRendering(d.id);
    SplitConcat(DevlogFieldPrefix, rendered);
    SplitConcat(DevlogFieldPrefix, "unknown");
    assert "Devlog None" == DevlogFieldPrefix + "None";
    if d.id.IdNumber? {
      IntToStringParses(d.id.n, "");
      assert rendered + "" == rendered;
    }
    RenderedUnknown(d.id);
  }

  /** Only an absent id and the text "unknown" itself render as "unknown". */
  lemma RenderedUnknown(id: DevlogId)
    ensures IdRendering(id) == "unknown" <==> id == IdMissing || id == IdText("unknown")
  {
    // Every other id renders to a text that differs from "unknown" in its first character.
    match id
    case IdNull => assert IdRendering(id)[0] == 'N';
    case IdBool(b) => assert IdRendering(id)[0] == 'T' || IdRendering(id)[0] == 'F';
    case IdNumber(n) =>
      if n >= 0 {
        assert IdRendering(id) == NatToString(n);
        assert IsDigit(IdRendering(id)[0]);
      }
      assert IdRendering(id)[0] != 'u';
    case _ =>
  }

  /** The fields of a devlog page: one per devlog, for the first ten. */
  function DevlogFields(devlogs: seq<Devlog>): seq<Field>
  {
    var shown := devlogs[..Min(|devlogs|, DevlogFieldsPerPage)];
    seq(|shown|, i requires 0 <= i < |shown| => DevlogField(shown[i]))
  }

  /** A devlog page has at most ten fields, one for each of the first devlogs in order; every
      value is non-empty and at most 120 characters: the body's visible text, truncated, when
      it has any, and "No body" when it has none. */
  lemma DevlogFieldsShape(devlogs: seq<Devlog>)
    ensures |DevlogFields(devlogs)| == Min(|devlogs|, DevlogFieldsPerPage)
    ensures forall i :: 0 <= i < |DevlogFields(devlogs)| ==>
      DevlogFields(devlogs)[i] == DevlogField(devlogs[i])
    ensures forall d: Option<string> :: 1 <= |DevlogValue(d)| <= DevlogBodyLimit
    ensures forall d: Option<string> :: Strip(d.GetOr("")) == "" ==> DevlogValue(d) == "No body"
    ensures forall d: Option<string> :: Strip(d.GetOr("")) != "" ==>
      DevlogValue(d) == Truncate(Strip(d.GetOr("")), DevlogBodyLimit)
  {
  }

  // ---------------------------------------------------------------------------------------
  // Confirmation

  datatype ConfirmChoice = ConfirmPressed | CancelPressed

  /** The state a `ConfirmView` is left in: its flag, whether it stopped, and the text the
      message is edited to. */
  datatype ConfirmState = ConfirmState(confirmed: bool, stopped: bool, edited: Option<string>)

  /** The view after the user's answer; `None` is a timeout, which leaves the flag false. */
  function ConfirmOutcome(answer: Option<ConfirmChoice>): (s: ConfirmState)
    ensures s.confirmed <==> answer == Some(ConfirmPressed)
    ensures s.stopped <==> answer.Some?
    ensures s.edited.Some? <==> answer.Some?
  {
    match answer
    case Some(ConfirmPressed) => ConfirmState(true, true, Some("Confirmed. Processing..."))
    case Some(CancelPressed) => ConfirmState(false, true, Some("Cancelled."))
    case None => ConfirmState(false, false, None)
  }
}

=== FILE: wrappers.dfy ===
/** Option and Result values standing in for Python's `None` and for raised exceptions. */
module Wrappers {

  datatype Option<+T> = None | Some(value: T) {
    function GetOr(default: T): T {
      match this
      case Some(v) => v
      case None => default
    }
  }

  datatype Result<+R, +E> = Ok(value: R) | Err(error: E)
}
